=== FILE: README.md ===
# Synthia chat widget: a verified model of its client-side core

The widget is a chat popup embedded in a web page. It exists in overlapping
variants:
- sw-ai-chat.js is a self-contained script.
- chatMain.js, chatFull.js, chatSave.js and chatPersist.js split the same widget across scripts.

This project models the logic both variants run as pure Dafny functions, methods and lemmas:
- the chat history kept in the browser's storage;
- the text formatting of a message bubble and the two anchor-tag rewriters;
- the send exchange with its reply selection, and the trailing-edge debounce;
- the full-screen mode and its scroll lock;
- the guards that keep event handlers from being attached twice;
- the transcript download;
- the popup session that survives page loads.

Each variant is modelled as it is written, and the differences between variants are stated as lemmas.

Inputs replace everything the widget reads from its surroundings:
- The clock is a number of milliseconds.
- Storage is a map from key to `Absent | Corrupt | Record(timestamp, messages)`.
- A request is replaced by its outcome: the fetch rejects, or a response arrives with a status and a body that does or does not parse.
- The DOM is replaced by element nodes (a `dataset` and a list of handlers) and by oracles that say, step by step, whether an element exists or is visible.
- Dates are given as calendar fields.

Modules, one per component:
- `Js` holds the JavaScript built-ins the code relies on: `trim`, ASCII `toLowerCase`, `includes`, `startsWith`, `slice(-n)`, `String(n)` and `padStart`.
- `History`, `Format`, `Links` and `Display` cover storage, formatting and rendering.
- `Session` and `Debounce` cover the send exchange.
- `FullScreen`, `Registry` and `SwBoot` cover UI state.
- `Transcript` covers the download.
- `Popup` covers the session persistence.

Some behaviour of the code is easy to misread, and the model keeps it as written:
- **https links.** chatMain.js leaves an off-site `https://` link without `target="_blank"` (Finding 1).
- **History saves per exchange.** Both variants save the history twice per exchange, because each of the two `appendMessage` calls loads and saves it.
- **Requests in flight.** Only chatMain.js keeps one request in flight, by disabling the input. sw-ai-chat.js never disables it, so sends can overlap (`Session.SwAllowsOverlap`).
- **Retry budget.** Both polling budgets are 20 attempts (`MAX_RETRIES` and `CHAT_RETRIES`).
- **Blank targets.** No variant removes an existing `target="_blank"` from an internal link.
- **Variants.** The two variants stay separate models, because their behaviour differs in:
  - the size cap;
  - the status check;
  - the error texts;
  - the input lock;
  - the lookahead of the link rewriter.

## Model

| member | source | states |
|---|---|---|
| History.LoadPlain | sw-ai-chat.js:17-32 | load touches storage only by purging the key; an absent, corrupt or expired record yields no messages, and a corrupt or expired one is gone afterwards; otherwise the stored messages come back |
| History.LoadCapped | chatMain.js:29-45 | as the plain load, but at most 100 messages come back, and they are the newest `min(100, n)` stored ones |
| History.SavePlain | sw-ai-chat.js:35-40 | a save overwrites only the history key, with timestamp `now` |
| History.SaveCapped | chatMain.js:48-57 | the capped save stores at most 100 messages, and they are a suffix of the messages given |
| History.AppendPlain | sw-ai-chat.js:74-77 | with a chat log, the stored record is stamped `now` and holds the history a load returned followed by the new message; no other key changes |
| History.AppendCapped | chatMain.js:61-75 | without a chat log nothing changes; otherwise the stored record is stamped `now`, holds at most 100 messages and ends with the new one; no other key changes |
| History.LoadAbsent | sw-ai-chat.js:18-19 | a missing key loads as empty history and leaves storage untouched, in both variants |
| History.LoadCorrupt | chatMain.js:40-44 | an unparsable record loads as empty and is removed, in both variants |
| History.ExpiryBoundary | sw-ai-chat.js:22-25 | expiry is strict: a record exactly seven days old loads, and one a millisecond older is purged |
| History.EightDaysOldIsCleared | chatMain.js:34-37 | a record eight days old loads as empty and its key is removed |
| History.LoadIdempotent | chatMain.js:29-45 | loading twice gives what loading once gives |
| History.PlainRoundTrip | sw-ai-chat.js:35-40 | save then load within the window returns exactly the saved sequence, with no cap |
| History.CappedRoundTrip | chatMain.js:48-57 | save then load within the window returns the newest 100 saved messages, and exactly the saved ones up to 100 |
| History.CappedEviction | chatMain.js:52 | saving 105 messages and loading gives the last 100, with the oldest five dropped |
| History.LastWriterWins | sw-ai-chat.js:36 | saves do not merge: a second save replaces the first |
| History.PlainAppendThenLoad | sw-ai-chat.js:75-77 | after an append, a later load sees the previously loaded history followed by the raw message |
| History.CappedAppendThenLoad | chatMain.js:73-75 | after an append, a later load sees the newest 100 of the loaded history plus the raw message |
| History.CappedAppendIsNewest | chatMain.js:73-75 | the appended message is the newest one a later load within the window sees |
| History.AppendWithoutLog | chatMain.js:61-62 | without a chat log element an append changes no storage |
| Js.Trim | chatMain.js:126 | `trim` returns the infix of its input between a white-space prefix and a white-space suffix, with no white space at its own ends, and is empty exactly when the input is all white space |
| Js.DecimalRoundTrip | chatSave.js:24 | the decimal text of a number reads back as that number |
| Js.IncludesWitness | chatMain.js:19 | `includes` holds only when the pattern occurs at some position |
| Format.StripBold | sw-ai-chat.js:59 | removing `**` leaves no `**`, does not lengthen the text, leaves text without `**` alone and brings in no line break |
| Format.StripBoldIdempotent | chatMain.js:68 | removing `**` twice is removing it once |
| Format.StripBoldDropsPair | sw-ai-chat.js:59 | a `**` at the front of the text is removed and the rest is stripped on its own |
| Format.StripBoldKeepsPrefix | chatMain.js:68 | a leading part without `**` that does not end in `*` is kept character for character, and the strip continues with the rest |
| Format.StripBoldRemovesPair | sw-ai-chat.js:59 | in `a + "**" + b`, where `a` has no `**` and does not end in `*`, exactly the pair is removed: the result is `a` followed by the strip of `b` (so `a**b` becomes `ab`) |
| Format.NewlinesToBr | chatMain.js:68 | after the rewrite no CR or LF remains, text without them is unchanged, and no `**` is created |
| Format.CrLfIsOneBreak | sw-ai-chat.js:59 | each CR LF pair, wherever it stands, becomes exactly one `<br>` |
| Format.NewlinesConcat | sw-ai-chat.js:59 | the line-break rewrite distributes over concatenation unless the seam splits a CR LF pair |
| Format.NewlinesIdempotent | chatMain.js:68 | rewriting line breaks twice is rewriting them once |
| Display.Formatted | sw-ai-chat.js:59 | formatted text has no `**`, CR or LF, and text with none of `*`, CR or LF is kept as it is |
| Display.BubbleSw | sw-ai-chat.js:59-61 | the markup of a sw-ai-chat.js bubble has no `**`, CR or LF |
| Display.BubbleMain | chatMain.js:68 | the markup of a chatMain.js bubble has no `**`, CR or LF |
| Display.BubbleSwIntended | sw-ai-chat.js:11-13 | the bubble markup with the corrected sw-ai-chat.js rewriter has no `**`, CR or LF |
| Display.BubbleMainIntended | chatMain.js:12-20 | the bubble markup with the corrected chatMain.js classification has no `**`, CR or LF |
| Display.PlainTextShownVerbatim | chatMain.js:68 | text without markup characters is shown unchanged by every rewriting variant |
| Display.CrLfShownAsOneBreak | sw-ai-chat.js:59 | a CR LF in a message is one `<br>` in the bubble |
| Links.GreedyTagAt | chatMain.js:15 | the match of `<a\s+([^>]+)>` at a position is a well-formed prefix; some match exists exactly when it is found; it has the longest white space of all matches there |
| Links.SwTagAt | sw-ai-chat.js:13 | the lookahead match takes the longest white space whose lookahead is not blocked; every longer split is blocked; and no match means every split is blocked |
| Links.ScanClean | sw-ai-chat.js:13 | the global replace keeps the first character and is empty only for empty input; it brings in no line break and no `**` when its replacements do not |
| Links.ScanPlain | chatMain.js:15 | text without `<` passes the global replace unchanged |
| Links.AddTargetToLinks | sw-ai-chat.js:12-14 | `addTargetToLinks` leaves text without `<` alone and keeps text free of CR, LF and `**` |
| Links.SwRewritesUnmarkedTag | sw-ai-chat.js:13 | an opening anchor with no blank target ahead on its line becomes `<a ATTRS target="_blank">`, and the scan resumes after its `>` |
| Links.SwKeepsTagBeforeBlank | sw-ai-chat.js:13 | an opening anchor followed on its line by a blank target, in its own attributes or later, is left exactly as it was |
| Links.FindHrefLeftmost | chatMain.js:16 | the href found is the quoted value at the leftmost position where `href=` followed by a quote matches; no earlier position matches |
| Links.HrefAt | chatMain.js:16 | a value found at a position sits between two quotes after a case-insensitive `href=`, is non-empty and holds no quote |
| Links.FindHref | chatMain.js:16 | a value found in the attributes is non-empty, holds no quote and fits inside them with its `href=` and quotes |
| Links.ScanPlainPrefix | sw-ai-chat.js:13 | text without `<` passes the global replace unchanged and the scan carries on after it |
| Links.InternalAsWrittenReduced | chatMain.js:19 | as written, an href is internal exactly when it mentions the site or starts with neither `mailto:` nor `://`; the three path tests never decide |
| Links.FormatLinks | chatMain.js:13-26 | `formatLinks` leaves text without `<` alone and keeps text free of CR, LF and `**` |
| Links.MainTagRule | chatMain.js:16-20 | a tag is left unchanged exactly when it has no quoted href, its href counts as internal, or a blank target is among its attributes; otherwise it gains `target="_blank" rel="noopener"` |
| Links.MainRewrittenTagStable | chatMain.js:20 | a tag chatMain.js rewrote is a match again and a second pass leaves it as it is |
| Links.MainHttpsLinkUnchanged | chatMain.js:19 | as written, an anchor to an `https://` address is classified internal and passes unchanged |
| Links.IntendedMarksHttpsLink | chatMain.js:12 | with `://` looked for anywhere in the href, that anchor gains `target="_blank" rel="noopener"`, which differs from the written result |
| Links.IntendedTagRule | chatMain.js:16-20 | the corrected rewriter follows the same tag rule with the corrected classification |
| Links.SwLaterBlankSuppresses | sw-ai-chat.js:13 | as written, a blank target later on the same line keeps an earlier anchor without one from being rewritten |
| Links.IntendedSwTagRule | sw-ai-chat.js:11-13 | with the lookahead confined to the tag, a tag is rewritten exactly when its own attributes hold no blank target, whatever follows |
| Links.SwFindingWitness | sw-ai-chat.js:13 | the written and the corrected rewriter give different text for such an anchor |
| Session.MainBotText | chatMain.js:139-153 | the bot turn is never empty; a rejected fetch, a status outside 200-299 and a parse error give `Sorry, something went wrong: ` plus the error message |
| Session.SwBotText | sw-ai-chat.js:145-175 | the bot turn is never empty; a rejected fetch gives the fixed error text; a body that does not parse gives the fixed parse text |
| Session.MainReplySelection | chatMain.js:149 | on an OK parsed reply, the text is `response` if truthy, else `output` if truthy, else the fallback; a truthy non-string makes `appendMessage` throw and the error text is shown |
| Session.SwReplySelection | sw-ai-chat.js:163-170 | the same selection in sw-ai-chat.js, with its own fallback and error texts, whatever the status |
| Session.StatusOnlyMattersToMain | sw-ai-chat.js:147-160 | sw-ai-chat.js ignores the status while chatMain.js reports `HTTP error: STATUS` |
| Session.VariantsAgreeOnStringReply | chatMain.js:149 | for an OK reply whose `response` is a non-empty string, both variants show exactly that string |
| Session.MainAttempt | chatMain.js:139-149 | the try block yields a value exactly for an OK status with a parsed, non-null body; a rejected fetch throws its own error; a truthy `response` is chosen first |
| Session.SwAttempt | sw-ai-chat.js:145-170 | the try block throws exactly for a rejected fetch or a null body; a truthy `response` is chosen first, whatever the status |
| Session.Type | chatMain.js:129-155 | typing changes the field only while it is enabled, and never the requests in flight |
| Session.MainSubmit | chatMain.js:126-131 | blank input changes nothing; otherwise the trimmed user turn is appended and the field is cleared and disabled |
| Session.MainSubmitForm | chatMain.js:126-131 | input that trims to empty leaves the form alone; otherwise the field is cleared and disabled and one more request is in flight |
| Session.SwSubmit | sw-ai-chat.js:129-134 | blank input changes nothing; otherwise the user turn is appended and the field is cleared, and its enabled state is kept |
| Session.SwSubmitForm | sw-ai-chat.js:129-134 | input that trims to empty leaves the form alone; otherwise the field is cleared, its enabled state kept, and one more request is in flight |
| Session.MainCompleteForm | chatMain.js:154-156 | completing, whatever the outcome, enables the field again and ends the one request in flight |
| Session.MainAnswer | chatMain.js:149-153 | the bot turn for the outcome becomes the newest stored message, in a record stamped `now` of at most 100 messages; no other key changes |
| Session.MainComplete | chatMain.js:139-156 | completing enables the field, ends one request, and leaves the stored history stamped `now` and ending with the bot turn for the outcome |
| Session.SwComplete | sw-ai-chat.js:162-175 | completing appends one bot turn and leaves the field as it is |
| Session.MainInvPreserved | chatMain.js:129-155 | at most one request is in flight, and the field is disabled and empty exactly while one is; every step keeps this |
| Session.MainOneAtATime | chatMain.js:129 | while a chatMain.js request is in flight, typing and submitting start no second one |
| Session.SwAllowsOverlap | sw-ai-chat.js:128-134 | sw-ai-chat.js can have two requests in flight |
| Session.BlankInputIsIgnored | sw-ai-chat.js:129-131 | input that trims to empty starts no exchange in either variant |
| Session.MainExchange | chatMain.js:125-157 | a full exchange leaves the form idle, and a load within the window ends with the user turn followed by the bot turn |
| Session.SwExchange | sw-ai-chat.js:128-176 | a full exchange adds exactly the user turn and then the bot turn to the loaded history |
| Debounce.RunIsSettled | chatMain.js:99-105 | the clear-and-restart timer fires for a call exactly when no further call comes within `wait`, `wait` after it, with its arguments |
| Debounce.Debounced | chatMain.js:99-105 | a series of calls gives at most one run per call, and at least one run when there is a call |
| Debounce.BurstFiresOnce | chatMain.js:99-105 | a burst of calls less than `wait` apart runs the function once, `wait` after the last call, with the last call's arguments |
| Debounce.LastCallFires | chatFull.js:10-16 | the last call always leads to a run |
| Debounce.AtMostOnePerCall | chatSave.js:13-19 | a non-empty series of calls gives at least one run and at most one per call |
| Debounce.SendClicks | chatMain.js:159-169 | two send clicks 299 ms apart send once; 300 ms apart they send twice |
| FullScreen.SwToggle | sw-ai-chat.js:273-286 | the toggle flips `chat-full`, and the lock holds exactly when `chat-full` is set |
| FullScreen.SwForceOpen | sw-ai-chat.js:289-294 | forcing changes nothing when `chat-full` is set, and otherwise leaves it set and locked |
| FullScreen.SwClose | sw-ai-chat.js:311-316 | closing always yields not full and unlocked |
| FullScreen.SwLaws | sw-ai-chat.js:273-316 | toggling twice restores `chat-full`; forcing and closing are idempotent; the lock stays consistent with `chat-full` |
| FullScreen.FullToggle | chatFull.js:19-39 | the toggle flips `full-chat`; the lock holds exactly when it is set; leaving scrolls the log to the bottom |
| FullScreen.FullForceOpen | chatFull.js:42-47 | forcing changes nothing when full, and otherwise leaves the chat full and locked |
| FullScreen.FullClose | chatFull.js:69-78 | closing yields not full and unlocked, with the log scrolled to the bottom |
| FullScreen.FullLaws | chatFull.js:19-78 | toggling twice restores `full-chat`; forcing and closing are idempotent; the lock stays consistent |
| FullScreen.FullToggleScrolls | chatFull.js:27-37 | entering full mode leaves the scroll position alone; leaving it scrolls a present log to the bottom |
| FullScreen.MainClose | chatMain.js:178-183 | chatMain.js's close handler only scrolls the log |
| FullScreen.SharedLock | sw-ai-chat.js:282-283 | the two scripts share one lock: closing sw-ai-chat.js's mode unlocks while chatFull.js's mode is on |
| Registry.AddListener | chatFull.js:54 | the same function object is registered once; a fresh closure is added every time |
| Registry.MainAttachForm | chatMain.js:121-123 | a form with a truthy marker is left alone; otherwise it is marked and gets one more send handler |
| Registry.SwAttachForm | sw-ai-chat.js:122-127 | a form marked exactly "true" is left alone; otherwise it is marked and gets one more send handler |
| Registry.AttachOnce | chatFull.js:67-80 | a button with a truthy marker is left alone; otherwise it is marked and gets the handler |
| Registry.MainAttachClose | chatMain.js:176-186 | every close button is attached through the `listenerAttached` guard with chatMain.js's scroll handler |
| Registry.FullAttachClose | chatFull.js:67-80 | every close button is attached through the same guard with chatFull.js's close handler |
| Registry.FullAttachIcon | chatFull.js:53-56 | the full-screen icon gains at most one toggle registration, and has one unless it was already marked |
| Registry.SaveInit | chatSave.js:97-107 | a save button marked exactly "true" is left alone; otherwise it is marked and gets one more click handler |
| Registry.Reattach | sw-ai-chat.js:301-302 | remove then add leaves exactly one registration of the shared handler |
| Registry.SwAttachDialogClose | sw-ai-chat.js:297-308 | every close button ends with exactly one `dialogCloseHandler` |
| Registry.MainInitChat | chatMain.js:114-186 | chatMain.js's set-up does nothing with missing elements or a marked form, and otherwise marks the form |
| Registry.MainInitIdempotent | chatMain.js:121 | running chatMain.js's set-up twice is running it once |
| Registry.FullAttachListeners | chatFull.js:50-88 | chatFull.js's set-up forces full mode exactly when the query string contains `fullscreen=1` |
| Registry.FullAttachIdempotent | chatFull.js:84-87 | repeating chatFull.js's set-up changes nothing more, and with the flag the chat is full |
| Registry.SwInitChat | sw-ai-chat.js:88-198 | with all elements present, sw-ai-chat.js's set-up marks the form and leaves exactly one expand handler |
| Registry.GuardsKeepOnce | chatMain.js:176-186 | marker-guarded attachment keeps each handler registered at most once, and only after the marker is set |
| Registry.ExactGuardsKeepOnce | chatSave.js:97-107 | guards that accept only the exact value "true" keep a handler once |
| Registry.AttachIdempotent | chatFull.js:67-80 | every guarded attach step is idempotent |
| Registry.SaveInitOnce | chatSave.js:90-109 | however often `initSaveChat` runs on a fresh button, one click handler is attached |
| Registry.SwReattachOnce | sw-ai-chat.js:297-308 | however often sw-ai-chat.js re-attaches, one close handler remains |
| Registry.SharedMarkerBlocksFullClose | chatFull.js:68-79 | a button chatMain.js set up first gets no handler from chatFull.js, so closing leaves full mode on and the page locked |
| Registry.SeparateMarkersAttachBoth | chatMain.js:177-184 | with a marker per script both close handlers are attached once, in either order, and the click leaves full mode and unlocks |
| SwBoot.Tick | sw-ai-chat.js:319-336 | the observer acts only while the form lacks the "true" marker; acting clears the one-shot flag, forces full mode if the flag was set, and marks a complete form |
| SwBoot.Start | sw-ai-chat.js:5 | the one-shot flag is whether the query string contains `fullscreen=1` |
| SwBoot.ForcedAtMostOnce | sw-ai-chat.js:329-332 | over any series of observer runs full mode is forced at most once, and never without the flag |
| SwBoot.NoFlagNoPageChange | sw-ai-chat.js:329 | without the flag the observer never changes the full-screen state |
| SwBoot.SettledAfterCompleteInit | sw-ai-chat.js:323 | after a run that found every element, later runs change nothing |
| SwBoot.StaysSettled | sw-ai-chat.js:323 | once the form carries the "true" marker, any series of observer runs changes nothing |
| Transcript.PadFacts | chatSave.js:24 | below 100 a padded field has two digits that read back as the field, with a leading zero exactly below 10; sw-ai-chat.js's `slice(-2)` padding agrees |
| Transcript.Pad | chatSave.js:24 | `padStart` gives at least two characters, all digits |
| Transcript.SlicePad | sw-ai-chat.js:209-217 | `('0' + n).slice(-2)` always gives exactly two digits |
| Transcript.PaddingsDisagreeFrom100 | sw-ai-chat.js:209 | for every number from 100 on, `slice(-2)` keeps two digits where `padStart` keeps at least three |
| Transcript.FileNameRoundTrip | chatSave.js:61 | the file name `synthia-chat-MMDDYYYY-HHMMSS.txt` is 32 characters long and reads back as the stamp it was made from |
| Transcript.FileNamesDistinguishMoments | chatSave.js:25-26 | different moments give different file names |
| Transcript.HeaderText | chatSave.js:39-46 | the header starts with the title and the `Date:` field |
| Transcript.HeaderLayout | chatSave.js:39-46 | with fields of the usual widths, the title, date, `Time:` label, time, `Session ID:` label and session id each lie at fixed offsets, followed by a line end |
| Transcript.HeaderDateReadsBack | chatSave.js:27 | for a valid stamp the header's `MM/DD/YYYY` date reads back as the stamp's month, day and year |
| Transcript.HeaderTimeReadsBack | chatSave.js:27 | for a valid stamp the header's `HH:MM:SS` time reads back as the stamp's hours, minutes and seconds |
| Transcript.HeaderWidths | chatSave.js:22-27 | for a valid stamp the date, time and session id have 10, 8 and 15 characters and lie where the layout puts them |
| Transcript.HeaderNamesFile | chatSave.js:43 | the file name is the prefix, the text of the header's `Session ID:` line and `.txt`, and that text reads back as the stamp |
| Transcript.SwHeaderAgrees | sw-ai-chat.js:209-226 | for every valid stamp sw-ai-chat.js's `slice(-2)` header equals chatSave.js's `padStart` header |
| Transcript.AppendEntries | chatSave.js:53-59 | the loop appends, in order, one entry per wrapper that has a bubble |
| Transcript.SaveEntry | chatSave.js:56-57 | an entry is the sender tag, the trimmed bubble text, and a blank line; the text part has no white space at either end |
| Transcript.SwEntry | sw-ai-chat.js:236-237 | an entry is the sender tag, the rendered text unchanged, and a blank line |
| Transcript.GenerateTranscript | chatSave.js:31-62 | no log gives nothing; an empty log gives the header and `No chat messages available.`; otherwise the header and the entries, named by the stamp |
| Transcript.SwSaveChat | sw-ai-chat.js:202-252 | no log gives nothing; otherwise the `slice(-2)` header and the untrimmed entries, with no empty-log text; for every valid stamp the header and the name are chatSave.js's |
| Transcript.SwFileName | sw-ai-chat.js:209-218 | sw-ai-chat.js's file name equals chatSave.js's for every valid stamp |
| Transcript.EntriesEmpty | chatSave.js:53-59 | the body is empty exactly when no wrapper has a bubble |
| Transcript.BubblelessLogGivesBareHeader | chatSave.js:50-59 | a log whose wrappers all lack a bubble yields the bare header, without the empty-log text |
| Transcript.TwoBubbles | chatSave.js:56-57 | a user bubble then a bot bubble give `User: ` and `Synthia: ` entries, in order, each ending in a blank line |
| Popup.WaitForElement | chatPersist.js:15-24 | the lookup returns the first step at which the element exists, within the attempt budget, or reports that it was absent at every step of the budget |
| Popup.ReinitializeChat | chatPersist.js:69-82 | re-initialisation dispatches at most once, at the first step the container is present and visible, within a bounded number of steps; with no dispatch, the container was never both present and visible in the first attempt's window |
| Popup.FinalizePopup | chatPersist.js:61-66 | the flag is set and re-initialisation starts exactly when the popup was shown |
| Popup.ClosePopup | chatPersist.js:91-102 | the flag is always removed; the URL becomes the bare path exactly when the hash is `#synthia` |
| Popup.CloseIdempotent | chatPersist.js:97-101 | closing twice is closing once |
| Popup.CheckPopupOnLoad | chatPersist.js:105-114 | without the flag nothing happens; with it the hash is set when it differs, otherwise the popup opens |
| Popup.HashChange | chatPersist.js:143-148 | the popup opens exactly when the hash is `#synthia` and the flag is set |
| Popup.LoadCheckOpensOnce | chatPersist.js:105-114 | with the flag set, the load check opens the popup exactly once, directly or through its hash change |
| Popup.LinkClick | chatPersist.js:119-140 | exactly the `#synthia` anchors open the popup; with the flag, a bound anchor with a non-empty href without `#` navigates to href plus `#synthia`, and only such an anchor navigates; every other click is left to the browser |
| Popup.NavigationLandsOnSynthia | chatPersist.js:138 | the navigation target ends with `#synthia` and has no other `#`; a page loaded with that hash and the flag set opens the popup at its load check |
| Popup.HideEvent | chatPersist.js:125-129 | the hide handler closes only for the number 932 |
| Popup.FiltersAreDisjoint | chatPersist.js:126 | no id passes both the numeric hide filter and the string `"932"` show filter |
| Popup.ShowPopup | chatPersist.js:27-58 | a popup shown by the page builder is finalized; otherwise it is finalized exactly when the element appeared within the retries and is visible; finalizing only sets the session flag, and with no finalization nothing changes |

## Left out

- Network: `fetch`, its 30-second abort signal and the endpoint are replaced by an outcome. The error message a rejected fetch or a failed parse carries is part of that outcome, because its wording depends on the browser.
- JSON: a stored record whose text parses but lacks `timestamp` or `messages` counts as `Corrupt`. In the code such a record may instead load as `undefined` history.
- Storage quota: the error `setItem` can throw is not modelled. chatMain.js swallows it.
- Concurrency: races between tabs on the shared storage key are left out, with one writer assumed.
- DOM work: element creation, `innerHTML`, scrolling and the typing indicator are left out, and so are Blob downloads, `requestAnimationFrame` and the mutation observers' scheduling. Observer runs are a sequence of observations.
- Rendered text: a transcript takes each bubble's rendered text as given. How the browser derives `textContent` or `innerText` from markup is left out.
- `toTimeString`: modelled as `HH:MM:SS` built from the stamp's fields.
- The Elementor popup host: `showPopup`, visibility checks and event dispatch are parameters. Only the id filters and the decisions around them are modelled.
- chatMain.js:14 and 22-25: the `try`/`catch` of `formatLinks`. For a string argument nothing in the replace can throw, so the catch branch is unreachable and not modelled.
- Case folding: only ASCII is modelled. The `i` flag and `toLowerCase` also fold other letters, which the model treats as ordinary characters.
- Floats: JSON numbers in a reply are integers in the model. A fractional number is truthy like any non-zero one and takes the same path.
- Engine wording: `Session.MainBotText` uses V8's wording for a `TypeError` (`Cannot read properties of null…`, `text.replace is not a function`). Other engines word it differently.
- The sw-ai-chat.js save button (lines 255-270): it is attached by a self-disconnecting observer. Its attachment is not modelled, but the save itself is (`Transcript.SwSaveChat`).
- Chat log during an exchange: each `appendMessage` looks up `#chat-log` again and returns early without it (chatMain.js:61-62, sw-ai-chat.js:46-47). The exchange steps of `Session` assume the log stays present, as `initChat` found it. `History.AppendWithoutLog` states the early return on its own.
- Debounce ties: a timer due at the very instant a new call arrives is taken to fire first. A browser may order the two either way.
- `Session.Type`: a disabled field ignores typing. Programmatic changes to the field's value are not modelled.
- Links.HrefAt: states what a found value is, not when nothing is found. `Links.FindHrefLeftmost` gives the full leftmost-match statement for `FindHref`.
- Popup.ReinitializeChat: no dispatch is promised only over the first attempt's window of steps. Later retries start after a step where the container was present but hidden, and the contract does not name the step at which a run gives up.
- Popup.ShowPopup: states when the popup is finalized, in both directions. It does not state the step at which the jQuery fallback found the popup.
- Links.Scan: the global replace has no contract of its own. `Links.ScanClean`, `Links.ScanPlain` and `Links.ScanPlainPrefix` state its behaviour.
- Registry.FullAttachIcon: states only that at most one more registration exists, and at least one unless the icon was already marked.
- Display: the pipelines state the absence of `**`, CR and LF. Their exact output follows from the lemmas of `Format` (`StripBoldKeepsPrefix`, `StripBoldRemovesPair`, `NewlinesConcat`, `CrLfIsOneBreak`) and `Links` for the steps they compose.

## Findings

| source | as written | input that shows it | evidently intended | confidence | as-written member | corrected member |
|---|---|---|---|---|---|---|
| chatMain.js:19 | the test anchors `://` at the start of the href, so every href that does not start with `mailto:` or `://` counts as internal, `https://…` included | `<a href="https://example.com/">x</a>` passes unchanged | the comment at line 12 says external links get `target="_blank"`: `://` anywhere in the href marks an external link | medium, not executed | Links.MainHttpsLinkUnchanged | Links.IntendedMarksHttpsLink |
| sw-ai-chat.js:13 | the lookahead `(?!.*?target=["']_blank["'])` scans to the end of the line, past the tag's own `>` | `<a href="x">one</a> <a href="y" target="_blank">two</a>` leaves the first anchor without a target | only an anchor whose own attributes carry no blank target is rewritten | high, not executed | Links.SwLaterBlankSuppresses | Links.IntendedSwTagRule |
| chatFull.js:68-79 | chatFull.js guards its close-button handler with the marker `listenerAttached`, the name chatMain.js:177-184 uses on the same buttons | a close button set up by chatMain.js first: chatFull.js attaches nothing, so closing leaves `full-chat` set and the page locked | each script attaches its own close handler once | medium, not executed | Registry.SharedMarkerBlocksFullClose | Registry.SeparateMarkersAttachBoth |

The corrected rewriters are what `Display.BubbleMainIntended` and
`Display.BubbleSwIntended` render. `Display.BubbleMain` and `Display.BubbleSw`
render what the page shows today.

=== FILE: boot.dfy ===
/** The start-up of sw-ai-chat.js: a mutation observer that initialises the
    chat once its container is visible (lines 319-336), and the `fullscreen=1`
    query flag read once at load (line 5) that forces full mode on the first
    initialisation only. */
module SwBoot {
  import opened Js
  import opened Wrappers
  import opened FullScreen
  import opened Registry

  /** The observer's world: the one-shot flag, the form, the close buttons,
      the expand icon and the page. */
  datatype Boot = Boot(forceFullScreen: bool, form: Node, buttons: seq<Node>, expand: Option<Node>, page: Page)

  /** The state at load: the flag is whether the query string contains it. */
  function Start(search: string, form: Node, buttons: seq<Node>, expand: Option<Node>, page: Page): (r: Boot)
    ensures r.forceFullScreen <==> Includes(search, FULLSCREEN_FLAG)
  {
    Boot(Includes(search, FULLSCREEN_FLAG), form, buttons, expand, page)
  }

  /** What one run of the observer callback sees of the DOM: whether the
      container is visible, whether the form exists, and whether every element
      `initChat` needs exists. */
  datatype Observation = Observation(visible: bool, formPresent: bool, complete: bool)

  /** The observer callback acts only when the container is visible and the
      form exists without the "true" marker. */
  predicate Acts(b: Boot, o: Observation) {
    o.visible && o.formPresent && Get(b.form, FORM_MARKER) != "true"
  }

  /** One run of the callback: `initChat`, `attachDialogCloseListeners`, then
      full mode forced and the flag cleared if it was set. */
  function Tick(b: Boot, o: Observation): (r: Boot)
    ensures !Acts(b, o) ==> r == b
    ensures Acts(b, o) ==> !r.forceFullScreen
    ensures Acts(b, o) && b.forceFullScreen ==> r.page == SwForceOpen(b.page)
    ensures !b.forceFullScreen ==> r.page == b.page && !r.forceFullScreen
    ensures Acts(b, o) && o.complete ==> Get(r.form, FORM_MARKER) == "true"
  {
    if !Acts(b, o) then b
    else
      var (form, expand) := SwInitChat(o.complete, b.form, b.expand);
      var buttons := SwAttachDialogClose(b.buttons);
      var page := if b.forceFullScreen then SwForceOpen(b.page) else b.page;
      Boot(false, form, buttons, expand, page)
  }

  /** The state after a series of callback runs. */
  function Ticks(b: Boot, os: seq<Observation>): Boot
    decreases |os|
  {
    if os == [] then b else Ticks(Tick(b, os[0]), os[1..])
  }

  /** How many callback runs in a series force full mode. */
  function ForceCount(b: Boot, os: seq<Observation>): nat
    decreases |os|
  {
    if os == [] then 0
    else (if Acts(b, os[0]) && b.forceFullScreen then 1 else 0) + ForceCount(Tick(b, os[0]), os[1..])
  }

  /** Full mode is forced at most once over any series of callback runs, and
      never when the flag was not in the URL. */
  lemma {:induction false} ForcedAtMostOnce(b: Boot, os: seq<Observation>)
    ensures ForceCount(b, os) <= (if b.forceFullScreen then 1 else 0)
    decreases |os|
  {
    if os != [] {
      ForcedAtMostOnce(Tick(b, os[0]), os[1..]);
    }
  }

  /** Without the flag the series never touches the page. */
  lemma {:induction false} NoFlagNoPageChange(b: Boot, os: seq<Observation>)
    requires !b.forceFullScreen
    ensures Ticks(b, os).page == b.page
    decreases |os|
  {
    if os != [] {
      NoFlagNoPageChange(Tick(b, os[0]), os[1..]);
    }
  }

  /** Once a run found every element, the form carries the marker and every
      later run does nothing. */
  lemma {:induction false} SettledAfterCompleteInit(b: Boot, o: Observation, os: seq<Observation>)
    requires Acts(b, o) && o.complete
    ensures Ticks(Tick(b, o), os) == Tick(b, o)
    decreases |os|
  {
    var c := Tick(b, o);
    assert Get(c.form, FORM_MARKER) == "true";
    StaysSettled(c, os);
  }

  lemma {:induction false} StaysSettled(c: Boot, os: seq<Observation>)
    requires Get(c.form, FORM_MARKER) == "true"
    ensures Ticks(c, os) == c
    decreases |os|
  {
    if os != [] {
      assert !Acts(c, os[0]);
      StaysSettled(c, os[1..]);
    }
  }
}

=== FILE: debounce.dfy ===
/** The trailing-edge `debounce(func, wait)` helper, defined identically in
    chatMain.js (lines 99-105), chatFull.js (lines 10-16) and chatSave.js
    (lines 13-19), on a discrete clock.

    Every call clears the one pending timer and starts a new one due `wait`
    milliseconds later with the call's arguments; a timer that comes due runs
    `func`. Calls arrive at integer millisecond times. A timer due at the very
    instant a new call arrives is taken to fire first. */
module Debounce {

  /** The three waits of the scripts: sending (chatMain.js:159), the
      full-chat toggle (chatFull.js:91), the transcript save (chatSave.js:9). */
  const SEND_WAIT: nat := 300
  const FULL_CHAT_WAIT: nat := 200
  const SAVE_WAIT: nat := 300

  /** A call of the debounced function. */
  datatype Call<T> = Call(time: int, args: T)

  /** A run of the wrapped function. */
  datatype Firing<T> = Firing(time: int, args: T)

  /** The closure's `timeout` variable: no timer, or one due at `time`. */
  datatype Timer<T> = Idle | Due(time: int, args: T)

  /** Let the clock reach `now`: a timer due by then fires and is gone. */
  function Elapse<T>(timer: Timer<T>, now: int): (r: (Timer<T>, seq<Firing<T>>))
    ensures |r.1| <= 1
    ensures r.1 == [] ==> r.0 == timer
    ensures r.1 != [] ==> r.0 == Idle && timer.Due? && timer.time <= now && r.1[0] == Firing(timer.time, timer.args)
  {
    match timer
    case Idle => (Idle, [])
    case Due(d, a) => if d <= now then (Idle, [Firing(d, a)]) else (timer, [])
  }

  /** The firings produced by a timer in the state `timer` followed by the calls
      `calls`, once the clock has run past every timer. */
  function Run<T>(timer: Timer<T>, calls: seq<Call<T>>, wait: nat): seq<Firing<T>>
    decreases |calls|
  {
    if calls == [] then
      match timer
      case Idle => []
      case Due(d, a) => [Firing(d, a)]
    else
      var (t, fired) := Elapse(timer, calls[0].time);
      fired + Run(Due(calls[0].time + wait, calls[0].args), calls[1..], wait)
  }

  /** All firings of a fresh debounced function for the calls `calls`. */
  function Debounced<T>(calls: seq<Call<T>>, wait: nat): (r: seq<Firing<T>>)
    ensures |r| <= |calls|
    ensures calls != [] ==> r != []
  {
    if calls != [] then
      assert [calls[0]] + calls[1..] == calls;
      PendingRun(calls[0], calls[1..], wait);
      AtMostOnePerCall(calls, wait);
      Run(Idle, calls, wait)
    else Run(Idle, calls, wait)
  }

  /** Reference definition: a call leads to a run of `func`, `wait` after it and
      with its arguments, exactly when no further call comes within `wait`. */
  function Settled<T>(calls: seq<Call<T>>, wait: nat): seq<Firing<T>>
    decreases |calls|
  {
    if calls == [] then []
    else if |calls| == 1 || calls[1].time - calls[0].time >= wait then
      [Firing(calls[0].time + wait, calls[0].args)] + Settled(calls[1..], wait)
    else Settled(calls[1..], wait)
  }

  /** The timer model and the reference definition agree on every call sequence. */
  lemma {:induction false} RunIsSettled<T>(calls: seq<Call<T>>, wait: nat)
    ensures Debounced(calls, wait) == Settled(calls, wait)
  {
    if calls != [] {
      assert Run(Idle, calls, wait) == Run(Due(calls[0].time + wait, calls[0].args), calls[1..], wait);
      PendingRun(calls[0], calls[1..], wait);
    }
  }

  /** The pending timer of the last call together with the calls after it. */
  lemma {:induction false} PendingRun<T>(c: Call<T>, rest: seq<Call<T>>, wait: nat)
    ensures Run(Due(c.time + wait, c.args), rest, wait) == Settled([c] + rest, wait)
    decreases |rest|
  {
    var calls := [c] + rest;
    assert calls[1..] == rest;
    if rest != [] {
      PendingRun(rest[0], rest[1..], wait);
      assert [rest[0]] + rest[1..] == rest;
    }
  }

  /** Number of calls after which a firing is possible bounds the firings. */
  lemma {:induction false} AtMostOnePerCall<T>(calls: seq<Call<T>>, wait: nat)
    ensures |Settled(calls, wait)| <= |calls|
    ensures calls != [] ==> |Settled(calls, wait)| >= 1
    decreases |calls|
  {
    if calls != [] {
      AtMostOnePerCall(calls[1..], wait);
    }
  }

  /** The last call always leads to a run, `wait` after it, with its arguments. */
  lemma {:induction false} LastCallFires<T>(calls: seq<Call<T>>, wait: nat)
    requires calls != []
    ensures var f := Debounced(calls, wait);
      f != [] && f[|f| - 1] == Firing(calls[|calls| - 1].time + wait, calls[|calls| - 1].args)
  {
    RunIsSettled(calls, wait);
    SettledEndsWithLast(calls, wait);
  }

  lemma {:induction false} SettledEndsWithLast<T>(calls: seq<Call<T>>, wait: nat)
    requires calls != []
    ensures var f := Settled(calls, wait);
      f != [] && f[|f| - 1] == Firing(calls[|calls| - 1].time + wait, calls[|calls| - 1].args)
    decreases |calls|
  {
    if |calls| > 1 {
      SettledEndsWithLast(calls[1..], wait);
      assert calls[1..][|calls| - 2] == calls[|calls| - 1];
    }
  }

  /** Consecutive calls closer together than `wait`. */
  predicate Burst<T>(calls: seq<Call<T>>, wait: nat) {
    forall i :: 0 <= i < |calls| - 1 ==> calls[i + 1].time - calls[i].time < wait
  }

  /** A burst of calls runs `func` exactly once, `wait` after the last call,
      with the last call's arguments. */
  lemma {:induction false} BurstFiresOnce<T>(calls: seq<Call<T>>, wait: nat)
    requires calls != [] && Burst(calls, wait)
    ensures Debounced(calls, wait) == [Firing(calls[|calls| - 1].time + wait, calls[|calls| - 1].args)]
  {
    RunIsSettled(calls, wait);
    BurstSettled(calls, wait);
  }

  lemma {:induction false} BurstSettled<T>(calls: seq<Call<T>>, wait: nat)
    requires calls != [] && Burst(calls, wait)
    ensures Settled(calls, wait) == [Firing(calls[|calls| - 1].time + wait, calls[|calls| - 1].args)]
    decreases |calls|
  {
    if |calls| > 1 {
      var rest := calls[1..];
      assert calls[1].time - calls[0].time < wait;
      forall i | 0 <= i < |rest| - 1 ensures rest[i + 1].time - rest[i].time < wait {
        assert rest[i] == calls[i + 1] && rest[i + 1] == calls[i + 2];
      }
      BurstSettled(rest, wait);
    }
  }

  /** Two clicks on chatMain.js's send button 299 ms apart send once, 300 ms
      after the second click; 300 ms apart they send twice. */
  lemma SendClicks(t: int)
    ensures Debounced([Call(t, ()), Call(t + 299, ())], SEND_WAIT) == [Firing(t + 599, ())]
    ensures Debounced([Call(t, ()), Call(t + 300, ())], SEND_WAIT) == [Firing(t + 300, ()), Firing(t + 600, ())]
  {
    var burst := [Call(t, ()), Call(t + 299, ())];
    BurstFiresOnce(burst, SEND_WAIT);
    var apart := [Call(t, ()), Call(t + 300, ())];
    RunIsSettled(apart, SEND_WAIT);
    assert apart[1..] == [Call(t + 300, ())];
    assert Settled(apart[1..], SEND_WAIT) == [Firing(t + 600, ())];
  }
}

=== FILE: display.dfy ===
/** The text a chat bubble shows, as `appendMessage` builds it: `**` removed,
    line breaks turned into `<br>`, then the anchor rewrite of the script
    (sw-ai-chat.js:59-60 and 114-115, chatMain.js:68). */
module Display {
  import opened Js
  import opened Format
  import Links

  /** The plain-text part of the formatting, shared by both scripts. */
  function Formatted(text: string): (r: string)
    ensures NoDoubleStar(r) && NoBreakChars(r)
    ensures '*' !in text && '\r' !in text && '\n' !in text ==> r == text
  {
    NoStarIsClean(text);
    NoBreakIsClean(text);
    NewlinesToBr(StripBold(text))
  }

  lemma NoStarIsClean(text: string)
    ensures '*' !in text ==> NoDoubleStar(text)
  {
    if '*' !in text {
      forall i | 0 <= i < |text| - 1 ensures text[i] != '*' {
        assert text[i] in text;
      }
    }
  }

  lemma NoBreakIsClean(text: string)
    ensures '\r' !in text && '\n' !in text ==> NoBreakChars(text)
  {
    if '\r' !in text && '\n' !in text {
      forall i | 0 <= i < |text| ensures text[i] != '\r' && text[i] != '\n' {
        assert text[i] in text;
      }
    }
  }

  /** The bubble markup of sw-ai-chat.js, as written. */
  function BubbleSw(text: string): (r: string)
    ensures NoDoubleStar(r) && NoBreakChars(r)
  {
    Links.AddTargetToLinks(Formatted(text))
  }

  /** The bubble markup of chatMain.js, as written. */
  function BubbleMain(text: string): (r: string)
    ensures NoDoubleStar(r) && NoBreakChars(r)
  {
    Links.FormatLinks(Formatted(text))
  }

  /** The bubble markup of sw-ai-chat.js with the lookahead confined to the tag. */
  function BubbleSwIntended(text: string): (r: string)
    ensures NoDoubleStar(r) && NoBreakChars(r)
  {
    Links.AddTargetIntended(Formatted(text))
  }

  /** The bubble markup of chatMain.js with the corrected href classification. */
  function BubbleMainIntended(text: string): (r: string)
    ensures NoDoubleStar(r) && NoBreakChars(r)
  {
    Links.FormatLinksIntended(Formatted(text))
  }

  /** Text with no markup characters is shown as it is, by every variant. */
  lemma PlainTextShownVerbatim(text: string)
    requires '*' !in text && '\r' !in text && '\n' !in text && '<' !in text
    ensures BubbleSw(text) == text && BubbleMain(text) == text
    ensures BubbleSwIntended(text) == text && BubbleMainIntended(text) == text
  {
  }

  /** A CR LF pair in a message is one `<br>` in the formatted text, wherever
      it stands. */
  lemma {:induction false} CrLfShownAsOneBreak(a: string, b: string)
    requires '*' !in a && '*' !in b
    ensures Formatted(a + "\r\n" + b) == NewlinesToBr(a) + "<br>" + NewlinesToBr(b)
  {
    NoStarIsClean(a + "\r\n" + b) by {
      forall i | 0 <= i < |a + "\r\n" + b| ensures (a + "\r\n" + b)[i] != '*' {
        if i < |a| {
          assert (a + "\r\n" + b)[i] == a[i] && a[i] in a;
        } else if i >= |a| + 2 {
          assert (a + "\r\n" + b)[i] == b[i - |a| - 2] && b[i - |a| - 2] in b;
        }
      }
    }
    CrLfIsOneBreak(a, b);
  }
}

=== FILE: format.dfy ===
/** The two plain-text rewrites every message goes through before its anchors
    are touched (sw-ai-chat.js:59, chatMain.js:68): every `**` is removed, then
    every line break (CR LF, lone CR, lone LF) becomes `<br>`. */
module Format {
  import opened Js

  /** No two adjacent asterisks. */
  predicate NoDoubleStar(s: string) {
    forall i :: 0 <= i < |s| - 1 ==> !(s[i] == '*' && s[i + 1] == '*')
  }

  /** No carriage return and no line feed. */
  predicate NoBreakChars(s: string) {
    forall i :: 0 <= i < |s| ==> s[i] != '\r' && s[i] != '\n'
  }

  /** Gluing two strings free of `**` creates one only at the seam. */
  lemma NoDoubleStarConcat(a: string, b: string)
    requires NoDoubleStar(a) && NoDoubleStar(b)
    requires a == [] || b == [] || a[|a| - 1] != '*' || b[0] != '*'
    ensures NoDoubleStar(a + b)
  {
    var ab := a + b;
    forall i | 0 <= i < |ab| - 1
      ensures !(ab[i] == '*' && ab[i + 1] == '*')
    {
      if i + 1 < |a| {
        assert ab[i] == a[i] && ab[i + 1] == a[i + 1];
      } else if i >= |a| {
        assert ab[i] == b[i - |a|] && ab[i + 1] == b[i + 1 - |a|];
      }
    }
  }

  /** Every infix of a string free of `**` is free of it too. */
  lemma NoDoubleStarInfix(s: string, a: nat, b: nat)
    requires a <= b <= |s| && NoDoubleStar(s)
    ensures NoDoubleStar(s[a..b])
  {
    var t := s[a..b];
    forall i | 0 <= i < |t| - 1
      ensures !(t[i] == '*' && t[i + 1] == '*')
    {
      assert t[i] == s[a + i] && t[i + 1] == s[a + i + 1];
    }
  }

  // `text.replace(/\*\*/g, '')`: pairs of asterisks are removed left to right.
  function StripBold(s: string): (r: string)
    ensures NoDoubleStar(r)
    ensures |r| <= |s|
    ensures NoDoubleStar(s) ==> r == s
    ensures s != [] && s[0] != '*' ==> r != [] && r[0] == s[0]
    ensures NoBreakChars(s) ==> NoBreakChars(r)
    decreases |s|
  {
    if |s| >= 2 && s[0] == '*' && s[1] == '*' then StripBold(s[2..])
    else if s == [] then []
    else [s[0]] + StripBold(s[1..])
  }

  /** A `**` at the front is dropped and the rest is stripped. */
  lemma StripBoldDropsPair(b: string)
    ensures StripBold("**" + b) == StripBold(b)
  {
    var s := "**" + b;
    assert s[0] == '*' && s[1] == '*' && s[2..] == b;
  }

  /** One step of the strip: a character that does not open a `**` is kept. */
  lemma StripBoldCons(c: char, u: string)
    requires c != '*' || u == [] || u[0] != '*'
    ensures StripBold([c] + u) == [c] + StripBold(u)
  {
    var s := [c] + u;
    assert s[0] == c && s[1..] == u;
    if u != [] {
      assert s[1] == u[0];
    }
  }

  /** A prefix free of `**` that does not end in `*` is kept verbatim, and the
      strip goes on with the rest: no character outside a removed pair is lost. */
  lemma {:induction false} StripBoldKeepsPrefix(a: string, b: string)
    requires NoDoubleStar(a) && (a == [] || a[|a| - 1] != '*')
    ensures StripBold(a + b) == a + StripBold(b)
    decreases |a|
  {
    if a == [] {
      assert a + b == b;
    } else {
      var t := a[1..];
      assert a == [a[0]] + t;
      NoDoubleStarInfix(a, 1, |a|);
      assert t == [] || t[|t| - 1] == a[|a| - 1];
      assert a[0] != '*' || t == [] || t[0] != '*' by {
        if t != [] { assert t[0] == a[1]; }
      }
      StripBoldKeepsPrefix(t, b);
      StripBoldCons(a[0], t + b);
      Regroup3([a[0]], t, b);
      Regroup3([a[0]], t, StripBold(b));
    }
  }

  /** A pair of asterisks after such a prefix is removed and nothing else. */
  lemma StripBoldRemovesPair(a: string, b: string)
    requires NoDoubleStar(a) && (a == [] || a[|a| - 1] != '*')
    ensures StripBold(a + "**" + b) == a + StripBold(b)
  {
    assert a + "**" + b == a + ("**" + b);
    StripBoldKeepsPrefix(a, "**" + b);
    StripBoldDropsPair(b);
  }

  /** Removing `**` twice is removing it once. */
  lemma StripBoldIdempotent(s: string)
    ensures StripBold(StripBold(s)) == StripBold(s)
  {
  }

  predicate IsBreakChar(c: char) {
    c == '\r' || c == '\n'
  }

  /** `text.replace(/(\r\n|\r|\n)/gm, '<br>')`. */
  function NewlinesToBr(s: string): (r: string)
    ensures NoBreakChars(r)
    ensures NoBreakChars(s) ==> r == s
    ensures s != [] ==> r != [] && (r[0] == s[0] || r[0] == '<')
    ensures NoDoubleStar(s) ==> NoDoubleStar(r)
    decreases |s|
  {
    if s == [] then []
    else if |s| >= 2 && s[0] == '\r' && s[1] == '\n' then "<br>" + NewlinesToBr(s[2..])
    else if IsBreakChar(s[0]) then "<br>" + NewlinesToBr(s[1..])
    else [s[0]] + NewlinesToBr(s[1..])
  }

  /** The rewrite distributes over a concatenation unless it splits a CR LF pair. */
  lemma {:induction false} NewlinesConcat(a: string, b: string)
    requires a == [] || b == [] || a[|a| - 1] != '\r' || b[0] != '\n'
    ensures NewlinesToBr(a + b) == NewlinesToBr(a) + NewlinesToBr(b)
    decreases |a|
  {
    if a == [] {
      assert a + b == b;
    } else {
      var k := if |a| >= 2 && a[0] == '\r' && a[1] == '\n' then 2 else 1;
      var x := if k == 2 || IsBreakChar(a[0]) then "<br>" else [a[0]];
      assert NewlinesToBr(a) == x + NewlinesToBr(a[k..]) by { NewlinesStep(a, k, x); }
      assert NewlinesToBr(a + b) == x + NewlinesToBr(a[k..] + b) by {
        ConcatHead(a, b, k);
        NewlinesStep(a + b, k, x);
      }
      NewlinesConcat(a[k..], b);
      Regroup3(x, NewlinesToBr(a[k..]), NewlinesToBr(b));
    }
  }

  /** One step of the rewrite: the first `k` characters become `x`. */
  lemma NewlinesStep(s: string, k: nat, x: string)
    requires s != [] && 1 <= k <= 2
    requires k == (if |s| >= 2 && s[0] == '\r' && s[1] == '\n' then 2 else 1)
    requires x == if k == 2 || IsBreakChar(s[0]) then "<br>" else [s[0]]
    ensures NewlinesToBr(s) == x + NewlinesToBr(s[k..])
  {
  }

  /** A concatenation starts like its non-empty left part, CR LF pairs included. */
  lemma ConcatHead(a: string, b: string, k: nat)
    requires a != [] && k == (if |a| >= 2 && a[0] == '\r' && a[1] == '\n' then 2 else 1)
    requires b == [] || a[|a| - 1] != '\r' || b[0] != '\n'
    ensures var ab := a + b;
            && ab[0] == a[0] && ab[k..] == a[k..] + b
            && k == (if |ab| >= 2 && ab[0] == '\r' && ab[1] == '\n' then 2 else 1)
  {
    var ab := a + b;
    if |a| >= 2 {
      assert ab[1] == a[1];
    }
    assert ab[k..] == a[k..] + b;
  }

  lemma Regroup3(x: string, y: string, z: string)
    ensures x + (y + z) == (x + y) + z
  {
  }

  /** Each CR LF pair, wherever it stands, becomes exactly one `<br>`. */
  lemma {:induction false} CrLfIsOneBreak(a: string, b: string)
    ensures NewlinesToBr(a + "\r\n" + b) == NewlinesToBr(a) + "<br>" + NewlinesToBr(b)
  {
    var c := "\r\n" + b;
    assert c[0] == '\r' && c[1] == '\n' && c[2..] == b;
    assert NewlinesToBr(c) == "<br>" + NewlinesToBr(b);
    assert a + "\r\n" + b == a + c;
    NewlinesConcat(a, c);
  }

  /** Rewriting line breaks twice is rewriting them once. */
  lemma NewlinesIdempotent(s: string)
    ensures NewlinesToBr(NewlinesToBr(s)) == NewlinesToBr(s)
  {
  }
}

=== FILE: fullscreen.dfy ===
/** The full-screen mode of the chat and the page scroll lock.

    sw-ai-chat.js toggles the class `chat-full` on the body (lines 273-316);
    chatFull.js toggles a different class, `full-chat` (lines 19-47, 69-77).
    Both lock scrolling the same way, by setting `overflow: hidden` on the root
    element and on the body together and clearing both together, so the lock
    is one flag shared by the two scripts. chatFull.js, and the close handler
    of chatMain.js (lines 178-183), also scroll the chat log to its bottom. */
module FullScreen {

  /** `chatFull`: the body has class `chat-full`; `fullChat`: it has class
      `full-chat`; `locked`: overflow is hidden; `logPresent`: the page has a
      chat log element; `atBottom`: the log was last scrolled to its bottom by
      one of these handlers. */
  datatype Page = Page(chatFull: bool, fullChat: bool, locked: bool, logPresent: bool, atBottom: bool)

  // ---------------------------------------------------------------------------
  // sw-ai-chat.js

  /** `toggleChatFull`: flip `chat-full`, then lock exactly when it is set. */
  function SwToggle(p: Page): (r: Page)
    ensures r.chatFull == !p.chatFull
    ensures r.locked <==> r.chatFull
    ensures r.fullChat == p.fullChat && r.logPresent == p.logPresent && r.atBottom == p.atBottom
  {
    var full := !p.chatFull;
    p.(chatFull := full, locked := full)
  }

  /** `forceOpenChatFull`: toggle only when `chat-full` is not set. */
  function SwForceOpen(p: Page): (r: Page)
    ensures p.chatFull ==> r == p
    ensures r.chatFull
    ensures !p.chatFull ==> r.locked
  {
    if !p.chatFull then SwToggle(p) else p
  }

  /** `dialogCloseHandler`: remove `chat-full` and unlock. */
  function SwClose(p: Page): (r: Page)
    ensures !r.chatFull && !r.locked
    ensures r.fullChat == p.fullChat && r.logPresent == p.logPresent && r.atBottom == p.atBottom
  {
    p.(chatFull := false, locked := false)
  }

  /** The lock follows `chat-full` while chatFull.js's class is not in play. */
  predicate SwConsistent(p: Page) {
    !p.fullChat && (p.locked <==> p.chatFull)
  }

  /** Toggling twice restores the page; forcing and closing are idempotent;
      every sw-ai-chat.js step keeps the lock consistent with `chat-full`. */
  lemma SwLaws(p: Page)
    ensures SwConsistent(p) ==> SwToggle(SwToggle(p)) == p
    ensures SwToggle(SwToggle(p)).chatFull == p.chatFull
    ensures SwForceOpen(SwForceOpen(p)) == SwForceOpen(p)
    ensures SwClose(SwClose(p)) == SwClose(p)
    ensures SwConsistent(p) ==> SwConsistent(SwToggle(p)) && SwConsistent(SwForceOpen(p)) && SwConsistent(SwClose(p))
  {
  }

  // ---------------------------------------------------------------------------
  // chatFull.js

  /** Scroll the chat log to its bottom when there is one. */
  function ScrollLog(p: Page): (r: Page)
    ensures r.atBottom <==> p.atBottom || p.logPresent
    ensures r.chatFull == p.chatFull && r.fullChat == p.fullChat && r.locked == p.locked && r.logPresent == p.logPresent
  {
    if p.logPresent then p.(atBottom := true) else p
  }

  /** `toggleFullChat`: flip `full-chat`; entering locks; leaving unlocks and
      scrolls the log to the bottom. */
  function FullToggle(p: Page): (r: Page)
    ensures r.fullChat == !p.fullChat
    ensures r.locked <==> r.fullChat
    ensures r.chatFull == p.chatFull && r.logPresent == p.logPresent
    ensures r.atBottom <==> p.atBottom || (p.fullChat && p.logPresent)
  {
    var wasFull := p.fullChat;
    if !wasFull then p.(fullChat := true, locked := true)
    else ScrollLog(p.(fullChat := false, locked := false))
  }

  /** `forceOpenFullChat`: toggle only when `full-chat` is not set. */
  function FullForceOpen(p: Page): (r: Page)
    ensures p.fullChat ==> r == p
    ensures r.fullChat
    ensures !p.fullChat ==> r.locked && r.atBottom == p.atBottom
  {
    if !p.fullChat then FullToggle(p) else p
  }

  /** The close-button handler of chatFull.js: leave full mode, unlock, scroll
      the log to the bottom. */
  function FullClose(p: Page): (r: Page)
    ensures !r.fullChat && !r.locked
    ensures r.atBottom <==> p.atBottom || p.logPresent
    ensures r.chatFull == p.chatFull && r.logPresent == p.logPresent
  {
    ScrollLog(p.(fullChat := false, locked := false))
  }

  /** The lock follows `full-chat` while sw-ai-chat.js's class is not in play. */
  predicate FullConsistent(p: Page) {
    !p.chatFull && (p.locked <==> p.fullChat)
  }

  /** Toggling twice restores `full-chat`; forcing and closing are idempotent;
      every chatFull.js step keeps the lock consistent with `full-chat`. */
  lemma FullLaws(p: Page)
    ensures FullToggle(FullToggle(p)).fullChat == p.fullChat
    ensures FullForceOpen(FullForceOpen(p)) == FullForceOpen(p)
    ensures FullClose(FullClose(p)) == FullClose(p)
    ensures FullConsistent(p) ==> FullConsistent(FullToggle(p)) && FullConsistent(FullForceOpen(p)) && FullConsistent(FullClose(p))
  {
  }

  /** Entering full mode leaves the scroll position alone; leaving it brings a
      present log to the bottom. */
  lemma FullToggleScrolls(p: Page)
    ensures !p.fullChat ==> FullToggle(p).atBottom == p.atBottom
    ensures p.fullChat && p.logPresent ==> FullToggle(p).atBottom
  {
  }

  // ---------------------------------------------------------------------------
  // chatMain.js

  /** The close-button handler of chatMain.js only scrolls the log. */
  function MainClose(p: Page): (r: Page)
    ensures r.chatFull == p.chatFull && r.fullChat == p.fullChat && r.locked == p.locked
    ensures r.atBottom <==> p.atBottom || p.logPresent
  {
    ScrollLog(p)
  }

  // ---------------------------------------------------------------------------
  // The two scripts together

  /** The lock is shared: with both classes set, closing sw-ai-chat.js's full
      mode unlocks the page while chatFull.js's full mode is still on. */
  lemma SharedLock(p: Page)
    requires !p.chatFull && !p.fullChat
    ensures var q := SwClose(FullToggle(SwToggle(p)));
      q.fullChat && !q.locked
  {
  }
}

=== FILE: history.dfy ===
/** The chat history kept in the browser's persistent key-value storage.

    Two variants exist: sw-ai-chat.js keeps every message ("plain"), chatMain.js
    keeps only the newest MAX_HISTORY_SIZE messages ("capped"). Both store one
    record `{timestamp, messages}` under the key "chatHistory", treat a record
    older than seven days as absent, and remove an expired or unreadable record.
    The clock is a parameter; JSON text is abstracted to the three shapes a
    stored value can have. */
module History {
  import opened Js

  const HISTORY_KEY: string := "chatHistory"
  /** Seven days in milliseconds. */
  const HISTORY_EXPIRATION: int := 7 * 24 * 60 * 60 * 1000
  const MAX_HISTORY_SIZE: nat := 100

  datatype Sender = User | Bot

  /** One conversation turn as stored: the sender and the raw, unformatted text. */
  datatype Message = Message(sender: Sender, text: string)

  /** What `localStorage.getItem` followed by `JSON.parse` yields for a key. */
  datatype Stored = Absent | Corrupt | Record(timestamp: int, messages: seq<Message>)

  type Storage = map<string, Stored>

  function Read(st: Storage, key: string): Stored {
    if key in st then st[key] else Absent
  }

  /** A record is stale once strictly more than seven days have passed. */
  predicate Expired(now: int, timestamp: int) {
    now - timestamp > HISTORY_EXPIRATION
  }

  /** The messages a load returns and the storage it leaves behind. */
  datatype Loaded = Loaded(messages: seq<Message>, storage: Storage)

  /** The one storage effect a load may have: removing the history key. */
  predicate OnlyPurges(st: Storage, st': Storage) {
    st' == st || st' == st - {HISTORY_KEY}
  }

  /** `loadChatHistory` of sw-ai-chat.js. */
  function LoadPlain(st: Storage, now: int): (r: Loaded)
    ensures OnlyPurges(st, r.storage)
    ensures Read(r.storage, HISTORY_KEY).Record? <==> Read(st, HISTORY_KEY).Record? && !Expired(now, Read(st, HISTORY_KEY).timestamp)
    ensures !Read(r.storage, HISTORY_KEY).Corrupt?
    ensures r.messages != [] ==> Read(st, HISTORY_KEY).Record? && r.messages == Read(st, HISTORY_KEY).messages
    ensures Read(st, HISTORY_KEY).Record? && Expired(now, Read(st, HISTORY_KEY).timestamp) ==> r.messages == []
    ensures Read(st, HISTORY_KEY).Record? && !Expired(now, Read(st, HISTORY_KEY).timestamp) ==> r.messages == Read(st, HISTORY_KEY).messages
  {
    match Read(st, HISTORY_KEY)
    case Absent => Loaded([], st)
    case Corrupt => Loaded([], st - {HISTORY_KEY})
    case Record(timestamp, messages) =>
      if Expired(now, timestamp) then Loaded([], st - {HISTORY_KEY}) else Loaded(messages, st)
  }

  /** `loadChatHistory` of chatMain.js: as above, but at most the newest
      MAX_HISTORY_SIZE stored messages are returned. */
  function LoadCapped(st: Storage, now: int): (r: Loaded)
    ensures OnlyPurges(st, r.storage)
    ensures Read(r.storage, HISTORY_KEY).Record? <==> Read(st, HISTORY_KEY).Record? && !Expired(now, Read(st, HISTORY_KEY).timestamp)
    ensures !Read(r.storage, HISTORY_KEY).Corrupt?
    ensures |r.messages| <= MAX_HISTORY_SIZE
    ensures r.messages != [] ==> Read(st, HISTORY_KEY).Record?
    ensures Read(r.storage, HISTORY_KEY).Record? ==> r.messages == SliceLast(Read(st, HISTORY_KEY).messages, MAX_HISTORY_SIZE)
    ensures Read(st, HISTORY_KEY).Record? && Expired(now, Read(st, HISTORY_KEY).timestamp) ==> r.messages == []
  {
    match Read(st, HISTORY_KEY)
    case Absent => Loaded([], st)
    case Corrupt => Loaded([], st - {HISTORY_KEY})
    case Record(timestamp, messages) =>
      if Expired(now, timestamp) then Loaded([], st - {HISTORY_KEY})
      else Loaded(SliceLast(messages, MAX_HISTORY_SIZE), st)
  }

  /** `saveChatHistory` of sw-ai-chat.js: overwrite the record, no cap. */
  function SavePlain(st: Storage, now: int, messages: seq<Message>): (r: Storage)
    ensures forall k :: k != HISTORY_KEY ==> Read(r, k) == Read(st, k)
    ensures Read(r, HISTORY_KEY).Record? && Read(r, HISTORY_KEY).timestamp == now
  {
    st[HISTORY_KEY := Record(now, messages)]
  }

  /** `saveChatHistory` of chatMain.js: overwrite the record with the newest
      MAX_HISTORY_SIZE messages. */
  function SaveCapped(st: Storage, now: int, messages: seq<Message>): (r: Storage)
    ensures forall k :: k != HISTORY_KEY ==> Read(r, k) == Read(st, k)
    ensures Read(r, HISTORY_KEY).Record? && Read(r, HISTORY_KEY).timestamp == now
    ensures var kept := Read(r, HISTORY_KEY).messages;
            && |kept| <= MAX_HISTORY_SIZE && |kept| <= |messages|
            && forall i :: 0 <= i < |kept| ==> kept[i] == messages[|messages| - |kept| + i]
  {
    var kept := SliceLast(messages, MAX_HISTORY_SIZE);
    var r := st[HISTORY_KEY := Record(now, kept)];
    assert Read(r, HISTORY_KEY) == Record(now, kept);
    r
  }

  /** The history part of `appendMessage` in sw-ai-chat.js: nothing happens when
      the chat log element is missing; otherwise load, push, save. */
  function AppendPlain(st: Storage, now: int, logPresent: bool, m: Message): (r: Storage)
    ensures !logPresent ==> r == st
    ensures forall k :: k != HISTORY_KEY ==> Read(r, k) == Read(st, k)
    ensures logPresent ==> var h := Read(r, HISTORY_KEY);
      && h.Record? && h.timestamp == now && h.messages != [] && h.messages[|h.messages| - 1] == m
      && h.messages[..|h.messages| - 1] == LoadPlain(st, now).messages
  {
    if !logPresent then st
    else SavePlain(st, now, LoadPlain(st, now).messages + [m])
  }

  /** The history part of `appendMessage` in chatMain.js. */
  function AppendCapped(st: Storage, now: int, logPresent: bool, m: Message): (r: Storage)
    ensures !logPresent ==> r == st
    ensures forall k :: k != HISTORY_KEY ==> Read(r, k) == Read(st, k)
    ensures logPresent ==> var h := Read(r, HISTORY_KEY);
      && h.Record? && h.timestamp == now && 1 <= |h.messages| <= MAX_HISTORY_SIZE
      && h.messages[|h.messages| - 1] == m
  {
    if !logPresent then st
    else SaveCapped(st, now, LoadCapped(st, now).messages + [m])
  }

  // ---------------------------------------------------------------------------
  // Laws of the store

  /** An absent key loads as empty history and leaves storage untouched. */
  lemma LoadAbsent(st: Storage, now: int)
    requires HISTORY_KEY !in st
    ensures LoadPlain(st, now) == Loaded([], st)
    ensures LoadCapped(st, now) == Loaded([], st)
  {
  }

  /** An unreadable record loads as empty history and is removed. */
  lemma LoadCorrupt(st: Storage, now: int)
    requires Read(st, HISTORY_KEY) == Corrupt
    ensures LoadPlain(st, now) == Loaded([], st - {HISTORY_KEY})
    ensures LoadCapped(st, now) == Loaded([], st - {HISTORY_KEY})
  {
  }

  /** Expiry is strict: a record exactly seven days old still loads; one a
      millisecond older is purged. */
  lemma ExpiryBoundary(st: Storage, ts: int, ms: seq<Message>)
    requires Read(st, HISTORY_KEY) == Record(ts, ms)
    ensures LoadPlain(st, ts + HISTORY_EXPIRATION) == Loaded(ms, st)
    ensures LoadPlain(st, ts + HISTORY_EXPIRATION + 1) == Loaded([], st - {HISTORY_KEY})
    ensures LoadCapped(st, ts + HISTORY_EXPIRATION) == Loaded(SliceLast(ms, MAX_HISTORY_SIZE), st)
    ensures LoadCapped(st, ts + HISTORY_EXPIRATION + 1) == Loaded([], st - {HISTORY_KEY})
  {
  }

  /** A record eight days old is treated as empty and cleared. */
  lemma EightDaysOldIsCleared(st: Storage, now: int, ms: seq<Message>)
    requires Read(st, HISTORY_KEY) == Record(now - 8 * 24 * 60 * 60 * 1000, ms)
    ensures LoadPlain(st, now).messages == [] && HISTORY_KEY !in LoadPlain(st, now).storage
    ensures LoadCapped(st, now).messages == [] && HISTORY_KEY !in LoadCapped(st, now).storage
  {
  }

  /** Loading twice is loading once: the first load already purged what it had to. */
  lemma LoadIdempotent(st: Storage, now: int)
    ensures LoadPlain(LoadPlain(st, now).storage, now) == LoadPlain(st, now)
    ensures LoadCapped(LoadCapped(st, now).storage, now) == LoadCapped(st, now)
  {
  }

  /** Plain round trip: within the window, load returns exactly what was saved. */
  lemma PlainRoundTrip(st: Storage, saved: int, now: int, ms: seq<Message>)
    requires now - saved <= HISTORY_EXPIRATION
    ensures LoadPlain(SavePlain(st, saved, ms), now).messages == ms
  {
  }

  /** Capped round trip: within the window, load returns the newest
      MAX_HISTORY_SIZE saved messages; up to the cap, exactly what was saved. */
  lemma CappedRoundTrip(st: Storage, saved: int, now: int, ms: seq<Message>)
    requires now - saved <= HISTORY_EXPIRATION
    ensures LoadCapped(SaveCapped(st, saved, ms), now).messages == SliceLast(ms, MAX_HISTORY_SIZE)
    ensures |ms| <= MAX_HISTORY_SIZE ==> LoadCapped(SaveCapped(st, saved, ms), now).messages == ms
  {
  }

  /** Saving 105 messages then loading yields the last 100, the oldest five dropped. */
  lemma CappedEviction(st: Storage, saved: int, now: int, ms: seq<Message>)
    requires now - saved <= HISTORY_EXPIRATION && |ms| == 105
    ensures LoadCapped(SaveCapped(st, saved, ms), now).messages == ms[5..]
  {
  }

  /** Saves do not merge: the last writer wins. */
  lemma LastWriterWins(st: Storage, t1: int, t2: int, a: seq<Message>, b: seq<Message>)
    ensures SavePlain(SavePlain(st, t1, a), t2, b) == SavePlain(st, t2, b)
    ensures SaveCapped(SaveCapped(st, t1, a), t2, b) == SaveCapped(st, t2, b)
  {
  }

  /** Plain append: a later load within the window sees the previously loaded
      history followed by the new raw message. */
  lemma {:induction false} PlainAppendThenLoad(st: Storage, now: int, later: int, m: Message)
    requires later - now <= HISTORY_EXPIRATION
    ensures LoadPlain(AppendPlain(st, now, true, m), later).messages == LoadPlain(st, now).messages + [m]
  {
    PlainRoundTrip(st, now, later, LoadPlain(st, now).messages + [m]);
  }

  /** Capped append: a later load within the window sees the newest
      MAX_HISTORY_SIZE messages of the loaded history followed by the new one. */
  lemma {:induction false} CappedAppendThenLoad(st: Storage, now: int, later: int, m: Message)
    requires later - now <= HISTORY_EXPIRATION
    ensures LoadCapped(AppendCapped(st, now, true, m), later).messages
         == SliceLast(LoadCapped(st, now).messages + [m], MAX_HISTORY_SIZE)
  {
    CappedRoundTrip(st, now, later, LoadCapped(st, now).messages + [m]);
  }

  /** The appended message is the newest one a later load within the window sees. */
  lemma {:induction false} CappedAppendIsNewest(st: Storage, now: int, later: int, m: Message)
    requires later - now <= HISTORY_EXPIRATION
    ensures var seen := LoadCapped(AppendCapped(st, now, true, m), later).messages;
            |seen| >= 1 && seen[|seen| - 1] == m
  {
    CappedAppendThenLoad(st, now, later, m);
    NewestOfCapped(LoadCapped(st, now).messages, m, LoadCapped(AppendCapped(st, now, true, m), later).messages);
  }

  lemma NewestOfCapped(l: seq<Message>, m: Message, seen: seq<Message>)
    requires seen == SliceLast(l + [m], MAX_HISTORY_SIZE)
    ensures |seen| >= 1 && seen[|seen| - 1] == m
  {
    SliceLastKeepsLast(l + [m], MAX_HISTORY_SIZE);
  }

  /** Without a chat log element, appending leaves the history untouched. */
  lemma AppendWithoutLog(st: Storage, now: int, m: Message)
    ensures AppendPlain(st, now, false, m) == st
    ensures AppendCapped(st, now, false, m) == st
  {
  }
}

=== FILE: js.dfy ===
/** The JavaScript built-ins the widget relies on, as pure functions on strings
    and sequences. Strings are sequences of UTF-16 code units in JavaScript; the
    model uses Dafny characters and only the ASCII part of case conversion. */
module Js {

  /** JavaScript's `\s` class; `String.prototype.trim` removes exactly these characters. */
  predicate IsSpace(c: char) {
    var n := c as int;
    (9 <= n <= 13) || n == 0x20 || n == 0xA0 || n == 0x1680 || (0x2000 <= n <= 0x200A)
    || n == 0x2028 || n == 0x2029 || n == 0x202F || n == 0x205F || n == 0x3000 || n == 0xFEFF
  }

  /** Line terminators: the characters a regular-expression `.` does not match. */
  predicate IsLineTerminator(c: char) {
    c == '\n' || c == '\r' || c == '\U{2028}' || c == '\U{2029}'
  }

  predicate IsDigit(c: char) {
    '0' <= c <= '9'
  }

  predicate AllDigits(s: string) {
    forall i :: 0 <= i < |s| ==> IsDigit(s[i])
  }

  /** ASCII lower-casing, the part of `toLowerCase` and of the `i` flag the model keeps. */
  function LowerChar(c: char): char {
    if 'A' <= c <= 'Z' then (c as int + 32) as char else c
  }

  /** `s.toLowerCase()` restricted to ASCII letters. */
  function ToLower(s: string): (r: string)
    ensures |r| == |s|
    ensures forall i :: 0 <= i < |s| ==> r[i] == LowerChar(s[i])
  {
    seq(|s|, i requires 0 <= i < |s| => LowerChar(s[i]))
  }

  /** `s.startsWith(p)`. */
  predicate StartsWith(s: string, p: string) {
    |p| <= |s| && s[..|p|] == p
  }

  /** Case-insensitive prefix test, as a regular expression with the `i` flag
      reads a lower-case literal `p`. */
  predicate StartsWithIgnoringCase(s: string, p: string) {
    |p| <= |s| && forall i :: 0 <= i < |p| ==> LowerChar(s[i]) == p[i]
  }

  /** `s.includes(p)`: some suffix of `s` starts with `p`. */
  predicate Includes(s: string, p: string)
    decreases |s|
  {
    StartsWith(s, p) || (|s| > 0 && Includes(s[1..], p))
  }

  /** An occurrence of `p` at any position makes `s.includes(p)` true. */
  lemma {:induction false} IncludesAt(s: string, p: string, k: nat)
    requires k <= |s| && StartsWith(s[k..], p)
    ensures Includes(s, p)
    decreases k
  {
    if k > 0 {
      assert s[1..][k - 1..] == s[k..];
      IncludesAt(s[1..], p, k - 1);
    }
  }

  /** `s.includes(p)` only when `p` occurs at some position of `s`. */
  lemma {:induction false} IncludesWitness(s: string, p: string) returns (k: nat)
    requires Includes(s, p)
    ensures k <= |s| && StartsWith(s[k..], p)
    decreases |s|
  {
    if StartsWith(s, p) {
      k := 0;
    } else {
      var k' := IncludesWitness(s[1..], p);
      assert s[1..][k'..] == s[k' + 1..];
      k := k' + 1;
    }
  }

  /** Dropping the head of a concatenation with a non-empty left part. */
  lemma TailOfConcat<T>(a: seq<T>, b: seq<T>)
    requires a != []
    ensures (a + b)[0] == a[0] && (a + b)[1..] == a[1..] + b
  {
  }

  /** `s.trimStart()`. */
  function TrimStart(s: string): (r: string)
    ensures |r| <= |s| && r == s[|s| - |r|..]
    ensures forall i :: 0 <= i < |s| - |r| ==> IsSpace(s[i])
    ensures r == [] || !IsSpace(r[0])
    decreases |s|
  {
    if |s| > 0 && IsSpace(s[0]) then TrimStart(s[1..]) else s
  }

  /** `s.trimEnd()`. */
  function TrimEnd(s: string): (r: string)
    ensures |r| <= |s| && r == s[..|r|]
    ensures forall i :: |r| <= i < |s| ==> IsSpace(s[i])
    ensures r == [] || !IsSpace(r[|r| - 1])
    decreases |s|
  {
    if |s| > 0 && IsSpace(s[|s| - 1]) then TrimEnd(s[..|s| - 1]) else s
  }

  /** Every character is white space. */
  predicate AllSpace(s: string) {
    forall i :: 0 <= i < |s| ==> IsSpace(s[i])
  }

  /** `s.trim()`: an infix of `s` with white space removed from both ends; empty
      exactly when `s` is all white space. */
  function Trim(s: string): (r: string)
    ensures |r| <= |s|
    ensures r == [] <==> AllSpace(s)
    ensures r == [] || (!IsSpace(r[0]) && !IsSpace(r[|r| - 1]))
    ensures exists i, j :: 0 <= i <= j <= |s| && r == s[i..j] && AllSpace(s[..i]) && AllSpace(s[j..])
  {
    var t := TrimStart(s);
    var r := TrimEnd(t);
    TrimIsInfix(s, t, r);
    TrimEmptyOnlyIfAllSpace(s, t, r);
    TrimEmptyIfAllSpace(s, t);
    r
  }

  /** The trimmed text is the infix of `s` between its leading and its
      trailing white space. */
  lemma TrimIsInfix(s: string, t: string, r: string)
    requires |t| <= |s| && t == s[|s| - |t|..]
    requires forall i :: 0 <= i < |s| - |t| ==> IsSpace(s[i])
    requires |r| <= |t| && r == t[..|r|]
    requires forall i :: |r| <= i < |t| ==> IsSpace(t[i])
    ensures exists i, j :: 0 <= i <= j <= |s| && r == s[i..j] && AllSpace(s[..i]) && AllSpace(s[j..])
  {
    var i := |s| - |t|;
    var j := i + |r|;
    assert r == s[i..j];
    assert AllSpace(s[..i]) by {
      forall k | 0 <= k < i ensures IsSpace(s[..i][k]) {
        assert s[..i][k] == s[k];
      }
    }
    assert AllSpace(s[j..]) by {
      forall k | 0 <= k < |s| - j ensures IsSpace(s[j..][k]) {
        assert s[j..][k] == t[|r| + k];
      }
    }
  }

  lemma TrimEmptyOnlyIfAllSpace(s: string, t: string, r: string)
    requires |t| <= |s| && t == s[|s| - |t|..]
    requires forall i :: 0 <= i < |s| - |t| ==> IsSpace(s[i])
    requires |r| <= |t| && forall i :: |r| <= i < |t| ==> IsSpace(t[i])
    ensures r == [] ==> AllSpace(s)
  {
    if r == [] {
      forall i | 0 <= i < |s|
        ensures IsSpace(s[i])
      {
        if i >= |s| - |t| {
          assert s[i] == t[i - (|s| - |t|)];
        }
      }
    }
  }

  lemma TrimEmptyIfAllSpace(s: string, t: string)
    requires |t| <= |s| && t == s[|s| - |t|..] && (t == [] || !IsSpace(t[0]))
    ensures AllSpace(s) ==> t == []
  {
    if t != [] {
      assert t[0] == s[|s| - |t|];
      assert !IsSpace(s[|s| - |t|]);
    }
  }

  /** `a.slice(-n)` for a positive `n`: the last `min(n, |a|)` elements. */
  function SliceLast<T>(a: seq<T>, n: nat): (r: seq<T>)
    ensures |r| == (if n < |a| then n else |a|)
    ensures forall i :: 0 <= i < |r| ==> r[i] == a[|a| - |r| + i]
  {
    if n < |a| then a[|a| - n..] else a
  }

  /** Keeping the last `n >= 1` elements keeps the last one. */
  lemma SliceLastKeepsLast<T>(a: seq<T>, n: nat)
    requires n >= 1 && |a| >= 1
    ensures var r := SliceLast(a, n); |r| >= 1 && r[|r| - 1] == a[|a| - 1]
  {
  }

  /** The character of one decimal digit. */
  function DigitChar(d: nat): (c: char)
    requires d < 10
    ensures IsDigit(c) && c as int - '0' as int == d
  {
    ('0' as int + d) as char
  }

  /** `String(n)` for a non-negative integer: its decimal digits, no leading zero. */
  function NumberToString(n: nat): (r: string)
    ensures 1 <= |r| && AllDigits(r)
    ensures r[0] == '0' <==> n == 0
    decreases n
  {
    if n < 10 then [DigitChar(n)] else NumberToString(n / 10) + [DigitChar(n % 10)]
  }

  /** The number a string of decimal digits denotes. */
  function DecimalValue(s: string): nat
    requires AllDigits(s)
    decreases |s|
  {
    if s == [] then 0 else 10 * DecimalValue(s[..|s| - 1]) + (s[|s| - 1] as int - '0' as int)
  }

  /** Reading back the decimal text of `n` gives `n`. */
  lemma {:induction false} DecimalRoundTrip(n: nat)
    ensures DecimalValue(NumberToString(n)) == n
    decreases n
  {
    if n >= 10 {
      var s := NumberToString(n);
      assert s[..|s| - 1] == NumberToString(n / 10);
      DecimalRoundTrip(n / 10);
    }
  }

  /** The number of decimal digits of small numbers. */
  lemma {:induction false} NumberToStringLength(n: nat)
    ensures n < 10 <==> |NumberToString(n)| == 1
    ensures 10 <= n < 100 <==> |NumberToString(n)| == 2
    ensures 100 <= n < 1000 ==> |NumberToString(n)| == 3
    ensures 1000 <= n < 10000 ==> |NumberToString(n)| == 4
  {
    if n >= 10 {
      NumberToStringLength(n / 10);
    }
  }

  /** `s.padStart(target, fill)` with a one-character `fill`. */
  function PadStart(s: string, target: nat, fill: char): (r: string)
    ensures |r| == (if |s| < target then target else |s|)
    ensures r[|r| - |s|..] == s
    ensures forall i :: 0 <= i < |r| - |s| ==> r[i] == fill
  {
    if |s| < target then seq(target - |s|, _ => fill) + s else s
  }
}

=== FILE: links.dfy ===
/** Rewriting of opening anchor tags in already-formatted message text.

    Both variants scan the text with a global, case-insensitive regular
    expression built on `<a\s+([^>]+)>` and rewrite each match:
    - sw-ai-chat.js:12-14 (`addTargetToLinks`) adds a negative lookahead
      `(?!.*?target=["']_blank["'])` after the white space, and rewrites a match
      to `<a ATTRS target="_blank">`;
    - chatMain.js:13-26 (`formatLinks`) classifies the tag by its `href` and
      rewrites only "external" tags without a blank target to
      `<a ATTRS target="_blank" rel="noopener">`.

    The regular expressions are modelled by hand: `Tag` is one match split into
    its parts, `GreedyTagAt` is the match at the start of a string for the plain
    pattern, `SwTagAt` the one for the pattern with the lookahead (which makes
    `\s+` backtrack), and the scans walk the string the way a global replace does. */
module Links {
  import opened Js
  import opened Wrappers
  import opened Format

  /** One match of `<a\s+([^>]+)>`: the `a` (either case), the white space, the attributes. */
  datatype Tag = Tag(letter: char, ws: string, attrs: string)

  function TagText(t: Tag): string {
    ['<', t.letter] + t.ws + t.attrs + ['>']
  }

  /** The parts a match can have. */
  predicate WellFormed(t: Tag) {
    && (t.letter == 'a' || t.letter == 'A')
    && |t.ws| >= 1 && AllSpace(t.ws)
    && |t.attrs| >= 1 && '>' !in t.attrs
  }

  /** The split a greedy `\s+` makes: the attributes start with a non-space
      unless the white space had to give back one character. */
  predicate Greedy(t: Tag) {
    |t.attrs| <= 1 || !IsSpace(t.attrs[0])
  }

  /** The index of the first `>` in `s`, or `|s|`. */
  function IndexOfGt(s: string): (k: nat)
    ensures k <= |s| && '>' !in s[..k] && (k < |s| ==> s[k] == '>')
    decreases |s|
  {
    if s == [] || s[0] == '>' then 0
    else
      var k := IndexOfGt(s[1..]);
      assert s[..k + 1] == [s[0]] + s[1..][..k];
      k + 1
  }

  /** The length of the white-space run that starts `s`. */
  function SpaceRun(s: string): (k: nat)
    ensures k <= |s| && AllSpace(s[..k]) && (k < |s| ==> !IsSpace(s[k]))
    decreases |s|
  {
    if s == [] || !IsSpace(s[0]) then 0
    else
      var k := SpaceRun(s[1..]);
      assert s[..k + 1] == [s[0]] + s[1..][..k];
      k + 1
  }

  /** `s` starts like a match: `<`, `a` or `A`, white space. */
  predicate OpensTag(s: string) {
    |s| >= 3 && s[0] == '<' && (s[1] == 'a' || s[1] == 'A') && IsSpace(s[2])
  }

  /** The match whose white space has length `w` and whose `>` is at index `e`. */
  function Split(s: string, e: nat, w: nat): Tag
    requires 2 + w <= e <= |s|
  {
    Tag(s[1], s[2..2 + w], s[2 + w..e])
  }

  /** Every match at the start of `s` ends at the first `>` after the `<a`, and
      its white space lies inside the white-space run there. */
  lemma MatchShape(s: string, t: Tag)
    requires WellFormed(t) && StartsWith(s, TagText(t))
    ensures OpensTag(s)
    ensures 2 + IndexOfGt(s[2..]) == |TagText(t)| - 1
    ensures |t.ws| <= SpaceRun(s[2..|TagText(t)| - 1])
    ensures t == Split(s, |TagText(t)| - 1, |t.ws|)
  {
    var e := |TagText(t)| - 1;
    var w := |t.ws|;
    var u := s[2..e];
    TagTextParts(s, t, e, u);
    assert s[2..][..e - 2] == u;
    NoGtInTag(t);
    IndexOfGtAt(s[2..], e - 2);
    assert u[..w] == t.ws && u[w..] == t.attrs;
    SpaceRunAtLeast(u, w);
    SplitParts(s, e, w, u);
    assert u[0] == t.ws[0];
  }

  /** The characters of a match laid over the text it starts. */
  lemma TagTextParts(s: string, t: Tag, e: nat, u: string)
    requires StartsWith(s, TagText(t)) && e == |TagText(t)| - 1
    ensures e == 2 + |t.ws| + |t.attrs| && e < |s|
    ensures s[0] == '<' && s[1] == t.letter && s[e] == '>'
    ensures u == s[2..e] ==> u == t.ws + t.attrs
  {
    var tt := TagText(t);
    assert s[..e + 1] == tt;
    assert s[0] == tt[0] && s[1] == tt[1] && s[e] == tt[e];
    assert tt[2..e] == t.ws + t.attrs;
    assert s[2..e] == tt[2..e];
  }

  lemma NoGtInTag(t: Tag)
    requires WellFormed(t)
    ensures '>' !in t.ws + t.attrs
  {
  }

  /** The first `>` of `v` is at `k` when `v[k]` is one and none comes before. */
  lemma IndexOfGtAt(v: string, k: nat)
    requires k < |v| && v[k] == '>' && '>' !in v[..k]
    ensures IndexOfGt(v) == k
  {
  }

  /** A white-space prefix lies inside the white-space run. */
  lemma SpaceRunAtLeast(u: string, w: nat)
    requires w <= |u| && AllSpace(u[..w])
    ensures w <= SpaceRun(u)
  {
    forall i | 0 <= i < w
      ensures IsSpace(u[i])
    {
      assert u[..w][i] == u[i];
    }
  }

  /** A split inside the white-space run before the first `>` is a match. */
  lemma SplitIsMatch(s: string, e: nat, w: nat)
    requires OpensTag(s) && e == 2 + IndexOfGt(s[2..]) && e < |s|
    requires 1 <= w <= SpaceRun(s[2..e]) && 2 + w < e
    ensures WellFormed(Split(s, e, w)) && StartsWith(s, TagText(Split(s, e, w)))
    ensures |TagText(Split(s, e, w))| == e + 1
  {
    var u := s[2..e];
    assert u == s[2..][..e - 2];
    assert s[e] == '>' by { assert s[e] == s[2..][e - 2]; }
    SplitParts(s, e, w, u);
    AllSpacePrefix(u, w, SpaceRun(u));
    NoGtSuffix(u, w);
    SplitText(s, e, w);
  }

  lemma SplitParts(s: string, e: nat, w: nat, u: string)
    requires 2 + w <= e <= |s| && u == s[2..e]
    ensures Split(s, e, w).ws == u[..w] && Split(s, e, w).attrs == u[w..]
  {
  }

  /** The text of a split is the text up to and including its `>`. */
  lemma SplitText(s: string, e: nat, w: nat)
    requires 2 + w < e < |s| && s[0] == '<' && s[e] == '>'
    ensures TagText(Split(s, e, w)) == s[..e + 1]
    ensures StartsWith(s, TagText(Split(s, e, w)))
  {
    var t := Split(s, e, w);
    assert s[..e + 1] == [s[0], s[1]] + s[2..2 + w] + s[2 + w..e] + [s[e]];
  }

  lemma AllSpacePrefix(u: string, w: nat, run: nat)
    requires w <= run <= |u| && AllSpace(u[..run])
    ensures AllSpace(u[..w])
  {
    forall i | 0 <= i < w
      ensures IsSpace(u[..w][i])
    {
      assert u[..w][i] == u[..run][i];
    }
  }

  lemma NoGtSuffix(u: string, w: nat)
    requires w <= |u| && '>' !in u
    ensures '>' !in u[w..]
  {
    forall i | 0 <= i < |u| - w
      ensures u[w..][i] != '>'
    {
      assert u[w..][i] == u[w + i];
    }
  }

  /** The match of `<a\s+([^>]+)>` at the start of `s`, if any. Among all the
      ways `s` can start with a match it returns the one with the longest white
      space, which is what a greedy `\s+` picks. */
  function GreedyTagAt(s: string): (r: Option<Tag>)
    ensures r.Some? ==> WellFormed(r.value) && Greedy(r.value) && StartsWith(s, TagText(r.value))
    ensures forall t :: WellFormed(t) && StartsWith(s, TagText(t)) ==>
              r.Some? && |TagText(t)| == |TagText(r.value)| && |t.ws| <= |r.value.ws|
    ensures forall t :: WellFormed(t) && Greedy(t) && StartsWith(s, TagText(t)) ==> r == Some(t)
  {
    if !OpensTag(s) then
      MatchesNeedOpening(s);
      None
    else
      var e := 2 + IndexOfGt(s[2..]);
      if e == |s| || e < 4 then
        MatchesNeedRoom(s, e);
        None
      else
        var run := SpaceRun(s[2..e]);
        var w := if run < e - 3 then run else e - 3;
        SplitIsMatch(s, e, w);
        var g := Split(s, e, w);
        assert Greedy(g) by {
          if run < e - 3 {
            assert g.attrs[0] == s[2..e][run];
          }
        }
        GreedyIsLongest(s, e, w, g);
        Some(g)
  }

  lemma MatchesNeedOpening(s: string)
    requires !OpensTag(s)
    ensures forall t :: WellFormed(t) ==> !StartsWith(s, TagText(t))
  {
    forall t | WellFormed(t) && StartsWith(s, TagText(t))
      ensures false
    {
      MatchShape(s, t);
    }
  }

  lemma MatchesNeedRoom(s: string, e: nat)
    requires OpensTag(s) && e == 2 + IndexOfGt(s[2..]) && (e == |s| || e < 4)
    ensures forall t :: WellFormed(t) ==> !StartsWith(s, TagText(t))
  {
    forall t | WellFormed(t) && StartsWith(s, TagText(t))
      ensures false
    {
      MatchShape(s, t);
    }
  }

  lemma GreedyIsLongest(s: string, e: nat, w: nat, g: Tag)
    requires OpensTag(s) && e == 2 + IndexOfGt(s[2..]) && 4 <= e < |s|
    requires w == (if SpaceRun(s[2..e]) < e - 3 then SpaceRun(s[2..e]) else e - 3)
    requires g == Split(s, e, w) && |TagText(g)| == e + 1
    ensures forall t :: WellFormed(t) && StartsWith(s, TagText(t)) ==> |TagText(t)| == e + 1 && |t.ws| <= w
    ensures forall t :: WellFormed(t) && Greedy(t) && StartsWith(s, TagText(t)) ==> g == t
  {
    forall t | WellFormed(t) && StartsWith(s, TagText(t))
      ensures |TagText(t)| == e + 1 && |t.ws| <= w
      ensures Greedy(t) ==> g == t
    {
      MatchAt(s, e, t);
      if Greedy(t) {
        GreedySplitIsFull(s, e, w, |t.ws|);
      }
    }
  }

  /** A match at the start of `s` is the split of its white space at the first `>`. */
  lemma MatchAt(s: string, e: nat, t: Tag)
    requires WellFormed(t) && StartsWith(s, TagText(t))
    requires OpensTag(s) && e == 2 + IndexOfGt(s[2..])
    ensures |TagText(t)| == e + 1 && t == Split(s, e, |t.ws|)
    ensures |t.ws| <= SpaceRun(s[2..e]) && |t.ws| + 3 <= e
  {
    MatchShape(s, t);
  }

  /** A greedy split takes the whole white-space run, save the one character
      the attributes need. */
  lemma GreedySplitIsFull(s: string, e: nat, w: nat, v: nat)
    requires 4 <= e <= |s|
    requires w == (if SpaceRun(s[2..e]) < e - 3 then SpaceRun(s[2..e]) else e - 3)
    requires 1 <= v <= SpaceRun(s[2..e]) && v + 3 <= e
    requires Greedy(Split(s, e, v))
    ensures v == w
  {
  }

  // ---------------------------------------------------------------------------
  // sw-ai-chat.js: the lookahead and the rewrite

  predicate IsQuote(c: char) {
    c == '"' || c == '\''
  }

  /** `target=["']_blank["']`, any letter case, at the start of `s`. */
  predicate BlankTargetAt(s: string) {
    |s| >= 15 && StartsWithIgnoringCase(s, "target=") && IsQuote(s[7])
    && StartsWithIgnoringCase(s[8..], "_blank") && IsQuote(s[14])
  }

  /** The lookahead body `.*?target=["']_blank["']` matches at the start of `s`:
      a blank target occurs before the first line terminator. */
  predicate BlankAhead(s: string)
    decreases |s|
  {
    BlankTargetAt(s) || (|s| > 0 && !IsLineTerminator(s[0]) && BlankAhead(s[1..]))
  }

  /** A blank target somewhere in `s`, line terminators notwithstanding. */
  predicate HasBlankTarget(s: string)
    decreases |s|
  {
    BlankTargetAt(s) || (|s| > 0 && HasBlankTarget(s[1..]))
  }

  predicate NoLineTerminator(s: string) {
    forall i :: 0 <= i < |s| ==> !IsLineTerminator(s[i])
  }

  /** The lookahead sees through any text without line terminators. */
  lemma {:induction false} BlankAheadThrough(x: string, y: string)
    requires NoLineTerminator(x) && BlankAhead(y)
    ensures BlankAhead(x + y)
    decreases |x|
  {
    if x == [] {
      assert x + y == y;
    } else {
      assert (x + y)[0] == x[0] && (x + y)[1..] == x[1..] + y;
      BlankAheadThrough(x[1..], y);
    }
  }

  /** The lookahead fails for the split with white space `w`. */
  predicate SplitBlocked(s: string, w: nat)
    requires 2 + w <= |s|
  {
    BlankAhead(s[2 + w..])
  }

  /** Backtracking `\s+` from `w` characters down to one, the first split whose
      lookahead succeeds. */
  function SwSplit(s: string, e: nat, w: nat): (r: Option<Tag>)
    requires 2 + w < e <= |s|
    ensures r.Some? ==> 1 <= |r.value.ws| <= w && r.value == Split(s, e, |r.value.ws|)
                        && !SplitBlocked(s, |r.value.ws|)
                        && forall v :: |r.value.ws| < v <= w ==> SplitBlocked(s, v)
    ensures r.None? ==> forall v :: 1 <= v <= w ==> SplitBlocked(s, v)
    decreases w
  {
    if w == 0 then None
    else if !SplitBlocked(s, w) then Some(Split(s, e, w))
    else SwSplit(s, e, w - 1)
  }

  /** The match of the sw-ai-chat.js pattern at the start of `s`, if any: the
      match with the longest white space whose lookahead succeeds. */
  function SwTagAt(s: string): (r: Option<Tag>)
    ensures r.Some? ==> WellFormed(r.value) && StartsWith(s, TagText(r.value))
                        && !BlankAhead(s[2 + |r.value.ws|..])
    ensures r.Some? ==> forall t :: WellFormed(t) && StartsWith(s, TagText(t)) && |t.ws| > |r.value.ws| ==>
                          BlankAhead(s[2 + |t.ws|..])
    ensures r.None? ==> forall t :: WellFormed(t) && StartsWith(s, TagText(t)) ==> BlankAhead(s[2 + |t.ws|..])
  {
    match GreedyTagAt(s)
    case None => None
    case Some(g) =>
      var e := |TagText(g)| - 1;
      MatchShape(s, g);
      var r := SwSplit(s, e, |g.ws|);
      SwSplitIsMatch(s, g, r);
      SwSplitCovers(s, e, |g.ws|, r);
      r
  }

  lemma SwSplitIsMatch(s: string, g: Tag, r: Option<Tag>)
    requires WellFormed(g) && StartsWith(s, TagText(g))
    requires 2 + |g.ws| < |TagText(g)| - 1 <= |s|
    requires r == SwSplit(s, |TagText(g)| - 1, |g.ws|)
    ensures r.Some? ==> WellFormed(r.value) && StartsWith(s, TagText(r.value))
  {
    MatchShape(s, g);
    if r.Some? {
      SplitIsMatch(s, |TagText(g)| - 1, |r.value.ws|);
    }
  }

  lemma SwSplitCovers(s: string, e: nat, w: nat, r: Option<Tag>)
    requires forall t :: WellFormed(t) && StartsWith(s, TagText(t)) ==> |t.ws| <= w
    requires 2 + w < e <= |s| && r == SwSplit(s, e, w)
    ensures r.Some? ==> forall t :: WellFormed(t) && StartsWith(s, TagText(t)) && |t.ws| > |r.value.ws| ==>
                          BlankAhead(s[2 + |t.ws|..])
    ensures r.None? ==> forall t :: WellFormed(t) && StartsWith(s, TagText(t)) ==> BlankAhead(s[2 + |t.ws|..])
  {
    var lo := if r.None? then 0 else |r.value.ws|;
    SwSplitSkipped(s, e, w, r, lo);
    BlockedTags(s, w, lo);
  }

  /** The backtracking passed over every split above the one it returned. */
  lemma SwSplitSkipped(s: string, e: nat, w: nat, r: Option<Tag>, lo: nat)
    requires 2 + w < e <= |s| && r == SwSplit(s, e, w)
    requires lo == if r.None? then 0 else |r.value.ws|
    ensures forall v :: lo < v <= w ==> SplitBlocked(s, v)
  {
  }

  /** When every split in `lo < v <= w` is blocked, so is every match with
      more than `lo` white-space characters. */
  lemma BlockedTags(s: string, w: nat, lo: nat)
    requires 2 + w <= |s|
    requires forall t :: WellFormed(t) && StartsWith(s, TagText(t)) ==> |t.ws| <= w
    requires forall v :: lo < v <= w ==> SplitBlocked(s, v)
    ensures forall t :: WellFormed(t) && StartsWith(s, TagText(t)) && |t.ws| > lo ==> BlankAhead(s[2 + |t.ws|..])
  {
    forall t | WellFormed(t) && StartsWith(s, TagText(t)) && |t.ws| > lo
      ensures BlankAhead(s[2 + |t.ws|..])
    {
      assert SplitBlocked(s, |t.ws|);
    }
  }

  // ---------------------------------------------------------------------------
  // The global replace

  /** A matcher only ever reports a match the text really starts with. */
  ghost predicate Matcher(at: string -> Option<Tag>) {
    forall x :: at(x).Some? ==> WellFormed(at(x).value) && StartsWith(x, TagText(at(x).value))
  }

  /** A replacement that ends in a character other than `*` and brings in no
      line break and no `**` the matched text did not have. */
  predicate CleanRewrite(t: Tag, o: string) {
    && o != [] && o[0] == '<' && o[|o| - 1] != '*'
    && (NoBreakChars(TagText(t)) ==> NoBreakChars(o))
    && (NoDoubleStar(TagText(t)) ==> NoDoubleStar(o))
  }

  ghost predicate CleanRewriter(out: Tag -> string) {
    forall t {:trigger out(t)} :: WellFormed(t) ==> CleanRewrite(t, out(t))
  }

  /** `s.replace(re, f)` with a global `re`: at each position, a match is
      replaced by `out` of it and the scan resumes after the match; elsewhere
      one character is copied and the scan moves on by one. */
  function Scan(s: string, at: string -> Option<Tag>, out: Tag -> string): (r: string)
    requires Matcher(at)
    decreases |s|
  {
    if s == [] then []
    else
      match at(s)
      case Some(t) =>
        assert s[..|TagText(t)|][0] == TagText(t)[0];
        out(t) + Scan(s[|TagText(t)|..], at, out)
      case None =>
        [s[0]] + Scan(s[1..], at, out)
  }

  /** The scan keeps the first character, and brings in no line break and no
      `**` when its replacements do not. */
  lemma {:induction false} ScanClean(s: string, at: string -> Option<Tag>, out: Tag -> string)
    requires Matcher(at) && CleanRewriter(out)
    ensures var r := Scan(s, at, out);
            && (r == [] <==> s == [])
            && (s != [] ==> r[0] == s[0])
            && (NoBreakChars(s) ==> NoBreakChars(r))
            && (NoDoubleStar(s) ==> NoDoubleStar(r))
    decreases |s|
  {
    if s != [] {
      match at(s)
      case Some(t) =>
        var n := |TagText(t)|;
        assert s[..n][0] == TagText(t)[0];
        ScanClean(s[n..], at, out);
        TagStepClean(s, t, out(t), Scan(s[n..], at, out));
      case None =>
        ScanClean(s[1..], at, out);
        assert |s| > 1 ==> s[1..][0] == s[1];
        CharStepClean(s, Scan(s[1..], at, out));
    }
  }

  /** The text of a match and what follows it are as clean as the whole text. */
  lemma TagPartsClean(s: string, t: Tag)
    requires StartsWith(s, TagText(t))
    ensures NoBreakChars(s) ==> NoBreakChars(TagText(t)) && NoBreakChars(s[|TagText(t)|..])
    ensures NoDoubleStar(s) ==> NoDoubleStar(TagText(t)) && NoDoubleStar(s[|TagText(t)|..])
  {
    var n := |TagText(t)|;
    assert s[0..n] == s[..n] == TagText(t);
    if NoDoubleStar(s) {
      NoDoubleStarInfix(s, 0, n);
      NoDoubleStarInfix(s, n, |s|);
      assert s[n..|s|] == s[n..];
    }
  }

  lemma TagStepClean(s: string, t: Tag, head: string, tail: string)
    requires StartsWith(s, TagText(t)) && CleanRewrite(t, head)
    requires NoBreakChars(s[|TagText(t)|..]) ==> NoBreakChars(tail)
    requires NoDoubleStar(s[|TagText(t)|..]) ==> NoDoubleStar(tail)
    ensures NoBreakChars(s) ==> NoBreakChars(head + tail)
    ensures NoDoubleStar(s) ==> NoDoubleStar(head + tail)
  {
    TagPartsClean(s, t);
    if NoDoubleStar(s) {
      NoDoubleStarConcat(head, tail);
    }
  }

  lemma CharStepClean(s: string, tail: string)
    requires s != [] && (tail != [] ==> |s| > 1 && tail[0] == s[1])
    requires NoBreakChars(s[1..]) ==> NoBreakChars(tail)
    requires NoDoubleStar(s[1..]) ==> NoDoubleStar(tail)
    ensures NoBreakChars(s) ==> NoBreakChars([s[0]] + tail)
    ensures NoDoubleStar(s) ==> NoDoubleStar([s[0]] + tail)
  {
    if NoDoubleStar(s) {
      NoDoubleStarInfix(s, 1, |s|);
      assert s[1..|s|] == s[1..];
      NoDoubleStarConcat([s[0]], tail);
    }
  }

  lemma NoMatchWithoutLt(s: string, at: string -> Option<Tag>)
    requires Matcher(at) && s != [] && s[0] != '<'
    ensures at(s).None?
  {
  }

  lemma NoLtTail(x: string)
    requires x != [] && '<' !in x
    ensures x[0] != '<' && '<' !in x[1..]
  {
    assert x == [x[0]] + x[1..];
  }

  /** Text with no `<` is copied, and the scan carries on after it. */
  lemma {:induction false} ScanPlainPrefix(x: string, y: string, at: string -> Option<Tag>, out: Tag -> string)
    requires Matcher(at) && '<' !in x
    ensures Scan(x + y, at, out) == x + Scan(y, at, out)
    decreases |x|
  {
    if x == [] {
      assert x + y == y;
    } else {
      var s := x + y;
      NoLtTail(x);
      assert s == [x[0]] + (x[1..] + y);
      NoMatchWithoutLt(s, at);
      ScanCharStep(x[0], x[1..] + y, at, out);
      ScanPlainPrefix(x[1..], y, at, out);
      assert [x[0]] + (x[1..] + Scan(y, at, out)) == x + Scan(y, at, out);
    }
  }

  /** Text with no `<` comes out unchanged. */
  lemma ScanPlain(s: string, at: string -> Option<Tag>, out: Tag -> string)
    requires Matcher(at)
    ensures '<' !in s ==> Scan(s, at, out) == s
  {
    if '<' !in s {
      ScanPlainPrefix(s, [], at, out);
      assert s + [] == s;
    }
  }

  /** A match is replaced and the scan resumes right after it. */
  lemma ScanTagStep(t: Tag, rest: string, at: string -> Option<Tag>, out: Tag -> string)
    requires Matcher(at) && at(TagText(t) + rest) == Some(t)
    ensures Scan(TagText(t) + rest, at, out) == out(t) + Scan(rest, at, out)
  {
    assert (TagText(t) + rest)[|TagText(t)|..] == rest;
  }

  /** Where nothing matches, one character is copied. */
  lemma ScanCharStep(c: char, rest: string, at: string -> Option<Tag>, out: Tag -> string)
    requires Matcher(at) && at([c] + rest).None?
    ensures Scan([c] + rest, at, out) == [c] + Scan(rest, at, out)
  {
    assert ([c] + rest)[1..] == rest;
  }

  /** The replacement `<a ATTRS` followed by a fixed tail is clean. */
  lemma AttrsRewriteClean(t: Tag, post: string)
    requires post != [] && '*' !in post && NoBreakChars(post)
    ensures CleanRewrite(t, "<a " + t.attrs + post)
  {
    var o := "<a " + t.attrs + post;
    assert o[|o| - 1] == post[|post| - 1];
    assert post[|post| - 1] in post;
    var tt := TagText(t);
    assert t.attrs == tt[2 + |t.ws|..|tt| - 1];
    if NoDoubleStar(tt) {
      NoDoubleStarInfix(tt, 2 + |t.ws|, |tt| - 1);
      NoDoubleStarConcat("<a ", t.attrs);
      assert NoDoubleStar(post) by {
        forall i | 0 <= i < |post| ensures post[i] != '*' {
          assert post[i] in post;
        }
      }
      NoDoubleStarConcat("<a " + t.attrs, post);
    }
    if NoBreakChars(tt) {
      forall i | 0 <= i < |t.attrs|
        ensures t.attrs[i] != '\r' && t.attrs[i] != '\n'
      {
        assert t.attrs[i] == tt[2 + |t.ws| + i];
      }
    }
  }

  // ---------------------------------------------------------------------------
  // sw-ai-chat.js

  const SW_SUFFIX: string := " target=\"_blank\">"

  /** The replacement sw-ai-chat.js writes for a match. */
  function SwRewrite(t: Tag): (o: string)
    ensures CleanRewrite(t, o)
  {
    AttrsRewriteClean(t, SW_SUFFIX);
    "<a " + t.attrs + SW_SUFFIX
  }

  lemma SwMatcher()
    ensures Matcher(SwTagAt) && CleanRewriter(SwRewrite)
  {
  }

  /** `addTargetToLinks` (sw-ai-chat.js:12-14). */
  function AddTargetToLinks(s: string): (r: string)
    ensures '<' !in s ==> r == s
    ensures NoBreakChars(s) ==> NoBreakChars(r)
    ensures NoDoubleStar(s) ==> NoDoubleStar(r)
  {
    SwMatcher();
    ScanClean(s, SwTagAt, SwRewrite);
    ScanPlain(s, SwTagAt, SwRewrite);
    Scan(s, SwTagAt, SwRewrite)
  }

  /** A match with no blank target ahead on its line is rewritten, and the scan
      resumes after its `>`. */
  lemma SwRewritesUnmarkedTag(t: Tag, rest: string)
    requires WellFormed(t) && Greedy(t)
    requires !BlankAhead(t.attrs + ">" + rest)
    ensures AddTargetToLinks(TagText(t) + rest) == SwRewrite(t) + AddTargetToLinks(rest)
  {
    var s := TagText(t) + rest;
    assert StartsWith(s, TagText(t));
    assert s[2 + |t.ws|..] == t.attrs + ">" + rest;
    SwTagAtUnblocked(s, t);
    SwMatcher();
    ScanTagStep(t, rest, SwTagAt, SwRewrite);
  }

  /** A greedy match whose lookahead succeeds is the match of the pattern
      with the lookahead. */
  lemma SwTagAtUnblocked(s: string, t: Tag)
    requires WellFormed(t) && Greedy(t) && StartsWith(s, TagText(t))
    requires !BlankAhead(s[2 + |t.ws|..])
    ensures SwTagAt(s) == Some(t)
  {
    var e := |TagText(t)| - 1;
    assert GreedyTagAt(s) == Some(t);
    SwTagAtOf(s, t);
    assert SwSplit(s, e, |t.ws|) == Some(t) by {
      MatchShape(s, t);
      SwSplitFirst(s, e, |t.ws|);
    }
  }

  lemma SwTagAtOf(s: string, g: Tag)
    requires GreedyTagAt(s) == Some(g)
    ensures SwTagAt(s) == SwSplit(s, |TagText(g)| - 1, |g.ws|)
  {
  }

  lemma SwSplitFirst(s: string, e: nat, w: nat)
    requires 1 <= w && 2 + w < e <= |s| && !BlankAhead(s[2 + w..])
    ensures SwSplit(s, e, w) == Some(Split(s, e, w))
  {
    assert !SplitBlocked(s, w);
  }

  /** A match followed, on the same line, by a blank target anywhere (in its
      own attributes or later in the text) is left exactly as it was. */
  lemma SwKeepsTagBeforeBlank(t: Tag, rest: string)
    requires WellFormed(t) && '<' !in t.attrs
    requires NoLineTerminator(t.ws) && BlankAhead(t.attrs + ">" + rest)
    ensures AddTargetToLinks(TagText(t) + rest) == TagText(t) + AddTargetToLinks(rest)
  {
    SwNoMatchBeforeBlank(t, rest);
    SwMatcher();
    ScanCopiesUnmatched(t, rest, SwTagAt, SwRewrite);
  }

  /** Every way of matching the tag has its lookahead blocked. */
  lemma SwNoMatchBeforeBlank(t: Tag, rest: string)
    requires WellFormed(t)
    requires NoLineTerminator(t.ws) && BlankAhead(t.attrs + ">" + rest)
    ensures SwTagAt(TagText(t) + rest).None?
  {
    var s := TagText(t) + rest;
    assert StartsWith(s, TagText(t));
    forall u | WellFormed(u) && StartsWith(s, TagText(u))
      ensures BlankAhead(s[2 + |u.ws|..])
    {
      SwBlockedSplit(s, t, u, rest);
    }
  }

  lemma SwBlockedSplit(s: string, t: Tag, u: Tag, rest: string)
    requires WellFormed(t) && WellFormed(u) && s == TagText(t) + rest && StartsWith(s, TagText(u))
    requires NoLineTerminator(t.ws) && BlankAhead(t.attrs + ">" + rest)
    ensures 2 + |u.ws| <= |s| && BlankAhead(s[2 + |u.ws|..])
  {
    assert StartsWith(s, TagText(t));
    MatchShape(s, t);
    MatchShape(s, u);
    if |u.ws| <= |t.ws| {
      ShorterSplitBlocked(s, t, |u.ws|, rest);
    } else {
      var a := 2 + |t.ws|;
      assert s[a..] == (t.attrs + ">") + rest by { DropTagHead(t, rest); }
      LongerSplitBlocked(s, u, a, t.attrs + ">", rest);
    }
  }

  /** A split inside the white space of `t` looks ahead through the rest of
      that white space, which holds no line terminator. */
  lemma ShorterSplitBlocked(s: string, t: Tag, w: nat, rest: string)
    requires s == TagText(t) + rest && w <= |t.ws|
    requires NoLineTerminator(t.ws) && BlankAhead(t.attrs + ">" + rest)
    ensures 2 + w <= |s| && BlankAhead(s[2 + w..])
  {
    var gap := t.ws[w..];
    assert NoLineTerminator(gap) by {
      forall i | 0 <= i < |gap| ensures !IsLineTerminator(gap[i]) {
        assert gap[i] == t.ws[w + i];
      }
    }
    assert s[2 + w..] == gap + (t.attrs + ">" + rest);
    BlankAheadThrough(gap, t.attrs + ">" + rest);
  }

  /** A split with more white space than a match `t` starts inside the
      attributes of `t` (the suffix of `s` from `a` on), past a white-space
      prefix that cannot hide a blank target. */
  lemma LongerSplitBlocked(s: string, u: Tag, a: nat, p: string, rest: string)
    requires WellFormed(u) && StartsWith(s, TagText(u))
    requires 2 <= a < 2 + |u.ws| <= a + |p| && a <= |s| && s[a..] == p + rest
    requires BlankAhead(p + rest)
    ensures 2 + |u.ws| <= |s| && BlankAhead(s[2 + |u.ws|..])
  {
    var b := 2 + |u.ws|;
    InnerSpaces(s, u, a, b);
    SpacesThenBlank(s, a, b, p, rest);
  }

  /** A blank target ahead of a white-space stretch is ahead of its end too. */
  lemma SpacesThenBlank(s: string, a: nat, b: nat, p: string, q: string)
    requires a <= b <= |s| && b - a <= |p| && s[a..] == p + q
    requires AllSpace(s[a..b]) && BlankAhead(p + q)
    ensures BlankAhead(s[b..])
  {
    DropSplit(s, a, b, p, q);
    SpacesHideNoBlank(p[..b - a], s[b..]);
  }

  /** Any stretch of a match's white space is white space. */
  lemma InnerSpaces(s: string, u: Tag, a: nat, b: nat)
    requires WellFormed(u) && StartsWith(s, TagText(u)) && b == 2 + |u.ws| && 2 <= a <= b
    ensures AllSpace(s[a..b])
  {
    var tu := TagText(u);
    forall i | 0 <= i < b - a
      ensures IsSpace(s[a..b][i])
    {
      assert s[a..b][i] == s[..|tu|][a + i] == tu[a + i] == u.ws[a - 2 + i];
    }
  }

  /** Past its letter and white space, a tag followed by `rest` is its
      attributes, its `>` and `rest`. */
  lemma DropTagHead(t: Tag, rest: string)
    ensures (TagText(t) + rest)[2 + |t.ws|..] == t.attrs + ">" + rest
  {
  }

  /** A suffix of `s` that starts with `p` splits at any point inside `p`. */
  lemma DropSplit(s: string, a: nat, b: nat, p: string, q: string)
    requires a <= b <= |s| && b - a <= |p| && s[a..] == p + q
    ensures s[a..] == p[..b - a] + s[b..] && s[a..b] == p[..b - a]
  {
    assert s[b..] == s[a..][b - a..];
    assert (p + q)[b - a..] == p[b - a..] + q;
    assert p == p[..b - a] + p[b - a..];
  }

  /** Past its `<`, a tag whose attributes hold no `<` has none. */
  lemma BodyHasNoLt(t: Tag)
    requires WellFormed(t) && '<' !in t.attrs
    ensures '<' !in TagText(t)[1..]
  {
    var body := TagText(t)[1..];
    forall i | 0 <= i < |body| ensures body[i] != '<' {
      if 1 <= i < 1 + |t.ws| {
        assert body[i] == t.ws[i - 1];
        assert IsSpace(t.ws[i - 1]);
      } else if 1 + |t.ws| <= i < |body| - 1 {
        assert body[i] == t.attrs[i - 1 - |t.ws|];
      }
    }
  }

  /** A tag the matcher passes over is copied character by character. */
  lemma ScanCopiesUnmatched(t: Tag, rest: string, at: string -> Option<Tag>, out: Tag -> string)
    requires Matcher(at) && WellFormed(t) && '<' !in t.attrs
    requires at(TagText(t) + rest).None?
    ensures Scan(TagText(t) + rest, at, out) == TagText(t) + Scan(rest, at, out)
  {
    var tt := TagText(t);
    var body := tt[1..];
    BodyHasNoLt(t);
    var s := tt + rest;
    assert s == [s[0]] + (body + rest);
    ScanCharStep(s[0], body + rest, at, out);
    ScanPlainPrefix(body, rest, at, out);
    assert tt == [s[0]] + body;
  }

  /** Leading white space neither starts a blank target nor hides one. */
  lemma {:induction false} SpacesHideNoBlank(x: string, y: string)
    requires AllSpace(x) && BlankAhead(x + y)
    ensures BlankAhead(y)
    decreases |x|
  {
    if x == [] {
      assert x + y == y;
    } else {
      assert (x + y)[0] == x[0] && IsSpace(x[0]);
      assert !BlankTargetAt(x + y);
      assert (x + y)[1..] == x[1..] + y;
      SpacesHideNoBlank(x[1..], y);
    }
  }

  // ---------------------------------------------------------------------------
  // chatMain.js

  /** The length of the run without quotes that starts `s`. */
  function QuoteFreeRun(s: string): (k: nat)
    ensures k <= |s| && (forall i :: 0 <= i < k ==> !IsQuote(s[i])) && (k < |s| ==> IsQuote(s[k]))
    decreases |s|
  {
    if s == [] || IsQuote(s[0]) then 0 else QuoteFreeRun(s[1..]) + 1
  }

  predicate QuoteFree(s: string) {
    forall i :: 0 <= i < |s| ==> !IsQuote(s[i])
  }

  /** `href=["']([^"']+)["']`, any letter case, at the start of `s`: the quoted value. */
  function HrefAt(s: string): (r: Option<string>)
    ensures r.Some? ==> && |r.value| >= 1 && 7 + |r.value| <= |s|
                        && StartsWithIgnoringCase(s, "href=") && IsQuote(s[5])
                        && r.value == s[6..6 + |r.value|] && IsQuote(s[6 + |r.value|])
                        && QuoteFree(r.value)
  {
    if |s| >= 6 && StartsWithIgnoringCase(s, "href=") && IsQuote(s[5]) then
      var k := QuoteFreeRun(s[6..]);
      if k >= 1 && 6 + k < |s| then
        var v := s[6..6 + k];
        assert QuoteFree(v) by {
          forall i | 0 <= i < |v| ensures !IsQuote(v[i]) {
            assert v[i] == s[6..][i];
          }
        }
        Some(s[6..6 + k])
      else None
    else None
  }

  /** `attrs.match(/href=["']([^"']+)["']/i)[1]`: the value of the leftmost match. */
  function FindHref(attrs: string): (r: Option<string>)
    ensures r.Some? ==> |r.value| >= 1 && 7 + |r.value| <= |attrs| && QuoteFree(r.value)
    decreases |attrs|
  {
    if attrs == [] then None
    else if HrefAt(attrs).Some? then HrefAt(attrs)
    else FindHref(attrs[1..])
  }

  /** The value found is the one at the leftmost position where the pattern
      matches; no position matches when none is found. */
  lemma {:induction false} FindHrefLeftmost(attrs: string) returns (k: nat)
    ensures FindHref(attrs).Some? ==> k < |attrs| && HrefAt(attrs[k..]) == FindHref(attrs)
    ensures forall j :: 0 <= j < |attrs| && (FindHref(attrs).None? || j < k) ==> HrefAt(attrs[j..]).None?
    decreases |attrs|
  {
    if attrs == [] {
      k := 0;
    } else if HrefAt(attrs).Some? {
      k := 0;
      assert attrs[0..] == attrs;
    } else {
      var k' := FindHrefLeftmost(attrs[1..]);
      k := k' + 1;
      assert attrs[0..] == attrs;
      forall j | 1 <= j < |attrs|
        ensures attrs[j..] == attrs[1..][j - 1..]
      {
      }
    }
  }

  /** `target\s*=\s*["']_blank["']`, any letter case, at the start of `s`. */
  predicate SpacedBlankAt(s: string) {
    StartsWithIgnoringCase(s, "target") && EqualsThenBlank(TrimStart(s[6..]))
  }

  predicate EqualsThenBlank(s: string) {
    |s| >= 1 && s[0] == '=' && QuotedBlank(TrimStart(s[1..]))
  }

  predicate QuotedBlank(s: string) {
    |s| >= 8 && IsQuote(s[0]) && StartsWithIgnoringCase(s[1..], "_blank") && IsQuote(s[7])
  }

  /** `/target\s*=\s*["']_blank["']/i.test(s)`. */
  predicate HasSpacedBlank(s: string)
    decreases |s|
  {
    SpacedBlankAt(s) || (|s| > 0 && HasSpacedBlank(s[1..]))
  }

  lemma {:induction false} HasSpacedBlankAfter(x: string, y: string)
    requires SpacedBlankAt(y)
    ensures HasSpacedBlank(x + y)
    decreases |x|
  {
    if x == [] {
      assert x + y == y;
    } else {
      TailOfConcat(x, y);
      HasSpacedBlankAfter(x[1..], y);
    }
  }

  /** The path tests of the classification are subsumed by the last one:
      an href is internal exactly when it mentions the site or starts with
      neither `mailto:` nor `://`. */
  lemma InternalAsWrittenReduced(href: string)
    ensures IsInternalAsWritten(href) <==> Includes(href, "synthwave.so") || !(StartsWith(href, "mailto:") || StartsWith(href, "://"))
  {
    if StartsWith(href, "/") || StartsWith(href, "./") || StartsWith(href, "../") {
      assert href[0] == '/' || href[0] == '.';
    }
  }

  /** The classification at chatMain.js:19 of a lower-cased href. */
  predicate IsInternalAsWritten(href: string) {
    || Includes(href, "synthwave.so")
    || StartsWith(href, "/") || StartsWith(href, "./") || StartsWith(href, "../")
    || !(StartsWith(href, "mailto:") || StartsWith(href, "://"))
  }

  /** chatMain.js:16-20: whether a match is given the new attributes, for a
      classification `internal`. */
  predicate Marks(attrs: string, internal: string -> bool) {
    match FindHref(attrs)
    case None => false
    case Some(href) => !internal(ToLower(href)) && !HasSpacedBlank(attrs)
  }

  /** The attribute both scripts add, and the one chatMain.js adds after it. */
  const BLANK_ATTR: string := "target=\"_blank\""
  const REL_ATTR: string := "rel=\"noopener\""

  /** What chatMain.js appends to the attributes of a tag it rewrites. */
  const MAIN_ADDED: string := " " + BLANK_ATTR + (" " + REL_ATTR)
  const MAIN_SUFFIX: string := MAIN_ADDED + ">"

  /** The text chatMain.js writes for a match: the match itself, or the match
      with `target="_blank" rel="noopener"` appended. */
  function MainRewrite(t: Tag, mark: bool): (o: string)
    ensures CleanRewrite(t, o)
  {
    MainSuffixClean();
    AttrsRewriteClean(t, MAIN_SUFFIX);
    if mark then "<a " + t.attrs + MAIN_SUFFIX else TagText(t)
  }

  lemma MainSuffixClean()
    ensures MAIN_SUFFIX != [] && '*' !in MAIN_SUFFIX && NoBreakChars(MAIN_SUFFIX)
  {
    assert '*' !in BLANK_ATTR && NoBreakChars(BLANK_ATTR);
    assert '*' !in REL_ATTR && NoBreakChars(REL_ATTR);
    PlainConcat(" ", BLANK_ATTR);
    PlainConcat(" ", REL_ATTR);
    PlainConcat(" " + BLANK_ATTR, " " + REL_ATTR);
    PlainConcat(MAIN_ADDED, ">");
  }

  /** Gluing two texts without asterisks and line breaks gives another. */
  lemma PlainConcat(a: string, b: string)
    requires '*' !in a && '*' !in b && NoBreakChars(a) && NoBreakChars(b)
    ensures '*' !in a + b && NoBreakChars(a + b)
  {
  }

  function MainRewriteAsWritten(t: Tag): (o: string)
    ensures CleanRewrite(t, o)
  {
    MainRewrite(t, Marks(t.attrs, IsInternalAsWritten))
  }

  lemma MainMatcher()
    ensures Matcher(GreedyTagAt) && CleanRewriter(MainRewriteAsWritten)
  {
  }

  /** `formatLinks` (chatMain.js:13-26), as written. */
  function FormatLinks(s: string): (r: string)
    ensures '<' !in s ==> r == s
    ensures NoBreakChars(s) ==> NoBreakChars(r)
    ensures NoDoubleStar(s) ==> NoDoubleStar(r)
  {
    MainMatcher();
    ScanClean(s, GreedyTagAt, MainRewriteAsWritten);
    ScanPlain(s, GreedyTagAt, MainRewriteAsWritten);
    Scan(s, GreedyTagAt, MainRewriteAsWritten)
  }

  /** chatMain.js leaves a match unchanged exactly when it has no quoted href,
      the href counts as internal, or a blank target is already among its
      attributes; otherwise the tag gains `target="_blank" rel="noopener"`. */
  lemma MainTagRule(t: Tag, rest: string)
    requires WellFormed(t) && Greedy(t)
    ensures var out := FormatLinks(TagText(t) + rest);
            var kept := FindHref(t.attrs).None? || IsInternalAsWritten(ToLower(FindHref(t.attrs).value))
                        || HasSpacedBlank(t.attrs);
            && (kept ==> out == TagText(t) + FormatLinks(rest))
            && (!kept ==> out == "<a " + t.attrs + MAIN_SUFFIX + FormatLinks(rest))
  {
    var s := TagText(t) + rest;
    assert StartsWith(s, TagText(t));
    assert GreedyTagAt(s) == Some(t);
    MainMatcher();
    ScanTagStep(t, rest, GreedyTagAt, MainRewriteAsWritten);
  }

  lemma TrimStartKeeps(s: string)
    requires s != [] && !IsSpace(s[0])
    ensures TrimStart(s) == s
  {
  }

  /** The added attribute is a blank target to the test at chatMain.js:20. */
  lemma BlankAttrIsBlank(rest: string)
    ensures SpacedBlankAt(BLANK_ATTR + rest)
  {
    var z := BLANK_ATTR + rest;
    assert z[..15] == BLANK_ATTR;
    var e := z[6..];
    assert e[0] == z[..15][6];
    TrimStartKeeps(e);
    var q := e[1..];
    assert q[0] == z[..15][7];
    TrimStartKeeps(q);
    assert q[1..7] == z[..15][8..14];
    assert q[7] == z[..15][14];
  }

  lemma MainAddedCarriesBlank(attrs: string)
    ensures HasSpacedBlank(attrs + MAIN_ADDED)
  {
    BlankAttrIsBlank(" " + REL_ATTR);
    BlankAfterSpace(attrs, BLANK_ATTR, " " + REL_ATTR);
  }

  lemma BlankAfterSpace(attrs: string, b: string, r: string)
    requires SpacedBlankAt(b + r)
    ensures HasSpacedBlank(attrs + (" " + b + r))
  {
    SpaceJoin(attrs, b, r);
    HasSpacedBlankAfter(attrs + " ", b + r);
  }

  lemma SpaceJoin(a: string, b: string, r: string)
    ensures a + (" " + b + r) == (a + " ") + (b + r)
  {
  }

  lemma MarkedText(attrs: string, added: string)
    ensures TagText(Tag('a', " ", attrs + added)) == "<a " + attrs + (added + ">")
  {
  }

  lemma NoGtInMainAdded()
    ensures '>' !in MAIN_ADDED
  {
  }

  /** Appending attributes without `>` to a match gives a match. */
  lemma MarkedIsMatch(t: Tag, added: string)
    requires WellFormed(t) && Greedy(t) && |t.attrs| >= 2 && '>' !in added
    ensures WellFormed(Tag('a', " ", t.attrs + added)) && Greedy(Tag('a', " ", t.attrs + added))
  {
    assert (t.attrs + added)[0] == t.attrs[0];
  }

  /** A tag chatMain.js has rewritten is a match again and is left alone by a
      second pass: the rewrite is stable. */
  lemma MainRewrittenTagStable(t: Tag, rest: string)
    requires WellFormed(t) && Greedy(t) && Marks(t.attrs, IsInternalAsWritten)
    ensures var marked := Tag('a', " ", t.attrs + MAIN_ADDED);
            && TagText(marked) == MainRewriteAsWritten(t)
            && FormatLinks(TagText(marked) + rest) == TagText(marked) + FormatLinks(rest)
  {
    var marked := Tag('a', " ", t.attrs + MAIN_ADDED);
    MainAddedCarriesBlank(t.attrs);
    MarkedText(t.attrs, MAIN_ADDED);
    NoGtInMainAdded();
    MarkedIsMatch(t, MAIN_ADDED);
    assert !Marks(marked.attrs, IsInternalAsWritten);
    MainTagRule(marked, rest);
  }

  // ---------------------------------------------------------------------------
  // Finding: https links are never marked by chatMain.js

  function QuoteCount(s: string): nat
    decreases |s|
  {
    if s == [] then 0 else (if IsQuote(s[0]) then 1 else 0) + QuoteCount(s[1..])
  }

  lemma {:induction false} QuoteCountSuffix(s: string, k: nat)
    requires k <= |s|
    ensures QuoteCount(s[k..]) <= QuoteCount(s)
    decreases k
  {
    if k > 0 {
      assert s[1..][k - 1..] == s[k..];
      QuoteCountSuffix(s[1..], k - 1);
    }
  }

  lemma {:induction false} QuoteCountConcat(a: string, b: string)
    ensures QuoteCount(a + b) == QuoteCount(a) + QuoteCount(b)
    decreases |a|
  {
    if a == [] {
      assert a + b == b;
    } else {
      assert (a + b)[1..] == a[1..] + b;
      QuoteCountConcat(a[1..], b);
    }
  }

  lemma {:induction false} QuoteFreeCount(s: string)
    requires QuoteFree(s)
    ensures QuoteCount(s) == 0
    decreases |s|
  {
    if s != [] {
      QuoteFreeCount(s[1..]);
    }
  }

  /** A blank-target test needs two quotes after the word `target`. */
  lemma SpacedBlankQuotes(s: string)
    requires SpacedBlankAt(s)
    ensures |s| >= 6 && QuoteCount(s[6..]) >= 2
  {
    EqualsThenBlankQuotes(s[6..]);
  }

  lemma EqualsThenBlankQuotes(x: string)
    requires EqualsThenBlank(TrimStart(x))
    ensures QuoteCount(x) >= 2
  {
    var v := TrimStart(x);
    var w := TrimStart(v[1..]);
    TwoQuotes(w);
    QuoteCountTrim(v[1..]);
    QuoteCountSuffix(v, 1);
    QuoteCountTrim(x);
  }

  lemma QuoteCountTrim(x: string)
    ensures QuoteCount(TrimStart(x)) <= QuoteCount(x)
  {
    QuoteCountSuffix(x, |x| - |TrimStart(x)|);
  }

  lemma TwoQuotes(w: string)
    requires |w| >= 8 && IsQuote(w[0]) && IsQuote(w[7])
    ensures QuoteCount(w) >= 2
  {
    assert w[1..][6..] == w[7..];
    QuoteCountSuffix(w[1..], 6);
  }

  lemma {:induction false} HasSpacedBlankQuotes(s: string)
    requires HasSpacedBlank(s)
    ensures |s| >= 6 && QuoteCount(s[6..]) >= 2
    decreases |s|
  {
    if SpacedBlankAt(s) {
      SpacedBlankQuotes(s);
    } else {
      HasSpacedBlankQuotes(s[1..]);
      assert s[1..][6..] == s[6..][1..];
      QuoteCountSuffix(s[6..], 1);
    }
  }

  /** `href="URL"` with a quote-free URL has URL as its href and no blank target. */
  lemma QuotedHref(url: string)
    requires |url| >= 1 && QuoteFree(url)
    ensures FindHref("href=\"" + url + "\"") == Some(url)
    ensures !HasSpacedBlank("href=\"" + url + "\"")
  {
    QuotedHrefValue(url);
    QuotedHrefNoBlank(url);
  }

  lemma QuotedHrefValue(url: string)
    requires |url| >= 1 && QuoteFree(url)
    ensures FindHref("href=\"" + url + "\"") == Some(url)
  {
    var a := "href=\"" + url + "\"";
    SplitAfterPrefix("href=\"", url, "\"");
    HrefAtQuoted(a, url);
    FindHrefHere(a);
  }

  lemma SplitAfterPrefix(p: string, x: string, y: string)
    ensures (p + x + y)[..|p|] == p && (p + x + y)[|p|..] == x + y
  {
    assert p + x + y == p + (x + y);
  }

  lemma HrefAtQuoted(a: string, url: string)
    requires |url| >= 1 && QuoteFree(url) && |a| == 7 + |url|
    requires a[..6] == "href=\"" && a[6..] == url + "\""
    ensures HrefAt(a) == Some(url)
  {
    assert StartsWithIgnoringCase(a, "href=") by {
      forall i | 0 <= i < 5 ensures LowerChar(a[i]) == "href="[i] {
        assert a[i] == a[..6][i];
      }
    }
    assert a[5] == a[..6][5];
    QuoteFreeRunOf(url, "\"");
    assert a[6..6 + |url|] == url;
  }

  lemma FindHrefHere(attrs: string)
    requires HrefAt(attrs).Some?
    ensures FindHref(attrs) == HrefAt(attrs)
  {
  }

  lemma QuotedHrefNoBlank(url: string)
    requires QuoteFree(url)
    ensures !HasSpacedBlank("href=\"" + url + "\"")
  {
    var a := "href=\"" + url + "\"";
    assert a[6..] == url + "\"";
    QuoteCountConcat(url, "\"");
    QuoteFreeCount(url);
    assert QuoteCount("\"") == 1;
    if HasSpacedBlank(a) {
      HasSpacedBlankQuotes(a);
    }
  }

  lemma {:induction false} QuoteFreeRunOf(x: string, y: string)
    requires QuoteFree(x) && |y| >= 1 && IsQuote(y[0])
    ensures QuoteFreeRun(x + y) == |x|
    decreases |x|
  {
    if x == [] {
      assert x + y == y;
    } else {
      assert (x + y)[1..] == x[1..] + y;
      QuoteFreeRunOf(x[1..], y);
    }
  }

  /** The anchor `<a href="URL">`. */
  function Anchor(url: string): Tag {
    Tag('a', " ", "href=\"" + url + "\"")
  }

  lemma AnchorIsMatch(url: string)
    requires |url| >= 1 && QuoteFree(url) && '>' !in url
    ensures WellFormed(Anchor(url)) && Greedy(Anchor(url))
  {
  }

  /** A match after text without `<` is replaced, the text before it copied. */
  lemma ScanAfterPlain(x: string, t: Tag, rest: string, at: string -> Option<Tag>, out: Tag -> string)
    requires Matcher(at) && '<' !in x && at(TagText(t) + rest) == Some(t)
    ensures Scan(x + TagText(t) + rest, at, out) == x + out(t) + Scan(rest, at, out)
  {
    assert x + TagText(t) + rest == x + (TagText(t) + rest);
    ScanPlainPrefix(x, TagText(t) + rest, at, out);
    ScanTagStep(t, rest, at, out);
  }

  /** An `https://` href, lower-cased, starts with neither `mailto:` nor `://`. */
  lemma HttpsFacts(url: string)
    requires StartsWith(url, "https://")
    ensures var h := ToLower(url);
            && IsInternalAsWritten(h)
            && (!Includes(h, "synthwave.so") ==> !IsInternalIntended(h))
  {
    var h := ToLower(url);
    assert url[..8] == "https://";
    forall i | 0 <= i < 8 ensures h[i] == url[i] {
      assert url[i] == url[..8][i];
    }
    assert h[0] == 'h';
    assert !StartsWith(h, "mailto:") && !StartsWith(h, "://");
    assert !StartsWith(h, "/") && !StartsWith(h, "./") && !StartsWith(h, "../");
    assert h[5..][..3] == "://";
    IncludesAt(h, "://", 5);
  }

  /** As written (chatMain.js:19), the `^` anchors `://` to the start of the
      href, so an `https://` anchor is classified internal and left unchanged. */
  lemma MainHttpsLinkUnchanged(x: string, url: string, rest: string)
    requires '<' !in x && StartsWith(url, "https://") && QuoteFree(url) && '>' !in url
    ensures FormatLinks(x + TagText(Anchor(url)) + rest) == x + TagText(Anchor(url)) + FormatLinks(rest)
  {
    var t := Anchor(url);
    QuotedHref(url);
    HttpsFacts(url);
    AnchorIsMatch(url);
    var s := TagText(t) + rest;
    assert StartsWith(s, TagText(t));
    MainMatcher();
    ScanAfterPlain(x, t, rest, GreedyTagAt, MainRewriteAsWritten);
  }

  /** The evidently intended classification: an href is external when it is a
      `mailto:` link or carries the scheme separator `://`. */
  predicate IsInternalIntended(href: string) {
    || Includes(href, "synthwave.so")
    || StartsWith(href, "/") || StartsWith(href, "./") || StartsWith(href, "../")
    || !(StartsWith(href, "mailto:") || Includes(href, "://"))
  }

  function MainRewriteIntended(t: Tag): (o: string)
    ensures CleanRewrite(t, o)
  {
    MainRewrite(t, Marks(t.attrs, IsInternalIntended))
  }

  /** `formatLinks` with the corrected classification. */
  function FormatLinksIntended(s: string): (r: string)
    ensures '<' !in s ==> r == s
    ensures NoBreakChars(s) ==> NoBreakChars(r)
    ensures NoDoubleStar(s) ==> NoDoubleStar(r)
  {
    IntendedMatcher();
    ScanClean(s, GreedyTagAt, MainRewriteIntended);
    ScanPlain(s, GreedyTagAt, MainRewriteIntended);
    Scan(s, GreedyTagAt, MainRewriteIntended)
  }

  /** The corrected rule, tag by tag: like the written one, except for the
      classification. */
  lemma IntendedTagRule(t: Tag, rest: string)
    requires WellFormed(t) && Greedy(t)
    ensures var out := FormatLinksIntended(TagText(t) + rest);
            var kept := FindHref(t.attrs).None? || IsInternalIntended(ToLower(FindHref(t.attrs).value))
                        || HasSpacedBlank(t.attrs);
            && (kept ==> out == TagText(t) + FormatLinksIntended(rest))
            && (!kept ==> out == "<a " + t.attrs + MAIN_SUFFIX + FormatLinksIntended(rest))
  {
    var s := TagText(t) + rest;
    assert StartsWith(s, TagText(t));
    assert GreedyTagAt(s) == Some(t);
    ScanTagStep(t, rest, GreedyTagAt, MainRewriteIntended);
  }

  /** With the corrected classification an off-site `https://` anchor gains
      `target="_blank" rel="noopener"`, which the written code does not do. */
  lemma IntendedMarksHttpsLink(x: string, url: string, rest: string)
    requires '<' !in x && StartsWith(url, "https://") && QuoteFree(url) && '>' !in url
    requires !Includes(ToLower(url), "synthwave.so")
    ensures var t := Anchor(url);
            && FormatLinksIntended(x + TagText(t) + rest) == x + ("<a " + t.attrs + MAIN_SUFFIX) + FormatLinksIntended(rest)
            && FormatLinks(x + TagText(t) + rest) != FormatLinksIntended(x + TagText(t) + rest)
  {
    var t := Anchor(url);
    QuotedHref(url);
    HttpsFacts(url);
    AnchorIsMatch(url);
    var s := TagText(t) + rest;
    assert StartsWith(s, TagText(t));
    IntendedMatcher();
    ScanAfterPlain(x, t, rest, GreedyTagAt, MainRewriteIntended);
    MainHttpsLinkUnchanged(x, url, rest);
    DifferAt(x + TagText(t), FormatLinks(rest), x + ("<a " + t.attrs + MAIN_SUFFIX), FormatLinksIntended(rest), |x| + 3 + |t.attrs|);
  }

  // ---------------------------------------------------------------------------
  // Finding: a later blank target stops sw-ai-chat.js from rewriting a tag

  /** As written (sw-ai-chat.js:13), the lookahead `.*?` runs past the tag's
      own `>`, so a blank target later on the same line keeps an earlier tag
      that has none from being rewritten. */
  lemma SwLaterBlankSuppresses(t: Tag, rest: string)
    requires WellFormed(t) && '<' !in t.attrs && NoLineTerminator(t.ws) && NoLineTerminator(t.attrs)
    requires BlankAhead(rest)
    ensures AddTargetToLinks(TagText(t) + rest) == TagText(t) + AddTargetToLinks(rest)
  {
    assert NoLineTerminator(t.attrs + ">");
    BlankAheadThrough(t.attrs + ">", rest);
    SwKeepsTagBeforeBlank(t, rest);
  }

  /** The evidently intended match: the lookahead confined to the tag, that
      is a greedy match whose own attributes hold no blank target. */
  function SwIntendedTagAt(s: string): (r: Option<Tag>)
    ensures r.Some? ==> WellFormed(r.value) && Greedy(r.value) && StartsWith(s, TagText(r.value))
                        && !HasBlankTarget(r.value.attrs)
    ensures r.None? ==> forall t :: WellFormed(t) && Greedy(t) && StartsWith(s, TagText(t)) ==> HasBlankTarget(t.attrs)
  {
    match GreedyTagAt(s)
    case None => None
    case Some(g) => if HasBlankTarget(g.attrs) then None else Some(g)
  }

  lemma IntendedMatcher()
    ensures Matcher(GreedyTagAt) && Matcher(SwIntendedTagAt)
    ensures CleanRewriter(MainRewriteIntended) && CleanRewriter(SwRewrite)
  {
  }

  /** `addTargetToLinks` with the lookahead confined to the tag. */
  function AddTargetIntended(s: string): (r: string)
    ensures '<' !in s ==> r == s
    ensures NoBreakChars(s) ==> NoBreakChars(r)
    ensures NoDoubleStar(s) ==> NoDoubleStar(r)
  {
    IntendedMatcher();
    ScanClean(s, SwIntendedTagAt, SwRewrite);
    ScanPlain(s, SwIntendedTagAt, SwRewrite);
    Scan(s, SwIntendedTagAt, SwRewrite)
  }

  /** With the corrected lookahead a tag is rewritten exactly when its own
      attributes hold no blank target, whatever follows it. */
  lemma IntendedSwTagRule(t: Tag, rest: string)
    requires WellFormed(t) && Greedy(t) && '<' !in t.attrs
    ensures !HasBlankTarget(t.attrs) ==> AddTargetIntended(TagText(t) + rest) == SwRewrite(t) + AddTargetIntended(rest)
    ensures HasBlankTarget(t.attrs) ==> AddTargetIntended(TagText(t) + rest) == TagText(t) + AddTargetIntended(rest)
  {
    var s := TagText(t) + rest;
    assert StartsWith(s, TagText(t));
    assert GreedyTagAt(s) == Some(t);
    IntendedMatcher();
    if HasBlankTarget(t.attrs) {
      ScanCopiesUnmatched(t, rest, SwIntendedTagAt, SwRewrite);
    } else {
      ScanTagStep(t, rest, SwIntendedTagAt, SwRewrite);
    }
  }

  /** The two versions part ways on an anchor without a blank target that is
      followed on its line by one that has it. */
  lemma SwFindingWitness(t: Tag, rest: string)
    requires WellFormed(t) && Greedy(t) && t.ws == " " && '<' !in t.attrs && NoLineTerminator(t.attrs)
    requires !HasBlankTarget(t.attrs) && BlankAhead(rest)
    ensures AddTargetToLinks(TagText(t) + rest) == TagText(t) + AddTargetToLinks(rest)
    ensures AddTargetIntended(TagText(t) + rest) == SwRewrite(t) + AddTargetIntended(rest)
    ensures AddTargetToLinks(TagText(t) + rest) != AddTargetIntended(TagText(t) + rest)
  {
    SwLaterBlankSuppresses(t, rest);
    IntendedSwTagRule(t, rest);
    RewriteDiffersAt(t);
    DifferAt(TagText(t), AddTargetToLinks(rest), SwRewrite(t), AddTargetIntended(rest), 3 + |t.attrs|);
  }

  /** A rewritten single-spaced tag shows a space where the original has its `>`. */
  lemma RewriteDiffersAt(t: Tag)
    requires t.ws == " "
    ensures var k := 3 + |t.attrs|;
            k < |TagText(t)| && k < |SwRewrite(t)| && TagText(t)[k] != SwRewrite(t)[k]
  {
    var k := 3 + |t.attrs|;
    assert TagText(t)[k] == '>';
    assert SwRewrite(t)[k] == SW_SUFFIX[0];
  }

  /** Two texts whose prefixes differ at a position inside both prefixes differ. */
  lemma DifferAt(x: string, y: string, u: string, v: string, k: nat)
    requires k < |x| && k < |u| && x[k] != u[k]
    ensures x + y != u + v
  {
    assert (x + y)[k] == x[k];
    assert (u + v)[k] == u[k];
  }
}

=== FILE: popup.dfy ===
/** The popup session kept across page loads (chatPersist.js): a session flag
    `chatPopupActive`, the `#synthia` URL hash, bounded retries while the popup
    and the chat container appear, and the popup-id filters of the scripts.

    The DOM is replaced by oracles indexed by time step (one step per 100 ms
    retry): `present(s)` says whether the element exists at step `s`,
    `visible(s)` whether it is visible. Showing the popup through the page
    builder is a parameter. */
module Popup {
  import opened Js
  import opened Wrappers

  const POPUP_ID: int := 932
  const MAX_RETRIES: nat := 20
  const CHAT_RETRIES: nat := 20
  const SYNTHIA_HASH: string := "#synthia"
  const ACTIVE: string := "true"

  /** Retries left to an element lookup that is at `attempt` of `maxAttempts`. */
  function Budget(maxAttempts: nat, attempt: nat): nat {
    if attempt < maxAttempts then maxAttempts - attempt else 0
  }

  /** `waitForElement` (chatPersist.js:15-24): look at step `start`, and again
      one step later while attempts remain. The callback runs at most once, at
      the result: the first step at which the element exists. */
  method WaitForElement(present: nat -> bool, start: nat, maxAttempts: nat, attempt: nat) returns (r: Option<nat>)
    ensures r.Some? ==> present(r.value) && start <= r.value <= start + Budget(maxAttempts, attempt)
    ensures r.Some? ==> forall s :: start <= s < r.value ==> !present(s)
    ensures r.None? ==> forall s :: start <= s <= start + Budget(maxAttempts, attempt) ==> !present(s)
  {
    var k := attempt;
    var step := start;
    while !present(step) && k < maxAttempts
      invariant attempt <= k
      invariant step == start + (k - attempt)
      invariant k <= maxAttempts || k == attempt
      invariant forall s :: start <= s < step ==> !present(s)
      decreases maxAttempts - k
    {
      k := k + 1;
      step := step + 1;
    }
    if present(step) {
      r := Some(step);
    } else {
      r := None;
    }
  }

  /** `reinitializeChat` (chatPersist.js:69-82): wait for the chat container;
      when it is visible dispatch `chatReinitialize`, otherwise retry one step
      later with the next retry number until CHAT_RETRIES is reached. The result
      is the step of the one dispatch, if any. */
  method ReinitializeChat(present: nat -> bool, visible: nat -> bool, retry: nat, start: nat) returns (r: Option<nat>)
    ensures r.Some? ==> start <= r.value && present(r.value) && visible(r.value)
    ensures r.Some? ==> forall s :: start <= s < r.value ==> !(present(s) && visible(s))
    ensures r.Some? ==> r.value - start <= (Budget(CHAT_RETRIES, retry) + 1) * (Budget(CHAT_RETRIES, retry) + 1)
    ensures r.None? ==> forall s :: start <= s <= start + Budget(CHAT_RETRIES, retry) ==> !(present(s) && visible(s))
    decreases Budget(CHAT_RETRIES, retry)
  {
    var found := WaitForElement(present, start, CHAT_RETRIES, retry);
    match found {
      case None =>
        r := None;
      case Some(s) =>
        if visible(s) {
          r := Some(s);
        } else if retry < CHAT_RETRIES {
          var b := Budget(CHAT_RETRIES, retry);
          r := ReinitializeChat(present, visible, retry + 1, s + 1);
          if r.Some? {
            assert r.value - (s + 1) <= b * b;
            assert s - start <= b;
            assert b * b + b + 1 <= (b + 1) * (b + 1);
          }
        } else {
          r := None;
        }
    }
  }

  // ---------------------------------------------------------------------------
  // Session flag and URL

  datatype Url = Url(pathname: string, search: string, hash: string)

  /** The session flag's stored value and the page URL. */
  datatype Persist = Persist(flag: Option<string>, url: Url)

  /** `sessionStorage.getItem('chatPopupActive') === 'true'`. */
  predicate Active(p: Persist) {
    p.flag == Some(ACTIVE)
  }

  /** `finalizePopup` (chatPersist.js:61-66): a shown popup sets the flag and
      starts re-initialisation; the second component says whether it did. */
  function FinalizePopup(p: Persist, shown: bool): (r: (Persist, bool))
    ensures r.1 <==> shown
    ensures shown ==> Active(r.0) && r.0.url == p.url
    ensures !shown ==> r.0 == p
  {
    if shown then (p.(flag := Some(ACTIVE)), true) else (p, false)
  }

  /** `closePopup` (chatPersist.js:91-102): the flag is always removed; with the
      `#synthia` hash the URL becomes the bare path. */
  function ClosePopup(p: Persist): (r: Persist)
    ensures r.flag.None? && !Active(r)
    ensures p.url.hash == SYNTHIA_HASH ==> r.url == Url(p.url.pathname, [], [])
    ensures p.url.hash != SYNTHIA_HASH ==> r.url == p.url
  {
    var url := if p.url.hash == SYNTHIA_HASH then Url(p.url.pathname, [], []) else p.url;
    Persist(None, url)
  }

  /** Closing twice is closing once. */
  lemma CloseIdempotent(p: Persist)
    ensures ClosePopup(ClosePopup(p)) == ClosePopup(p)
  {
  }

  /** What a handler asks the page to do besides changing the state. */
  datatype Action = Nothing | Open | Navigate(target: string) | Default

  /** `checkPopupOnLoad` (chatPersist.js:105-114): without the flag nothing; with
      it, set the hash when it differs, otherwise open the popup directly. */
  function CheckPopupOnLoad(p: Persist): (r: (Persist, Action))
    ensures !Active(p) ==> r == (p, Nothing)
    ensures Active(p) && p.url.hash != SYNTHIA_HASH ==> r.0 == p.(url := p.url.(hash := SYNTHIA_HASH)) && r.1 == Nothing
    ensures Active(p) && p.url.hash == SYNTHIA_HASH ==> r == (p, Open)
  {
    if !Active(p) then (p, Nothing)
    else if p.url.hash != SYNTHIA_HASH then (p.(url := p.url.(hash := SYNTHIA_HASH)), Nothing)
    else (p, Open)
  }

  /** The `hashchange` handler (chatPersist.js:143-148). */
  function HashChange(p: Persist): (r: Action)
    ensures r == Open <==> p.url.hash == SYNTHIA_HASH && Active(p)
    ensures r != Open ==> r == Nothing
  {
    if p.url.hash == SYNTHIA_HASH && Active(p) then Open else Nothing
  }

  /** With the flag set, the load check opens the popup exactly once: directly,
      or through the `hashchange` its new hash fires. */
  lemma LoadCheckOpensOnce(p: Persist)
    requires Active(p)
    ensures var (q, act) := CheckPopupOnLoad(p);
      (act == Open) != (q != p && HashChange(q) == Open)
  {
  }

  /** An anchor as the navigation handler sees it: the `href` attribute as
      written (for the selector) and the resolved `href` property. */
  datatype Anchor = Anchor(hrefAttr: Option<string>, href: string)

  /** The selector `a:not([href="#synthia"]):not([href^="javascript"])`. */
  predicate NavBound(a: Anchor) {
    a.hrefAttr.None? || (a.hrefAttr.value != SYNTHIA_HASH && !StartsWith(a.hrefAttr.value, "javascript"))
  }

  /** A click on an anchor (chatPersist.js:119-122, 133-140): `#synthia` links
      open the popup; with the flag set, a bound anchor with a non-empty href
      without `#` navigates to the same address with `#synthia`; every other
      click is left to the browser. */
  function LinkClick(p: Persist, a: Anchor): (r: Action)
    ensures a.hrefAttr == Some(SYNTHIA_HASH) ==> r == Open
    ensures r.Navigate? ==> Active(p) && NavBound(a) && '#' !in a.href && r.target == a.href + SYNTHIA_HASH
    ensures NavBound(a) && Active(p) && a.href != [] && '#' !in a.href ==> r.Navigate?
    ensures !Active(p) && NavBound(a) ==> r == Default
    ensures r == Open <==> a.hrefAttr == Some(SYNTHIA_HASH)
    ensures r.Navigate? ==> a.href != []
    ensures a.hrefAttr != Some(SYNTHIA_HASH) && !(NavBound(a) && Active(p) && a.href != [] && '#' !in a.href) ==> r == Default
  {
    if a.hrefAttr == Some(SYNTHIA_HASH) then Open
    else if NavBound(a) && Active(p) && a.href != [] && !Includes(a.href, "#") then
      NoHashIncluded(a.href);
      Navigate(a.href + SYNTHIA_HASH)
    else
      HashIncluded(a.href);
      Default
  }

  lemma NoHashIncluded(s: string)
    ensures !Includes(s, "#") ==> '#' !in s
  {
    if '#' in s {
      var k :| 0 <= k < |s| && s[k] == '#';
      assert s[k..][..1] == "#";
      IncludesAt(s, "#", k);
    }
  }

  lemma HashIncluded(s: string)
    ensures Includes(s, "#") ==> '#' in s
  {
    if Includes(s, "#") {
      var k := IncludesWitness(s, "#");
      assert s[k..][0] == s[k];
    }
  }

  /** The target of a navigation carries exactly one `#`, the one of `#synthia`,
      so the next page's load check opens the popup directly. */
  lemma NavigationLandsOnSynthia(p: Persist, a: Anchor, pathname: string)
    requires LinkClick(p, a).Navigate?
    ensures var t := LinkClick(p, a).target;
      t[|t| - |SYNTHIA_HASH|..] == SYNTHIA_HASH && '#' !in t[..|t| - |SYNTHIA_HASH|]
    ensures CheckPopupOnLoad(Persist(Some(ACTIVE), Url(pathname, [], SYNTHIA_HASH))).1 == Open
  {
    var t := LinkClick(p, a).target;
    assert t[..|t| - |SYNTHIA_HASH|] == a.href;
  }

  // ---------------------------------------------------------------------------
  // Popup-id filters

  /** The id an Elementor event carries, as a JavaScript value. */
  datatype PopupId = IdNum(n: int) | IdStr(s: string) | IdMissing

  /** chatPersist.js:125-129: `id === 932`, a number. */
  predicate HideMatches(id: PopupId) {
    id == IdNum(POPUP_ID)
  }

  /** chatMain.js:206-211, chatFull.js:107-112, chatSave.js:114-120:
      `popupId === "932"`, a string. */
  predicate ShowMatches(id: PopupId) {
    id == IdStr("932")
  }

  /** The hide handler closes the popup only for the id 932 as a number. */
  function HideEvent(p: Persist, id: PopupId): (r: Persist)
    ensures HideMatches(id) ==> r == ClosePopup(p)
    ensures !HideMatches(id) ==> r == p
  {
    if HideMatches(id) then ClosePopup(p) else p
  }

  /** Strict equality splits the filters: no id value passes both, so the show
      handlers and the hide handler never react to the same kind of id. */
  lemma FiltersAreDisjoint(id: PopupId)
    ensures !(HideMatches(id) && ShowMatches(id))
    ensures HideEvent(Persist(Some(ACTIVE), Url("/", [], SYNTHIA_HASH)), IdStr("932")).flag == Some(ACTIVE)
  {
  }

  // ---------------------------------------------------------------------------
  // Showing the popup

  /** `showPopup` (chatPersist.js:27-58), from the builder's attempt onwards:
      when the builder showed the popup, finalize at once; otherwise wait for
      the popup element, show it, and finalize with whether it became visible;
      when the element never appears nothing is finalized. The result is the
      new state and whether re-initialisation started. */
  method ShowPopup(p: Persist, builderShown: bool, present: nat -> bool, visibleAfterShow: bool) returns (r: Persist, reinit: bool)
    ensures builderShown ==> Active(r) && reinit
    ensures reinit ==> Active(r)
    ensures !reinit ==> r == p
    ensures !builderShown && reinit ==> visibleAfterShow && exists s: nat :: s <= MAX_RETRIES && present(s)
    ensures !builderShown && visibleAfterShow && (exists s: nat :: s <= MAX_RETRIES && present(s)) ==> reinit
    ensures reinit ==> r == p.(flag := Some(ACTIVE))
  {
    if builderShown {
      r, reinit := FinalizePopup(p, true).0, true;
    } else {
      var found := WaitForElement(present, 0, MAX_RETRIES, 0);
      if found.Some? {
        r, reinit := FinalizePopup(p, visibleAfterShow).0, visibleAfterShow;
        if reinit {
          assert found.value <= MAX_RETRIES && present(found.value);
        }
      } else {
        r, reinit := p, false;
      }
    }
  }
}

=== FILE: registry.dfy ===
/** Attaching event handlers exactly once.

    The scripts run their set-up code repeatedly (on every popup show and every
    `chatReinitialize` event) and keep it from attaching a handler twice in one
    of two ways: a marker in the element's `dataset`, or removing and re-adding
    the same function object (the DOM ignores a second registration of the same
    listener). An element is modelled as its dataset and the list of click or
    submit handlers registered on it. */
module Registry {
  import opened Js
  import opened Wrappers
  import opened FullScreen

  /** The handlers the scripts register. `SwDialogClose` and `SwExpand` are
      named functions, the same object on every set-up call; so is
      chatFull.js's module-level debounced toggle. The others are arrow
      functions created afresh by each call. */
  datatype Handler =
    | MainSend            // chatMain.js:161-169, form submit and send button
    | MainCloseScroll     // chatMain.js:178-183
    | FullToggleDebounced // chatFull.js:54, 91
    | FullCloseHandler    // chatFull.js:69-78
    | SaveClick           // chatSave.js:103-106
    | SwSend              // sw-ai-chat.js:178-187
    | SwDialogClose       // sw-ai-chat.js:311-316
    | SwExpand            // sw-ai-chat.js:193-194 (`toggleChatFull`)

  /** The handler is one function object reused by every set-up call. */
  predicate IsShared(h: Handler) {
    h == SwDialogClose || h == SwExpand || h == FullToggleDebounced
  }

  datatype Node = Node(dataset: map<string, string>, handlers: seq<Handler>)

  /** `el.dataset[key]`, with a missing entry read as the empty string (both are
      falsy, and neither equals "true"). */
  function Get(n: Node, key: string): string {
    if key in n.dataset then n.dataset[key] else ""
  }

  function Mark(n: Node, key: string): (r: Node)
    ensures Get(r, key) == "true" && r.handlers == n.handlers
    ensures forall k :: k != key ==> Get(r, k) == Get(n, k)
  {
    n.(dataset := n.dataset[key := "true"])
  }

  /** How many times `h` is registered. */
  function Count(hs: seq<Handler>, h: Handler): (r: nat)
    ensures r <= |hs|
    ensures r == 0 <==> h !in hs
  {
    if hs == [] then 0 else (if hs[0] == h then 1 else 0) + Count(hs[1..], h)
  }

  lemma {:induction false} CountAppend(a: seq<Handler>, b: seq<Handler>, h: Handler)
    ensures Count(a + b, h) == Count(a, h) + Count(b, h)
    decreases |a|
  {
    if a == [] {
      assert a + b == b;
    } else {
      assert (a + b)[1..] == a[1..] + b;
      CountAppend(a[1..], b, h);
    }
  }

  /** `addEventListener`: a shared function already registered is not added
      again; a fresh closure always is. */
  function AddListener(n: Node, h: Handler): (r: Node)
    ensures r.dataset == n.dataset
    ensures Count(r.handlers, h) == if IsShared(h) && h in n.handlers then Count(n.handlers, h) else Count(n.handlers, h) + 1
    ensures forall g :: g != h ==> Count(r.handlers, g) == Count(n.handlers, g)
  {
    if IsShared(h) && h in n.handlers then n
    else
      var r := n.(handlers := n.handlers + [h]);
      CountAppend(n.handlers, [h], h);
      forall g | g != h ensures Count(r.handlers, g) == Count(n.handlers, g) {
        CountAppend(n.handlers, [h], g);
      }
      r
  }

  /** `removeEventListener` of a shared function: every registration of it goes. */
  function RemoveListener(n: Node, h: Handler): (r: Node)
    ensures r.dataset == n.dataset
    ensures h !in r.handlers
    ensures forall g :: g != h ==> Count(r.handlers, g) == Count(n.handlers, g)
  {
    var kept := Without(n.handlers, h);
    n.(handlers := kept)
  }

  function Without(hs: seq<Handler>, h: Handler): (r: seq<Handler>)
    ensures h !in r
    ensures forall g :: g != h ==> Count(r, g) == Count(hs, g)
  {
    if hs == [] then []
    else
      var rest := Without(hs[1..], h);
      if hs[0] == h then rest
      else
        assert [hs[0]] + rest == [hs[0]] + rest;
        CountAppend([hs[0]], rest, hs[0]);
        forall g | g != h ensures Count([hs[0]] + rest, g) == Count(hs, g) {
          CountAppend([hs[0]], rest, g);
        }
        [hs[0]] + rest
  }

  // ---------------------------------------------------------------------------
  // Marker names

  const FORM_MARKER: string := "listenersAttached"
  const BUTTON_MARKER: string := "listenerAttached"

  // ---------------------------------------------------------------------------
  // The guarded attach steps of each script

  /** chatMain.js:121-123: a form whose marker is truthy is left alone;
      otherwise it is marked and the send handler attached. */
  function MainAttachForm(form: Node): (r: Node)
    ensures Get(form, FORM_MARKER) != "" ==> r == form
    ensures Get(form, FORM_MARKER) == "" ==> Get(r, FORM_MARKER) == "true" && Count(r.handlers, MainSend) == Count(form.handlers, MainSend) + 1
  {
    if Get(form, FORM_MARKER) != "" then form else AddListener(Mark(form, FORM_MARKER), MainSend)
  }

  /** sw-ai-chat.js:122-127: the same guard, but the marker must be exactly "true". */
  function SwAttachForm(form: Node): (r: Node)
    ensures Get(form, FORM_MARKER) == "true" ==> r == form
    ensures Get(form, FORM_MARKER) != "true" ==> Get(r, FORM_MARKER) == "true" && Count(r.handlers, SwSend) == Count(form.handlers, SwSend) + 1
  {
    if Get(form, FORM_MARKER) == "true" then form else AddListener(Mark(form, FORM_MARKER), SwSend)
  }

  /** The per-button step of chatMain.js:176-186 and chatFull.js:67-81: attach
      `h` unless the button's marker under `key` is truthy, then mark it. */
  function AttachOnce(n: Node, key: string, h: Handler): (r: Node)
    ensures Get(n, key) != "" ==> r == n
    ensures Get(n, key) == "" ==> Get(r, key) == "true"
    ensures Get(n, key) == "" && h !in n.handlers ==> Count(r.handlers, h) == 1
    ensures forall g :: g != h ==> Count(r.handlers, g) == Count(n.handlers, g)
  {
    if Get(n, key) != "" then n else AddListener(Mark(n, key), h)
  }

  /** chatMain.js's close-button set-up over every `.dialog-close-button`. */
  function MainAttachClose(buttons: seq<Node>): (r: seq<Node>)
    ensures |r| == |buttons|
    ensures forall i :: 0 <= i < |buttons| ==> r[i] == AttachOnce(buttons[i], BUTTON_MARKER, MainCloseScroll)
  {
    seq(|buttons|, i requires 0 <= i < |buttons| => AttachOnce(buttons[i], BUTTON_MARKER, MainCloseScroll))
  }

  /** chatFull.js's close-button set-up, under the same marker name. */
  function FullAttachClose(buttons: seq<Node>): (r: seq<Node>)
    ensures |r| == |buttons|
    ensures forall i :: 0 <= i < |buttons| ==> r[i] == AttachOnce(buttons[i], BUTTON_MARKER, FullCloseHandler)
  {
    seq(|buttons|, i requires 0 <= i < |buttons| => AttachOnce(buttons[i], BUTTON_MARKER, FullCloseHandler))
  }

  /** chatFull.js's `#fullChat` icon set-up (lines 51-57). */
  function FullAttachIcon(icon: Node): (r: Node)
    ensures Count(r.handlers, FullToggleDebounced) <= Count(icon.handlers, FullToggleDebounced) + 1
    ensures Count(r.handlers, FullToggleDebounced) >= 1 || Get(icon, BUTTON_MARKER) != ""
  {
    AttachOnce(icon, BUTTON_MARKER, FullToggleDebounced)
  }

  /** chatSave.js:97-107: skip when the marker is exactly "true". */
  function SaveInit(button: Node): (r: Node)
    ensures Get(button, BUTTON_MARKER) == "true" ==> r == button
    ensures Get(button, BUTTON_MARKER) != "true" ==> Get(r, BUTTON_MARKER) == "true" && Count(r.handlers, SaveClick) == Count(button.handlers, SaveClick) + 1
  {
    if Get(button, BUTTON_MARKER) == "true" then button else AddListener(Mark(button, BUTTON_MARKER), SaveClick)
  }

  /** sw-ai-chat.js's per-element step for a shared function: remove it, then add it. */
  function Reattach(n: Node, h: Handler): (r: Node)
    requires IsShared(h)
    ensures Count(r.handlers, h) == 1
    ensures r.dataset == n.dataset
    ensures forall g :: g != h ==> Count(r.handlers, g) == Count(n.handlers, g)
  {
    var m := RemoveListener(n, h);
    AddListener(m, h)
  }

  /** `attachDialogCloseListeners` (sw-ai-chat.js:297-308). */
  function SwAttachDialogClose(buttons: seq<Node>): (r: seq<Node>)
    ensures |r| == |buttons|
    ensures forall i :: 0 <= i < |buttons| ==> Count(r[i].handlers, SwDialogClose) == 1
  {
    seq(|buttons|, i requires 0 <= i < |buttons| => Reattach(buttons[i], SwDialogClose))
  }

  // ---------------------------------------------------------------------------
  // Whole set-up routines

  /** The guarded part of chatMain.js's `initChat` (lines 114-123, 159-186):
      nothing when an element is missing or the form is already marked;
      otherwise the form is marked and gets its send handler, and every close
      button gets the scroll handler unless it is marked. */
  function MainInitChat(complete: bool, form: Node, buttons: seq<Node>): (r: (Node, seq<Node>))
    ensures !complete || Get(form, FORM_MARKER) != "" ==> r == (form, buttons)
    ensures complete && Get(form, FORM_MARKER) == "" ==> r == (MainAttachForm(form), MainAttachClose(buttons))
    ensures complete ==> Get(r.0, FORM_MARKER) != ""
  {
    if !complete || Get(form, FORM_MARKER) != "" then (form, buttons)
    else (MainAttachForm(form), MainAttachClose(buttons))
  }

  /** Running chatMain.js's set-up again changes nothing. */
  lemma MainInitIdempotent(complete: bool, form: Node, buttons: seq<Node>)
    ensures var (f, bs) := MainInitChat(complete, form, buttons);
      MainInitChat(complete, f, bs) == (f, bs)
  {
  }

  /** What chatFull.js's `attachListeners` works on. */
  datatype FullSetup = FullSetup(icon: Option<Node>, buttons: seq<Node>, page: Page)

  /** The URL flag chatFull.js looks for in the query string. */
  const FULLSCREEN_FLAG: string := "fullscreen=1"

  /** `attachListeners` of chatFull.js (lines 50-88): the icon and the close
      buttons under their markers, then full mode forced whenever the query
      string contains the flag. */
  function FullAttachListeners(s: FullSetup, search: string): (r: FullSetup)
    ensures r.icon.Some? <==> s.icon.Some?
    ensures r.icon.Some? ==> Count(r.icon.value.handlers, FullToggleDebounced) <= Count(s.icon.value.handlers, FullToggleDebounced) + 1
    ensures r.buttons == FullAttachClose(s.buttons)
    ensures Includes(search, FULLSCREEN_FLAG) ==> r.page == FullForceOpen(s.page)
    ensures !Includes(search, FULLSCREEN_FLAG) ==> r.page == s.page
  {
    var icon := match s.icon case Some(n) => Some(FullAttachIcon(n)) case None => None;
    var page := if Includes(search, FULLSCREEN_FLAG) then FullForceOpen(s.page) else s.page;
    FullSetup(icon, FullAttachClose(s.buttons), page)
  }

  /** Every call with the flag forces full mode, and a second call changes
      nothing more. */
  lemma {:induction false} FullAttachIdempotent(s: FullSetup, search: string)
    ensures FullAttachListeners(FullAttachListeners(s, search), search) == FullAttachListeners(s, search)
    ensures Includes(search, FULLSCREEN_FLAG) ==> FullAttachListeners(s, search).page.fullChat
  {
    var r := FullAttachListeners(s, search);
    forall i | 0 <= i < |s.buttons| ensures AttachOnce(r.buttons[i], BUTTON_MARKER, FullCloseHandler) == r.buttons[i] {
      AttachIdempotent(s.buttons[i], BUTTON_MARKER, FullCloseHandler);
    }
    if s.icon.Some? {
      AttachIdempotent(s.icon.value, BUTTON_MARKER, FullToggleDebounced);
    }
  }

  /** The part of sw-ai-chat.js's `initChat` that registers handlers (lines
      88-91, 121-127, 191-198): nothing when an element is missing; otherwise
      the form under its guard, and the expand icon by remove-then-add. */
  function SwInitChat(complete: bool, form: Node, expand: Option<Node>): (r: (Node, Option<Node>))
    ensures !complete ==> r == (form, expand)
    ensures complete ==> Get(r.0, FORM_MARKER) == "true"
    ensures r.1.Some? <==> expand.Some?
    ensures complete && expand.Some? ==> Count(r.1.value.handlers, SwExpand) == 1
  {
    if !complete then (form, expand)
    else
      var icon := match expand case Some(n) => Some(Reattach(n, SwExpand)) case None => None;
      (SwAttachForm(form), icon)
  }

  // ---------------------------------------------------------------------------
  // Once, however often the set-up runs

  /** A handler guarded by a marker: registered at most once, and only after the
      marker was set. */
  predicate GuardedOnce(n: Node, key: string, h: Handler) {
    Count(n.handlers, h) <= 1 && (Get(n, key) == "" ==> Count(n.handlers, h) == 0)
  }

  /** Every guarded step keeps its handler registered at most once, so any
      number of set-up calls on a fresh element attach it once. */
  lemma GuardsKeepOnce(n: Node, key: string, h: Handler)
    ensures GuardedOnce(n, FORM_MARKER, MainSend) ==> GuardedOnce(MainAttachForm(n), FORM_MARKER, MainSend)
    ensures GuardedOnce(n, key, h) ==> GuardedOnce(AttachOnce(n, key, h), key, h)
  {
  }

  /** sw-ai-chat.js's form guard and chatSave.js's button guard accept only the
      exact value "true", so they keep a handler once as long as every marker
      written is "true". */
  lemma ExactGuardsKeepOnce(form: Node, button: Node)
    requires Get(form, FORM_MARKER) in {"", "true"} && Get(button, BUTTON_MARKER) in {"", "true"}
    ensures GuardedOnce(form, FORM_MARKER, SwSend) ==> GuardedOnce(SwAttachForm(form), FORM_MARKER, SwSend)
    ensures GuardedOnce(button, BUTTON_MARKER, SaveClick) ==> GuardedOnce(SaveInit(button), BUTTON_MARKER, SaveClick)
  {
  }

  /** The set-up steps are idempotent. */
  lemma AttachIdempotent(n: Node, key: string, h: Handler)
    ensures MainAttachForm(MainAttachForm(n)) == MainAttachForm(n)
    ensures SwAttachForm(SwAttachForm(n)) == SwAttachForm(n)
    ensures AttachOnce(AttachOnce(n, key, h), key, h) == AttachOnce(n, key, h)
    ensures SaveInit(SaveInit(n)) == SaveInit(n)
  {
  }

  /** `n` set-up calls in a row. */
  function Repeat(step: Node -> Node, n: Node, times: nat): Node
    decreases times
  {
    if times == 0 then n else Repeat(step, step(n), times - 1)
  }

  /** However often chatSave.js's `initSaveChat` runs on a fresh button, one
      click handler is attached. */
  lemma {:induction false} SaveInitOnce(button: Node, times: nat)
    requires Get(button, BUTTON_MARKER) == "" && SaveClick !in button.handlers && times >= 1
    ensures Count(Repeat(SaveInit, button, times).handlers, SaveClick) == 1
  {
    var first := SaveInit(button);
    assert Count(first.handlers, SaveClick) == 1;
    RepeatFixed(SaveInit, first, times - 1);
  }

  /** Repeating a step at one of its fixed points changes nothing. */
  lemma {:induction false} RepeatFixed(step: Node -> Node, n: Node, times: nat)
    requires step(n) == n
    ensures Repeat(step, n, times) == n
    decreases times
  {
    if times > 0 {
      RepeatFixed(step, n, times - 1);
    }
  }

  /** sw-ai-chat.js's remove-then-add keeps exactly one close handler however
      often it runs. */
  lemma {:induction false} SwReattachOnce(n: Node, times: nat)
    requires times >= 1
    ensures Count(Repeat(ReattachDialogClose, n, times).handlers, SwDialogClose) == 1
    decreases times
  {
    if times > 1 {
      SwReattachOnce(ReattachDialogClose(n), times - 1);
    }
  }

  function ReattachDialogClose(n: Node): (r: Node)
    ensures Count(r.handlers, SwDialogClose) == 1
  {
    Reattach(n, SwDialogClose)
  }

  // ---------------------------------------------------------------------------
  // Clicking a close button

  /** The effect of one handler of a close button on the page. */
  function Dispatch(p: Page, h: Handler): Page {
    match h
    case MainCloseScroll => MainClose(p)
    case FullCloseHandler => FullClose(p)
    case SwDialogClose => SwClose(p)
    case _ => p
  }

  /** A click runs the button's handlers in registration order. */
  function Click(p: Page, hs: seq<Handler>): Page
    decreases |hs|
  {
    if hs == [] then p else Click(Dispatch(p, hs[0]), hs[1..])
  }

  /** A close button set up by chatMain.js and then by chatFull.js carries
      only chatMain.js's handler: the shared marker name stops chatFull.js.
      Clicking it in chatFull.js's full mode leaves the mode on and the page
      locked. */
  lemma SharedMarkerBlocksFullClose(b: Node, p: Page)
    requires Get(b, BUTTON_MARKER) == "" && b.handlers == []
    requires p.fullChat && p.locked
    ensures var done := FullAttachClose(MainAttachClose([b]))[0];
      && done.handlers == [MainCloseScroll]
      && FullCloseHandler !in done.handlers
      && Click(p, done.handlers).fullChat && Click(p, done.handlers).locked
  {
    var m := MainAttachClose([b])[0];
    assert m.handlers == [MainCloseScroll];
    assert Get(m, BUTTON_MARKER) == "true";
    var done := FullAttachClose([m])[0];
    assert done == m;
    assert Click(p, done.handlers) == Click(MainClose(p), []);
  }

  /** The marker chatFull.js's close handler is evidently meant to have: one
      of its own. */
  const FULL_CLOSE_MARKER: string := "fullChatCloseAttached"

  /** chatFull.js's close-button set-up under its own marker. */
  function FullAttachCloseIntended(buttons: seq<Node>): (r: seq<Node>)
    ensures |r| == |buttons|
    ensures forall i :: 0 <= i < |buttons| ==> r[i] == AttachOnce(buttons[i], FULL_CLOSE_MARKER, FullCloseHandler)
  {
    seq(|buttons|, i requires 0 <= i < |buttons| => AttachOnce(buttons[i], FULL_CLOSE_MARKER, FullCloseHandler))
  }

  /** With separate markers each script attaches its close handler exactly
      once, in either order, and the click leaves full mode and unlocks. */
  lemma {:induction false} SeparateMarkersAttachBoth(b: Node, p: Page)
    requires Get(b, BUTTON_MARKER) == "" && Get(b, FULL_CLOSE_MARKER) == "" && b.handlers == []
    ensures var x := FullAttachCloseIntended(MainAttachClose([b]))[0];
      && Count(x.handlers, MainCloseScroll) == 1 && Count(x.handlers, FullCloseHandler) == 1
      && !Click(p, x.handlers).fullChat && !Click(p, x.handlers).locked
    ensures var y := MainAttachClose(FullAttachCloseIntended([b]))[0];
      && Count(y.handlers, MainCloseScroll) == 1 && Count(y.handlers, FullCloseHandler) == 1
      && !Click(p, y.handlers).fullChat && !Click(p, y.handlers).locked
  {
    MainThenFullHandlers(b);
    FullThenMainHandlers(b);
    ClickTwo(p, MainCloseScroll, FullCloseHandler);
    ClickTwo(p, FullCloseHandler, MainCloseScroll);
  }

  lemma MainThenFullHandlers(b: Node)
    requires Get(b, BUTTON_MARKER) == "" && Get(b, FULL_CLOSE_MARKER) == "" && b.handlers == []
    ensures FullAttachCloseIntended(MainAttachClose([b]))[0].handlers == [MainCloseScroll, FullCloseHandler]
  {
    var m := MainAttachClose([b])[0];
    assert m.handlers == [MainCloseScroll] && Get(m, FULL_CLOSE_MARKER) == "";
  }

  lemma FullThenMainHandlers(b: Node)
    requires Get(b, BUTTON_MARKER) == "" && Get(b, FULL_CLOSE_MARKER) == "" && b.handlers == []
    ensures MainAttachClose(FullAttachCloseIntended([b]))[0].handlers == [FullCloseHandler, MainCloseScroll]
  {
    var f := FullAttachCloseIntended([b])[0];
    assert f.handlers == [FullCloseHandler] && Get(f, BUTTON_MARKER) == "";
  }

  /** Two distinct handlers: each counted once, run in order. */
  lemma ClickTwo(p: Page, g: Handler, h: Handler)
    requires g != h
    ensures Count([g, h], g) == 1 && Count([g, h], h) == 1
    ensures Click(p, [g, h]) == Dispatch(Dispatch(p, g), h)
  {
    var hs := [g, h];
    assert hs[1..] == [h] && hs[1..][1..] == [];
    assert Count([h], g) == 0 && Count([h], h) == 1;
    assert Click(Dispatch(p, g), [h]) == Dispatch(Dispatch(p, g), h);
  }
}

=== FILE: session.dfy ===
/** One send exchange of the chat form, in both variants: `sendMessage` of
    chatMain.js (lines 125-157) and of sw-ai-chat.js (lines 128-176).

    The request itself is abstracted to its outcome: the fetch rejects (network
    failure or, in chatMain.js, the 30-second timeout), or a response arrives
    with a status and a body that does or does not parse. An exchange is split
    into the submit step, which runs before the request, and the completion
    step, which runs when the outcome is known; the steps of different
    exchanges may interleave where the page allows it. */
module Session {
  import opened Js
  import opened History

  // ---------------------------------------------------------------------------
  // Values a parsed response can carry

  /** A JSON value as far as JavaScript truthiness and `appendMessage` care:
      numbers are integers (JSON has no NaN), objects and arrays are Composite. */
  datatype JsValue = Undefined | Null | Bool(b: bool) | Num(n: int) | Str(s: string) | Composite

  /** JavaScript truthiness. */
  predicate Truthy(v: JsValue) {
    match v
    case Undefined => false
    case Null => false
    case Bool(b) => b
    case Num(n) => n != 0
    case Str(s) => s != []
    case Composite => true
  }

  /** `a || b`: the first operand when it is truthy, otherwise the second. */
  function Or(a: JsValue, b: JsValue): (r: JsValue)
    ensures Truthy(r) <==> Truthy(a) || Truthy(b)
    ensures r == a || r == b
  {
    if Truthy(a) then a else b
  }

  /** What `response.json()` resolves to, seen through `data.response` and
      `data.output`: JSON `null`, or a value whose two properties are read
      (a missing property, and every property of a string, number, boolean or
      array, reads as Undefined). */
  datatype Payload = NullPayload | Fields(response: JsValue, output: JsValue)

  datatype Body = Unparsable(error: string) | Parsed(payload: Payload)

  /** How the request ends. `error` is the message of the error the rejected
      promise carries. */
  datatype FetchOutcome = Failed(error: string) | Responded(status: nat, body: Body)

  /** `response.ok`. */
  predicate Ok(status: nat) {
    200 <= status <= 299
  }

  /** Either the value handed to `appendMessage("bot", …)` on the success path
      or the message of the error thrown before that call. */
  datatype Attempt = Value(v: JsValue) | Thrown(message: string)

  const ERROR_PREFIX: string := "Sorry, something went wrong: "
  const HTTP_ERROR_PREFIX: string := "HTTP error: "
  const MAIN_NO_RESPONSE: string := "Sorry, no response received."
  const SW_NO_RESPONSE: string := "Sorry, no response received from Synthia."
  const SW_ERROR: string := "Sorry, something went wrong."
  const SW_PARSE_FALLBACK: string := "Sorry, there was a problem understanding the response."
  /** The TypeError message of reading `.response` of `null` (V8 wording). */
  const NULL_READ_ERROR: string := "Cannot read properties of null (reading 'response')"
  /** The TypeError message of `text.replace` on a value that is not a string
      (V8 wording); `appendMessage` throws it before touching the history. */
  const NOT_A_STRING_ERROR: string := "text.replace is not a function"

  // ---------------------------------------------------------------------------
  // Reply selection

  /** The try block of chatMain.js: a status outside 200-299 throws, a parse
      error throws, otherwise `response || output || fallback`. */
  function MainAttempt(o: FetchOutcome): (r: Attempt)
    ensures r.Value? ==> Truthy(r.v)
    ensures r.Value? <==> o.Responded? && Ok(o.status) && o.body.Parsed? && o.body.payload.Fields?
    ensures o.Failed? ==> r == Thrown(o.error)
    ensures r.Value? && Truthy(o.body.payload.response) ==> r.v == o.body.payload.response
  {
    match o
    case Failed(e) => Thrown(e)
    case Responded(status, body) =>
      if !Ok(status) then Thrown(HTTP_ERROR_PREFIX + NumberToString(status))
      else
        match body
        case Unparsable(e) => Thrown(e)
        case Parsed(NullPayload) => Thrown(NULL_READ_ERROR)
        case Parsed(Fields(response, output)) => Value(Or(response, Or(output, Str(MAIN_NO_RESPONSE))))
  }

  /** The text of the bot turn chatMain.js appends for an outcome. */
  function MainBotText(o: FetchOutcome): (r: string)
    ensures r != []
    ensures o.Failed? ==> r == ERROR_PREFIX + o.error
    ensures o.Responded? && !Ok(o.status) ==> r == ERROR_PREFIX + HTTP_ERROR_PREFIX + NumberToString(o.status)
    ensures o.Responded? && Ok(o.status) && o.body.Unparsable? ==> r == ERROR_PREFIX + o.body.error
  {
    match MainAttempt(o)
    case Thrown(e) => ERROR_PREFIX + e
    case Value(v) => if v.Str? then v.s else ERROR_PREFIX + NOT_A_STRING_ERROR
  }

  /** The try block of sw-ai-chat.js: no status check, a parse error becomes a
      fixed `response`, then `response`, else `output`, else a fallback. */
  function SwAttempt(o: FetchOutcome): (r: Attempt)
    ensures r.Value? ==> Truthy(r.v)
    ensures r.Thrown? <==> o.Failed? || o.body == Parsed(NullPayload)
    ensures o.Responded? && o.body.Parsed? && o.body.payload.Fields? && Truthy(o.body.payload.response)
            ==> r == Value(o.body.payload.response)
  {
    match o
    case Failed(e) => Thrown(e)
    case Responded(_, body) =>
      match body
      case Unparsable(_) => Value(Str(SW_PARSE_FALLBACK))
      case Parsed(NullPayload) => Thrown(NULL_READ_ERROR)
      case Parsed(Fields(response, output)) =>
        if Truthy(response) then Value(response)
        else if Truthy(output) then Value(output)
        else Value(Str(SW_NO_RESPONSE))
  }

  /** The text of the bot turn sw-ai-chat.js appends for an outcome. */
  function SwBotText(o: FetchOutcome): (r: string)
    ensures r != []
    ensures o.Failed? ==> r == SW_ERROR
    ensures o.Responded? && o.body.Unparsable? ==> r == SW_PARSE_FALLBACK
  {
    match SwAttempt(o)
    case Thrown(_) => SW_ERROR
    case Value(v) => if v.Str? then v.s else SW_ERROR
  }

  /** A parsed payload on an OK response: `response` when it is a non-empty
      string; else `output` when `response` is falsy and `output` is a
      non-empty string; else the fallback when both are falsy. A truthy value
      that is not a string makes `appendMessage` throw, and the catch block
      reports that error instead. */
  lemma MainReplySelection(status: nat, response: JsValue, output: JsValue)
    requires Ok(status)
    ensures var r := MainBotText(Responded(status, Parsed(Fields(response, output))));
      && (response.Str? && Truthy(response) ==> r == response.s)
      && (!Truthy(response) && output.Str? && Truthy(output) ==> r == output.s)
      && (!Truthy(response) && !Truthy(output) ==> r == MAIN_NO_RESPONSE)
      && (Truthy(response) && !response.Str? ==> r == ERROR_PREFIX + NOT_A_STRING_ERROR)
      && (!Truthy(response) && Truthy(output) && !output.Str? ==> r == ERROR_PREFIX + NOT_A_STRING_ERROR)
  {
  }

  /** The same selection in sw-ai-chat.js, whatever the status, with its own
      fallback and a fixed error text. */
  lemma SwReplySelection(status: nat, response: JsValue, output: JsValue)
    ensures var r := SwBotText(Responded(status, Parsed(Fields(response, output))));
      && (response.Str? && Truthy(response) ==> r == response.s)
      && (!Truthy(response) && output.Str? && Truthy(output) ==> r == output.s)
      && (!Truthy(response) && !Truthy(output) ==> r == SW_NO_RESPONSE)
      && (Truthy(response) && !response.Str? ==> r == SW_ERROR)
      && (!Truthy(response) && Truthy(output) && !output.Str? ==> r == SW_ERROR)
  {
  }

  /** sw-ai-chat.js never looks at the status: an error response whose body
      carries a reply is shown like a successful one. chatMain.js reports it. */
  lemma StatusOnlyMattersToMain(status: nat, body: Body)
    requires !Ok(status)
    ensures SwBotText(Responded(status, body)) == SwBotText(Responded(200, body))
    ensures MainBotText(Responded(status, body)) == ERROR_PREFIX + HTTP_ERROR_PREFIX + NumberToString(status)
  {
  }

  /** Both variants agree on a plain OK reply. */
  lemma VariantsAgreeOnStringReply(status: nat, reply: string, output: JsValue)
    requires Ok(status) && reply != []
    ensures MainBotText(Responded(status, Parsed(Fields(Str(reply), output)))) == reply
    ensures SwBotText(Responded(status, Parsed(Fields(Str(reply), output)))) == reply
  {
  }

  // ---------------------------------------------------------------------------
  // The chat form

  /** The input field's text and `disabled` flag, and the number of requests
      awaiting their outcome. */
  datatype Form = Form(input: string, inputEnabled: bool, pending: nat)

  /** The form together with the storage the exchange writes to. */
  datatype Chat = Chat(form: Form, storage: Storage)

  /** The form as `initChat` leaves it. */
  const IDLE: Form := Form([], true, 0)

  /** The user types `text` into the field; a disabled field ignores typing. */
  function Type(f: Form, text: string): (r: Form)
    ensures r.pending == f.pending && r.inputEnabled == f.inputEnabled
    ensures r.input == (if f.inputEnabled then text else f.input)
  {
    if f.inputEnabled then f.(input := text) else f
  }

  /** chatMain.js, form part of the submit step: blank input changes nothing;
      otherwise the field is disabled and cleared and a request starts. */
  function MainSubmitForm(f: Form): (r: Form)
    ensures AllSpace(f.input) ==> r == f
    ensures !AllSpace(f.input) ==> r == Form([], false, f.pending + 1)
  {
    if Trim(f.input) == [] then f else Form([], false, f.pending + 1)
  }

  /** chatMain.js up to the request: trim; nothing on blank input; otherwise
      disable the field, append the user turn, clear the field. */
  function MainSubmit(c: Chat, now: int): (r: Chat)
    ensures r.form == MainSubmitForm(c.form)
    ensures AllSpace(c.form.input) ==> r.storage == c.storage
    ensures !AllSpace(c.form.input) ==> r.storage == AppendCapped(c.storage, now, true, Message(User, Trim(c.form.input)))
  {
    var message := Trim(c.form.input);
    Chat(MainSubmitForm(c.form), if message == [] then c.storage else AppendCapped(c.storage, now, true, Message(User, message)))
  }

  /** chatMain.js, form part of the completion step: the `finally` block
      enables the field again. */
  function MainCompleteForm(f: Form): (r: Form)
    requires f.pending > 0
    ensures r.inputEnabled && r.pending == f.pending - 1 && r.input == f.input
  {
    Form(f.input, true, f.pending - 1)
  }

  /** chatMain.js, history part of the completion step: the bot turn for the
      outcome is appended. */
  function MainAnswer(st: Storage, o: FetchOutcome, now: int): (r: Storage)
    ensures forall k :: k != HISTORY_KEY ==> Read(r, k) == Read(st, k)
    ensures var h := Read(r, HISTORY_KEY);
      h.Record? && h.timestamp == now && 1 <= |h.messages| <= MAX_HISTORY_SIZE
      && h.messages[|h.messages| - 1] == Message(Bot, MainBotText(o))
  {
    AppendCapped(st, now, true, Message(Bot, MainBotText(o)))
  }

  /** chatMain.js once the outcome is known: append the bot turn, then enable
      the field again. */
  function MainComplete(c: Chat, o: FetchOutcome, now: int): (r: Chat)
    requires c.form.pending > 0
    ensures r.form.inputEnabled && r.form.pending == c.form.pending - 1 && r.form.input == c.form.input
    ensures var h := Read(r.storage, HISTORY_KEY);
      h.Record? && h.timestamp == now && h.messages != [] && h.messages[|h.messages| - 1] == Message(Bot, MainBotText(o))
  {
    Chat(MainCompleteForm(c.form), MainAnswer(c.storage, o, now))
  }

  /** sw-ai-chat.js, form part of the submit step: as in chatMain.js, but the
      field is never disabled. */
  function SwSubmitForm(f: Form): (r: Form)
    ensures AllSpace(f.input) ==> r == f
    ensures !AllSpace(f.input) ==> r == Form([], f.inputEnabled, f.pending + 1)
  {
    if Trim(f.input) == [] then f else Form([], f.inputEnabled, f.pending + 1)
  }

  /** sw-ai-chat.js up to the request. */
  function SwSubmit(c: Chat, now: int): (r: Chat)
    ensures r.form == SwSubmitForm(c.form)
    ensures AllSpace(c.form.input) ==> r.storage == c.storage
    ensures !AllSpace(c.form.input) ==> r.storage == AppendPlain(c.storage, now, true, Message(User, Trim(c.form.input)))
  {
    var message := Trim(c.form.input);
    Chat(SwSubmitForm(c.form), if message == [] then c.storage else AppendPlain(c.storage, now, true, Message(User, message)))
  }

  /** sw-ai-chat.js once the outcome is known: append the bot turn; the field
      is left as it is. */
  function SwComplete(c: Chat, o: FetchOutcome, now: int): (r: Chat)
    requires c.form.pending > 0
    ensures r.form == c.form.(pending := c.form.pending - 1)
    ensures r.storage == AppendPlain(c.storage, now, true, Message(Bot, SwBotText(o)))
  {
    Chat(c.form.(pending := c.form.pending - 1), AppendPlain(c.storage, now, true, Message(Bot, SwBotText(o))))
  }

  // ---------------------------------------------------------------------------
  // Laws of the exchange

  /** chatMain.js: at most one request at a time; the field is disabled and
      empty exactly while one is in flight. */
  predicate MainInv(f: Form) {
    f.pending <= 1 && (f.pending == 0 <==> f.inputEnabled) && (!f.inputEnabled ==> f.input == [])
  }

  /** Every step of chatMain.js keeps the invariant, starting from the form
      `initChat` sets up. */
  lemma MainInvPreserved(f: Form, text: string)
    ensures MainInv(IDLE)
    ensures MainInv(f) ==> MainInv(Type(f, text)) && MainInv(MainSubmitForm(f))
    ensures MainInv(f) && f.pending > 0 ==> MainInv(MainCompleteForm(f))
  {
  }

  /** While a chatMain.js request is in flight, typing and submitting again
      changes nothing: a second request cannot start. */
  lemma MainOneAtATime(c: Chat, text: string, now: int)
    requires MainInv(c.form) && c.form.pending == 1
    ensures MainSubmit(Chat(Type(c.form, text), c.storage), now) == c
  {
    assert AllSpace(c.form.input);
  }

  /** sw-ai-chat.js keeps the field enabled, so a second request can start
      before the first one completes. */
  lemma SwAllowsOverlap()
    ensures SwSubmitForm(Type(SwSubmitForm(Type(IDLE, "hi")), "again")).pending == 2
  {
    var hi: string, again: string := "hi", "again";
    assert hi[0] == 'h' && !IsSpace(hi[0]);
    assert again[0] == 'a' && !IsSpace(again[0]);
  }

  /** Blank input (empty after trimming) starts no exchange in either variant. */
  lemma BlankInputIsIgnored(c: Chat, now: int)
    requires AllSpace(c.form.input)
    ensures MainSubmit(c, now) == c && SwSubmit(c, now) == c
  {
  }

  /** The newest two entries of `ms` are `a` then `b`. */
  predicate EndsWithPair(ms: seq<Message>, a: Message, b: Message) {
    |ms| >= 2 && ms[|ms| - 2] == a && ms[|ms| - 1] == b
  }

  /** Appending `b` to a history whose newest entry is `a` and keeping the
      newest MAX_HISTORY_SIZE entries ends with `a` then `b`. */
  lemma CappedPair(l: seq<Message>, a: Message, b: Message, seen: seq<Message>)
    requires |l| >= 1 && l[|l| - 1] == a
    requires seen == SliceLast(l + [b], MAX_HISTORY_SIZE)
    ensures EndsWithPair(seen, a, b)
  {
    var ms := l + [b];
    assert ms == ms[..|ms| - |seen|] + seen;
    assert seen[|seen| - 2] == ms[|ms| - 2];
    assert seen[|seen| - 1] == ms[|ms| - 1];
  }

  /** The form goes through one chatMain.js exchange and comes back idle. */
  lemma MainFormCycle(f: Form)
    requires MainInv(f) && f.pending == 0 && !AllSpace(f.input)
    ensures MainSubmitForm(f).pending == 1 && MainCompleteForm(MainSubmitForm(f)) == IDLE
  {
  }

  /** A complete chatMain.js exchange from an idle form with non-blank input:
      the field is enabled and empty again, and a load within the window sees
      the trimmed user turn followed by the bot turn as its two newest entries. */
  lemma {:induction false} MainExchange(c: Chat, o: FetchOutcome, sent: int, answered: int, later: int)
    requires MainInv(c.form) && c.form.pending == 0 && !AllSpace(c.form.input)
    requires answered - sent <= HISTORY_EXPIRATION && later - answered <= HISTORY_EXPIRATION
    ensures var done := MainComplete(MainSubmit(c, sent), o, answered);
      && done.form == IDLE
      && EndsWithPair(LoadCapped(done.storage, later).messages, Message(User, Trim(c.form.input)), Message(Bot, MainBotText(o)))
  {
    var u := Message(User, Trim(c.form.input));
    var b := Message(Bot, MainBotText(o));
    var done := MainComplete(MainSubmit(c, sent), o, answered);
    assert done.form == IDLE by {
      MainFormCycle(c.form);
    }
    assert done.storage == AppendCapped(AppendCapped(c.storage, sent, true, u), answered, true, b);
    CappedExchangeHistory(c.storage, u, b, sent, answered, later);
  }

  /** Two capped appends, each within the window of the one before, are seen
      by a later load as its last two messages. */
  lemma CappedExchangeHistory(st: Storage, u: Message, b: Message, sent: int, answered: int, later: int)
    requires answered - sent <= HISTORY_EXPIRATION && later - answered <= HISTORY_EXPIRATION
    ensures EndsWithPair(LoadCapped(AppendCapped(AppendCapped(st, sent, true, u), answered, true, b), later).messages, u, b)
  {
    var s1 := AppendCapped(st, sent, true, u);
    var l := LoadCapped(s1, answered).messages;
    CappedAppendIsNewest(st, sent, answered, u);
    CappedAppendThenLoad(s1, answered, later, b);
    CappedPair(l, u, b, LoadCapped(AppendCapped(s1, answered, true, b), later).messages);
  }

  /** A history that gained `u` and then `b` ends with the pair. */
  lemma SnocTwice(l: seq<Message>, u: Message, b: Message, mid: seq<Message>, seen: seq<Message>)
    requires mid == l + [u] && seen == mid + [b]
    ensures seen == l + [u, b]
  {
  }

  /** A complete sw-ai-chat.js exchange: a load within the window sees the
      history loaded before the exchange followed by exactly the user turn and
      the bot turn. */
  lemma {:induction false} SwExchange(c: Chat, o: FetchOutcome, sent: int, answered: int, later: int)
    requires c.form.pending == 0 && !AllSpace(c.form.input)
    requires answered - sent <= HISTORY_EXPIRATION && later - answered <= HISTORY_EXPIRATION
    ensures var done := SwComplete(SwSubmit(c, sent), o, answered);
      && done.form == c.form.(input := [])
      && LoadPlain(done.storage, later).messages
         == LoadPlain(c.storage, sent).messages + [Message(User, Trim(c.form.input)), Message(Bot, SwBotText(o))]
  {
    var u := Message(User, Trim(c.form.input));
    var b := Message(Bot, SwBotText(o));
    var s1 := SwSubmit(c, sent);
    var done := SwComplete(s1, o, answered);
    assert s1.storage == AppendPlain(c.storage, sent, true, u);
    assert done.storage == AppendPlain(s1.storage, answered, true, b);
    PlainAppendThenLoad(c.storage, sent, answered, u);
    PlainAppendThenLoad(s1.storage, answered, later, b);
    SnocTwice(LoadPlain(c.storage, sent).messages, u, b, LoadPlain(s1.storage, answered).messages, LoadPlain(done.storage, later).messages);
  }
}

=== FILE: transcript.dfy ===
/** The chat transcript download: timestamp formatting, file name and text,
    as chatSave.js builds them (lines 22-62) and as sw-ai-chat.js builds them
    (lines 202-252). The clock is a parameter; the rendered text of each
    bubble is given, not derived from its markup. */
module Transcript {
  import opened Js
  import opened Wrappers

  /** The calendar fields the scripts read from `Date`: the month is already
      `getMonth() + 1`. */
  datatype Stamp = Stamp(month: nat, day: nat, year: nat, hours: nat, minutes: nat, seconds: nat)

  /** Fields a real clock produces, with a four-digit year. */
  predicate ValidStamp(st: Stamp) {
    1 <= st.month <= 12 && 1 <= st.day <= 31 && 1000 <= st.year <= 9999
    && st.hours < 24 && st.minutes < 60 && st.seconds < 60
  }

  // ---------------------------------------------------------------------------
  // Two-digit fields

  /** chatSave.js: `String(n).padStart(2, "0")`. */
  function Pad(n: nat): (r: string)
    ensures AllDigits(r) && |r| >= 2
  {
    var s := NumberToString(n);
    var r := PadStart(s, 2, '0');
    assert forall i :: 0 <= i < |r| ==> IsDigit(r[i]) by {
      forall i | 0 <= i < |r| ensures IsDigit(r[i]) {
        if i >= |r| - |s| {
          assert r[i] == r[|r| - |s|..][i - (|r| - |s|)] == s[i - (|r| - |s|)];
        }
      }
    }
    r
  }

  /** sw-ai-chat.js: `('0' + n).slice(-2)`. */
  function SlicePad(n: nat): (r: string)
    ensures |r| == 2 && AllDigits(r)
  {
    var s := "0" + NumberToString(n);
    assert AllDigits(s) by {
      forall i | 0 <= i < |s| ensures IsDigit(s[i]) {
        if i > 0 {
          assert s[i] == NumberToString(n)[i - 1];
        }
      }
    }
    SliceLast(s, 2)
  }

  /** A field below 100 pads to two digits that read back as the field, with a
      leading zero exactly when it is below 10; the two paddings agree there. */
  lemma {:induction false} PadFacts(n: nat)
    requires n < 100
    ensures |Pad(n)| == 2 && DecimalValue(Pad(n)) == n
    ensures Pad(n)[0] == '0' <==> n < 10
    ensures SlicePad(n) == Pad(n)
  {
    NumberToStringLength(n);
    DecimalRoundTrip(n);
    var s := NumberToString(n);
    if n < 10 {
      assert Pad(n) == ['0'] + s;
      assert ("0" + s)[1..] == s;
      assert Pad(n)[..1] == ['0'];
      assert DecimalValue(Pad(n)[..1]) == 0;
    } else {
      assert Pad(n) == s;
      assert ("0" + s)[1..] == s;
    }
  }

  lemma PadReadsBack(n: nat)
    requires n < 100
    ensures |Pad(n)| == 2 && DecimalValue(Pad(n)) == n
  {
    PadFacts(n);
  }

  /** From 100 on the two disagree: `slice(-2)` keeps only the last two digits. */
  lemma PaddingsDisagreeFrom100(n: nat)
    requires n >= 100
    ensures |SlicePad(n)| == 2 && |Pad(n)| >= 3
  {
    NumberToStringLength(n);
  }

  // ---------------------------------------------------------------------------
  // Names and header fields

  const FILE_PREFIX: string := "synthia-chat"

  /** `dateStr`: MMDDYYYY. */
  function DateStr(st: Stamp): string {
    Pad(st.month) + Pad(st.day) + NumberToString(st.year)
  }

  /** `timeStr`: HHMMSS. */
  function TimeStr(st: Stamp): string {
    Pad(st.hours) + Pad(st.minutes) + Pad(st.seconds)
  }

  /** `fullDate`: MM/DD/YYYY. */
  function FullDate(st: Stamp): string {
    Pad(st.month) + "/" + Pad(st.day) + "/" + NumberToString(st.year)
  }

  /** The time part of `toTimeString()`: HH:MM:SS. */
  function FullTime(st: Stamp): string {
    Pad(st.hours) + ":" + Pad(st.minutes) + ":" + Pad(st.seconds)
  }

  /** The session identifier of the header: `dateStr-timeStr`. */
  function SessionId(st: Stamp): string {
    DateStr(st) + "-" + TimeStr(st)
  }

  /** `synthia-chat-MMDDYYYY-HHMMSS.txt`. */
  function FileName(st: Stamp): string {
    FILE_PREFIX + "-" + DateStr(st) + "-" + TimeStr(st) + ".txt"
  }

  /** Reads a file name back into its fields. */
  function ParseFileName(name: string): Option<Stamp> {
    if |name| == 32 && name[..13] == FILE_PREFIX + "-" && AllDigits(name[13..21]) && name[21] == '-'
       && AllDigits(name[22..28]) && name[28..] == ".txt"
    then
      var d, t := name[13..21], name[22..28];
      Some(Stamp(DecimalValue(d[0..2]), DecimalValue(d[2..4]), DecimalValue(d[4..8]),
                 DecimalValue(t[0..2]), DecimalValue(t[2..4]), DecimalValue(t[4..6])))
    else None
  }

  /** Where the parts of `p + d + "-" + t + x` lie, for the lengths a file
      name has. */
  lemma FileNameLayout(p: string, d: string, t: string, x: string)
    requires |p| == 13 && |d| == 8 && |t| == 6 && |x| == 4
    ensures var name := p + d + "-" + t + x;
      && |name| == 32 && name[..13] == p && name[13..21] == d && name[21] == '-'
      && name[22..28] == t && name[28..] == x
  {
  }

  /** Where the three fields of `a + b + c` lie, for two-character `a` and `b`. */
  lemma FieldLayout(a: string, b: string, c: string)
    requires |a| == 2 && |b| == 2
    ensures (a + b + c)[0..2] == a && (a + b + c)[2..4] == b && (a + b + c)[4..4 + |c|] == c
  {
  }

  /** The file name fixes the moment to the second: it reads back as the
      stamp it was made from. */
  lemma {:induction false} FileNameRoundTrip(st: Stamp)
    requires ValidStamp(st)
    ensures |FileName(st)| == 32
    ensures ParseFileName(FileName(st)) == Some(st)
  {
    PadReadsBack(st.month);
    PadReadsBack(st.day);
    PadReadsBack(st.hours);
    PadReadsBack(st.minutes);
    PadReadsBack(st.seconds);
    NumberToStringLength(st.year);
    DecimalRoundTrip(st.year);
    var mo, da, ye := Pad(st.month), Pad(st.day), NumberToString(st.year);
    var ho, mi, se := Pad(st.hours), Pad(st.minutes), Pad(st.seconds);
    var d := mo + da + ye;
    var t := ho + mi + se;
    FieldLayout(mo, da, ye);
    FieldLayout(ho, mi, se);
    DigitsConcat(mo, da);
    DigitsConcat(mo + da, ye);
    DigitsConcat(ho, mi);
    DigitsConcat(ho + mi, se);
    var p := FILE_PREFIX + "-";
    FileNameLayout(p, d, t, ".txt");
    assert FileName(st) == p + d + "-" + t + ".txt";
  }

  lemma DigitsConcat(a: string, b: string)
    requires AllDigits(a) && AllDigits(b)
    ensures AllDigits(a + b)
  {
    forall i | 0 <= i < |a + b| ensures IsDigit((a + b)[i]) {
      if i < |a| {
        assert (a + b)[i] == a[i];
      } else {
        assert (a + b)[i] == b[i - |a|];
      }
    }
  }

  /** Different moments give different file names. */
  lemma FileNamesDistinguishMoments(s1: Stamp, s2: Stamp)
    requires ValidStamp(s1) && ValidStamp(s2) && s1 != s2
    ensures FileName(s1) != FileName(s2)
  {
    FileNameRoundTrip(s1);
    FileNameRoundTrip(s2);
  }

  // ---------------------------------------------------------------------------
  // Transcript text

  /** The first line of the legal notice differs between the two scripts. */
  const SAVE_LEGAL_LABEL: string := "Legal: "
  const SW_LEGAL_LABEL: string := "Legal Info: "
  const LEGAL_TEXT: string := "Informational only. Not legal advice. Data processed as per our Privacy Policy. Content is confidential and non-binding. Use implies acceptance of our Terms & Conditions. All rights reserved."
  const EMPTY_LOG_TEXT: string := "No chat messages available.\n"

  const HEADER_TITLE: string := "Synthia Chat Transcript\nDate: "

  const TIME_LABEL: string := "\nTime: "
  const SESSION_LABEL: string := "\nSession ID: "

  /** The header block for the given date, time and session id texts, ending
      in a blank line. */
  function HeaderText(date: string, time: string, session: string, legalLabel: string): (r: string)
    ensures StartsWith(r, HEADER_TITLE + date)
  {
    var head := HEADER_TITLE + date;
    var tail := TIME_LABEL + time + SESSION_LABEL + session + Footer(legalLabel);
    PrefixOfConcat(head, tail);
    head + tail
  }

  /** The end of the session id line, the legal notice and the blank line. */
  function Footer(legalLabel: string): (r: string)
    ensures |r| > 0 && r[0] == '\n'
  {
    "\n" + legalLabel + LEGAL_TEXT + "\n\n"
  }

  /** chatSave.js's header (lines 39-46): fields padded with `padStart`. */
  function Header(st: Stamp, legalLabel: string): string {
    HeaderText(FullDate(st), FullTime(st), SessionId(st), legalLabel)
  }

  /** The date, `MM/DD/YYYY`, and session id sw-ai-chat.js builds with
      `('0' + n).slice(-2)`. */
  function SwFullDate(st: Stamp): string {
    SlicePad(st.month) + "/" + SlicePad(st.day) + "/" + NumberToString(st.year)
  }

  function SwSessionId(st: Stamp): string {
    SlicePad(st.month) + SlicePad(st.day) + NumberToString(st.year) + "-"
    + (SlicePad(st.hours) + SlicePad(st.minutes) + SlicePad(st.seconds))
  }

  /** sw-ai-chat.js's header (lines 220-226); the time is `toTimeString()` in
      both scripts. */
  function SwHeader(st: Stamp, legalLabel: string): string {
    HeaderText(SwFullDate(st), FullTime(st), SwSessionId(st), legalLabel)
  }

  /** Where the fields of a header lie when they have the widths a valid stamp
      gives them. */
  lemma HeaderLayout(date: string, time: string, session: string, legalLabel: string)
    requires |date| == 10 && |time| == 8 && |session| == 15
    ensures var h := HeaderText(date, time, session, legalLabel);
      && |h| > 83 && h[..30] == HEADER_TITLE && h[30..40] == date && h[40..47] == TIME_LABEL
      && h[47..55] == time && h[55..68] == SESSION_LABEL && h[68..83] == session && h[83] == '\n'
  {
    var f := Footer(legalLabel);
    assert HeaderText(date, time, session, legalLabel) == (HEADER_TITLE + date) + (TIME_LABEL + time + SESSION_LABEL + session + f);
    FieldsLayout(HEADER_TITLE, date, TIME_LABEL, time, SESSION_LABEL, session, f);
  }

  /** Where the parts of `(a + d) + (b + t + c + x + f)` lie, for the widths
      of a header's parts. */
  lemma FieldsLayout(a: string, d: string, b: string, t: string, c: string, x: string, f: string)
    requires |a| == 30 && |d| == 10 && |b| == 7 && |t| == 8 && |c| == 13 && |x| == 15 && |f| > 0
    ensures var h := (a + d) + (b + t + c + x + f);
      && |h| > 83 && h[..30] == a && h[30..40] == d && h[40..47] == b
      && h[47..55] == t && h[55..68] == c && h[68..83] == x && h[83] == f[0]
  {
  }

  /** Reads `NN<sep>NN<sep>N…` back into its three numbers. */
  function ParseField3(x: string, sep: char): Option<(nat, nat, nat)> {
    if |x| >= 7 && AllDigits(x[0..2]) && x[2] == sep && AllDigits(x[3..5]) && x[5] == sep && AllDigits(x[6..])
    then Some((DecimalValue(x[0..2]), DecimalValue(x[3..5]), DecimalValue(x[6..])))
    else None
  }

  /** A field built from three digit runs, the first two of width two,
      reads back as the numbers they read as. */
  lemma FieldParses(a: string, b: string, c: string, sep: char)
    requires |a| == 2 && |b| == 2 && |c| >= 1
    requires AllDigits(a) && AllDigits(b) && AllDigits(c)
    ensures ParseField3(a + [sep] + b + [sep] + c, sep) == Some((DecimalValue(a), DecimalValue(b), DecimalValue(c)))
  {
    var y := a + [sep] + b;
    var x := y + [sep] + c;
    assert y[0..2] == a && y[3..5] == b && y[2] == sep;
    assert x[0..2] == y[0..2] && x[3..5] == y[3..5] && x[2] == y[2];
    assert x[5] == sep && x[6..] == c;
  }

  /** The header's `Date:` field reads back as the stamp's date. */
  lemma {:induction false} HeaderDateReadsBack(st: Stamp, legalLabel: string)
    requires ValidStamp(st)
    ensures var h := Header(st, legalLabel);
      |h| > 83 && h[..30] == HEADER_TITLE && ParseField3(h[30..40], '/') == Some((st.month, st.day, st.year))
  {
    HeaderWidths(st, legalLabel);
    PadReadsBack(st.month);
    PadReadsBack(st.day);
    NumberToStringLength(st.year);
    DecimalRoundTrip(st.year);
    FieldParses(Pad(st.month), Pad(st.day), NumberToString(st.year), '/');
  }

  /** The header's `Time:` field reads back as the stamp's time of day. */
  lemma {:induction false} HeaderTimeReadsBack(st: Stamp, legalLabel: string)
    requires ValidStamp(st)
    ensures var h := Header(st, legalLabel);
      |h| > 83 && h[40..47] == TIME_LABEL && ParseField3(h[47..55], ':') == Some((st.hours, st.minutes, st.seconds))
  {
    HeaderWidths(st, legalLabel);
    PadReadsBack(st.hours);
    PadReadsBack(st.minutes);
    PadReadsBack(st.seconds);
    FieldParses(Pad(st.hours), Pad(st.minutes), Pad(st.seconds), ':');
  }

  /** For a valid stamp the header's fields have their usual widths and lie
      where `HeaderLayout` puts them. */
  lemma HeaderWidths(st: Stamp, legalLabel: string)
    requires ValidStamp(st)
    ensures |FullDate(st)| == 10 && |FullTime(st)| == 8 && |SessionId(st)| == 15
    ensures var h := Header(st, legalLabel);
      && |h| > 83 && h[..30] == HEADER_TITLE && h[30..40] == FullDate(st) && h[40..47] == TIME_LABEL
      && h[47..55] == FullTime(st) && h[55..68] == SESSION_LABEL && h[68..83] == SessionId(st) && h[83] == '\n'
  {
    PadReadsBack(st.month);
    PadReadsBack(st.day);
    PadReadsBack(st.hours);
    PadReadsBack(st.minutes);
    PadReadsBack(st.seconds);
    NumberToStringLength(st.year);
    HeaderLayout(FullDate(st), FullTime(st), SessionId(st), legalLabel);
  }

  /** The file name carries the header's session id: it is the prefix, the
      text of the `Session ID:` line, and `.txt`, and that text reads back as
      the stamp. */
  lemma {:induction false} HeaderNamesFile(st: Stamp, legalLabel: string)
    requires ValidStamp(st)
    ensures var h := Header(st, legalLabel);
      && |h| > 83 && h[55..68] == SESSION_LABEL && h[83] == '\n'
      && FileName(st) == FILE_PREFIX + "-" + h[68..83] + ".txt"
      && ParseFileName(FILE_PREFIX + "-" + h[68..83] + ".txt") == Some(st)
  {
    HeaderWidths(st, legalLabel);
    Regroup(FILE_PREFIX + "-", DateStr(st), TimeStr(st), ".txt");
    FileNameRoundTrip(st);
  }

  lemma Regroup(p: string, d: string, t: string, x: string)
    ensures p + d + "-" + t + x == p + (d + "-" + t) + x
  {
  }

  /** For every valid stamp the two scripts write the same header. */
  lemma SwHeaderAgrees(st: Stamp, legalLabel: string)
    requires ValidStamp(st)
    ensures SwHeader(st, legalLabel) == Header(st, legalLabel)
  {
    SwPadsAgree(st);
    PadFacts(st.month);
    PadFacts(st.day);
    assert SwFullDate(st) == FullDate(st) && SwSessionId(st) == SessionId(st);
  }

  lemma PrefixOfConcat(a: string, b: string)
    ensures StartsWith(a + b, a)
  {
    assert (a + b)[..|a|] == a;
  }

  /** A bubble's class and rendered text. */
  datatype Bubble = Bubble(isUser: bool, text: string)

  /** A `.chat-text` wrapper: its first `div`, if it has one. */
  datatype Wrapper = Wrapper(bubble: Option<Bubble>)

  function SenderTag(b: Bubble): string {
    if b.isUser then "User: " else "Synthia: "
  }

  /** chatSave.js's entry: the tag, the trimmed text, a blank line. */
  function SaveEntry(b: Bubble): (r: string)
    ensures StartsWith(r, SenderTag(b)) && |r| >= |SenderTag(b)| + 2 && r[|r| - 2..] == "\n\n"
    ensures r[|SenderTag(b)|..|r| - 2] == Trim(b.text)
    ensures var text := r[|SenderTag(b)|..|r| - 2];
      text == [] || (!IsSpace(text[0]) && !IsSpace(text[|text| - 1]))
  {
    var tag, text := SenderTag(b), Trim(b.text);
    EntryParts(tag, text);
    TrimmedEnds(tag + text + "\n\n", |tag|, text);
    tag + text + "\n\n"
  }

  /** sw-ai-chat.js's entry: the tag, the text as rendered, a blank line. */
  function SwEntry(b: Bubble): (r: string)
    ensures StartsWith(r, SenderTag(b)) && |r| == |SenderTag(b)| + |b.text| + 2
    ensures r[|SenderTag(b)|..|r| - 2] == b.text
  {
    EntryParts(SenderTag(b), b.text);
    SenderTag(b) + b.text + "\n\n"
  }

  lemma TrimmedEnds(e: string, k: nat, text: string)
    requires k + 2 <= |e| && e[k..|e| - 2] == text
    requires text == [] || (!IsSpace(text[0]) && !IsSpace(text[|text| - 1]))
    ensures var t := e[k..|e| - 2]; t == [] || (!IsSpace(t[0]) && !IsSpace(t[|t| - 1]))
  {
  }

  /** Where the tag, the text and the blank line of an entry lie. */
  lemma EntryParts(tag: string, text: string)
    ensures var e := tag + text + "\n\n";
      && StartsWith(e, tag) && |e| == |tag| + |text| + 2
      && e[|tag|..|e| - 2] == text && e[|e| - 2..] == "\n\n"
  {
    var e := tag + text + "\n\n";
    assert e[..|tag|] == tag;
    assert e[|tag|..|e| - 2] == text;
  }

  /** Reference definition of the body: the entries of the wrappers that have
      a bubble, in order. */
  function Entries(ws: seq<Wrapper>, entry: Bubble -> string): string
    decreases |ws|
  {
    if ws == [] then []
    else (match ws[0].bubble case Some(b) => entry(b) case None => []) + Entries(ws[1..], entry)
  }

  lemma {:induction false} EntriesSnoc(ws: seq<Wrapper>, w: Wrapper, entry: Bubble -> string)
    ensures Entries(ws + [w], entry) == Entries(ws, entry) + (match w.bubble case Some(b) => entry(b) case None => [])
    decreases |ws|
  {
    if ws == [] {
      assert [w][1..] == [];
      assert ws + [w] == [w];
    } else {
      assert (ws + [w])[1..] == ws[1..] + [w];
      EntriesSnoc(ws[1..], w, entry);
    }
  }

  /** The body is empty exactly when no wrapper has a bubble, since every entry
      is non-empty. */
  lemma {:induction false} EntriesEmpty(ws: seq<Wrapper>)
    ensures Entries(ws, SaveEntry) == [] <==> forall i :: 0 <= i < |ws| ==> ws[i].bubble.None?
    decreases |ws|
  {
    if ws != [] {
      EntriesEmpty(ws[1..]);
      assert forall i :: 1 <= i < |ws| ==> ws[i] == ws[1..][i - 1];
    }
  }

  /** The text and file name a save produces. */
  datatype Download = Download(text: string, fileName: string)

  /** `text += …` over the wrappers, one entry per wrapper with a bubble. */
  method AppendEntries(start: string, ws: seq<Wrapper>, entry: Bubble -> string) returns (text: string)
    ensures text == start + Entries(ws, entry)
  {
    text := start;
    var i := 0;
    while i < |ws|
      invariant 0 <= i <= |ws|
      invariant text == start + Entries(ws[..i], entry)
    {
      EntriesSnoc(ws[..i], ws[i], entry);
      assert ws[..i + 1] == ws[..i] + [ws[i]];
      match ws[i].bubble {
        case Some(b) => text := text + entry(b);
        case None =>
      }
      i := i + 1;
    }
    assert ws[..i] == ws;
  }

  /** `generateTranscript` of chatSave.js: nothing without a chat log; the
      fixed text for a log without wrappers; otherwise the header and one
      entry per wrapper that has a bubble. */
  method GenerateTranscript(log: Option<seq<Wrapper>>, st: Stamp) returns (r: Option<Download>)
    ensures r.None? <==> log.None?
    ensures r.Some? ==> r.value.fileName == FileName(st)
    ensures log.Some? && log.value == [] ==> r.value.text == Header(st, SAVE_LEGAL_LABEL) + EMPTY_LOG_TEXT
    ensures log.Some? && log.value != [] ==> r.value.text == Header(st, SAVE_LEGAL_LABEL) + Entries(log.value, SaveEntry)
  {
    match log {
      case None => r := None;
      case Some(ws) =>
        var text := Header(st, SAVE_LEGAL_LABEL);
        if |ws| == 0 {
          text := text + EMPTY_LOG_TEXT;
        } else {
          text := AppendEntries(text, ws, SaveEntry);
        }
        r := Some(Download(text, FileName(st)));
    }
  }

  /** sw-ai-chat.js's file name, built with `('0' + n).slice(-2)`; for every
      valid stamp it is chatSave.js's. */
  function SwFileName(st: Stamp): (r: string)
    ensures ValidStamp(st) ==> r == FileName(st)
  {
    var date := SlicePad(st.month) + SlicePad(st.day) + NumberToString(st.year);
    var time := SlicePad(st.hours) + SlicePad(st.minutes) + SlicePad(st.seconds);
    SwPadsAgree(st);
    FILE_PREFIX + "-" + date + "-" + time + ".txt"
  }

  lemma SwPadsAgree(st: Stamp)
    ensures ValidStamp(st) ==> SlicePad(st.month) + SlicePad(st.day) + NumberToString(st.year) == DateStr(st)
    ensures ValidStamp(st) ==> SlicePad(st.hours) + SlicePad(st.minutes) + SlicePad(st.seconds) == TimeStr(st)
  {
    if ValidStamp(st) {
      PadFacts(st.month);
      PadFacts(st.day);
      PadFacts(st.hours);
      PadFacts(st.minutes);
      PadFacts(st.seconds);
    }
  }

  /** `saveChatToFile` of sw-ai-chat.js: nothing without a chat log; otherwise
      the header and one entry per wrapper with a bubble, with no text for an
      empty log. */
  method SwSaveChat(log: Option<seq<Wrapper>>, st: Stamp) returns (r: Option<Download>)
    ensures r.None? <==> log.None?
    ensures r.Some? ==> r.value.text == SwHeader(st, SW_LEGAL_LABEL) + Entries(log.value, SwEntry)
    ensures r.Some? && ValidStamp(st) ==> r.value.text == Header(st, SW_LEGAL_LABEL) + Entries(log.value, SwEntry)
    ensures r.Some? ==> r.value.fileName == SwFileName(st)
    ensures r.Some? && ValidStamp(st) ==> r.value.fileName == FileName(st)
  {
    match log {
      case None => r := None;
      case Some(ws) =>
        var text := AppendEntries(SwHeader(st, SW_LEGAL_LABEL), ws, SwEntry);
        r := Some(Download(text, SwFileName(st)));
        if ValidStamp(st) {
          SwHeaderAgrees(st, SW_LEGAL_LABEL);
        }
    }
  }

  /** chatSave.js: a log whose wrappers all lack a bubble yields the bare
      header, without the empty-log text. */
  lemma BubblelessLogGivesBareHeader(ws: seq<Wrapper>, header: string)
    requires ws != [] && forall i :: 0 <= i < |ws| ==> ws[i].bubble.None?
    ensures header + Entries(ws, SaveEntry) == header
  {
    EntriesEmpty(ws);
    assert header + [] == header;
  }

  /** Two bubbles, user then bot, give two entries in that order. */
  lemma TwoBubbles(u: string, a: string)
    ensures Entries([Wrapper(Some(Bubble(true, u))), Wrapper(Some(Bubble(false, a)))], SaveEntry)
         == "User: " + Trim(u) + "\n\n" + "Synthia: " + Trim(a) + "\n\n"
  {
    var x, y := Bubble(true, u), Bubble(false, a);
    EntriesOfTwo(x, y, SaveEntry);
    SaveEntryOf(x);
    SaveEntryOf(y);
  }

  lemma SaveEntryOf(b: Bubble)
    ensures SaveEntry(b) == SenderTag(b) + Trim(b.text) + "\n\n"
  {
  }

  /** The body of a log of two bubbles is their two entries, in order. */
  lemma EntriesOfTwo(x: Bubble, y: Bubble, entry: Bubble -> string)
    ensures Entries([Wrapper(Some(x)), Wrapper(Some(y))], entry) == entry(x) + entry(y)
  {
    var ws := [Wrapper(Some(x)), Wrapper(Some(y))];
    assert ws[1..] == [Wrapper(Some(y))];
    assert ws[1..][1..] == [];
    assert Entries(ws[1..], entry) == entry(y) + Entries([], entry);
    assert Entries(ws, entry) == entry(x) + Entries(ws[1..], entry);
  }
}

=== FILE: wrappers.dfy ===
/** Failure-compatible optional values shared by the widget's modules. */
module Wrappers {

  /** A value that may be missing: the model's stand-in for `null`/`undefined`. */
  datatype Option<+T> = None | Some(value: T) {

    /** The value, or `default` when there is none. */
    function GetOr(default: T): T {
      match this
      case Some(v) => v
      case None => default
    }
  }
}
